=== FILE: README.md ===
# Soft AP manager, hotspot client lists and carrier EAP networks, in Dafny

This project models three parts of the Android Wi-Fi service as pure functions and proves properties about them.

- **SoftApManager.** The soft-AP state machine becomes a transition function over a `Session`. A `Session` holds:
  - the phase: Idle, Started, or Quit after `quitNow`;
  - the interface name, and whether the interface is up or destroyed;
  - the connected-station string and the associated-station count;
  - the idle-timeout flag and the pending timer;
  - the hotspot client statistics.

  Each message (`Event`) yields the next session plus the outputs the manager produces:
  - state broadcasts (`updateApState`);
  - client-count callbacks;
  - interface teardown;
  - allow-list sync to the driver;
  - connection broadcasts;
  - band-preference metrics;
  - the restart request.

  The native layer's answers during a start are parameters of the `Start` message. These are the interface name, the start result, whether the interface is up, the configured delay and the timeout setting.
- **WifiApClientStats.** The hotspot client caches are modelled:
  - connected-client infos, the block list and the allow list;
  - the block mode;
  - the dirty flags;
  - the two list files.

  The files are sequences of lines in the hostapd.accept format: an optional `#!macaddr_acl=N` line, then `MAC` or `MAC #NAME` lines. Every public operation is modelled, along with the loader thread and the writer. HashMaps are association lists whose order is the iteration order.
- **CarrierNetworkConfig.** Modelled parts:
  - the carrier network table built from `"<base64 SSID>,<EAP number>"` entries, and its getters;
  - the SIM-slot check against an operator IMSI pattern;
  - the presetting of operator EAP networks from ten-field entries into the saved-network store.

Java library behaviour is written out where the model depends on it:
- `String.split` with a one-character separator: trailing empty fields are dropped, and a string without the separator splits into itself.
- `String.contains`, `startsWith` and `trim`.
- `Integer.parseInt` and `Boolean.parseBoolean`, ASCII only.

Modules:

| module | models |
|---|---|
| Wrappers | `Option`, for Java references that may be null |
| JavaString | split, join, contains, startsWith and trim, with the split/join round trip |
| JavaInt | `Integer.parseInt`, decimal formatting, `Boolean.parseBoolean` |
| AssocCache | a HashMap of strings as an association list |
| AcceptFile | the accept-file line format, the writer's lines and the loader |
| ClientStats | WifiApClientStats |
| Roster | the connected-station string of StartedState |
| SoftApPolicy | `startSoftAp`, the timeout delay, the failure reason and the band-preference rule |
| SoftApMachine | the state machine: `Session`, `Event`, `Output` and `Step` |
| SoftApProperties | the session invariant and the lemmas about the machine |
| CarrierNetworks | the carrier network table |
| CarrierSim | the SIM-slot check and the EAP network preset |

## Model

| member | source | states |
|---|---|---|
| SoftApPolicy.StartSoftAp | service/java/com/android/server/wifi/SoftApManager.java:357-422 | A missing config or SSID fails before anything changes. Otherwise macAddrAcl follows allow-list mode and an empty country code falls back to the saved setting. SUCCESS iff the country-code step allows it, channel selection succeeds and the native start succeeds. NO_CHANNEL iff the channel step reports it. A 5GHz request without a country code fails. |
| SoftApPolicy.TimeoutDelay | service/java/com/android/server/wifi/SoftApManager.java:577-586 | The delay is the configured one, raised to the 10-minute minimum. It is never below either. |
| SoftApPolicy.FailureReason | service/java/com/android/server/wifi/SoftApManager.java:516-523 | The reason is NO_CHANNEL exactly for ERROR_NO_CHANNEL, otherwise GENERAL. |
| SoftApPolicy.BandPreferenceViolated | service/java/com/android/server/wifi/SoftApManager.java:710-724 | Violated iff a 2GHz request runs on 5GHz or a 5GHz request runs on 2.4GHz. Never for any-band. |
| SoftApPolicy.CountryCodeAllows | service/java/com/android/server/wifi/SoftApManager.java:368-393 | Non-5GHz bands always go on. A 5GHz band goes on iff a country code exists and the HAL accepts it. |
| SoftApMachine.StartedStep | service/java/com/android/server/wifi/SoftApManager.java:730-851 | The StartedState dispatch. A message leaves the machine Started or quits it, never back in Idle. Each case is specified by the SoftApProperties lemmas (StepKeepsValid and those after it). |
| SoftApMachine.Step | service/java/com/android/server/wifi/SoftApManager.java:490-851 | processMessage of the current state. A quit machine changes nothing except for stop(). Idle ignores everything but start and stop. The machine never returns to Idle once it has left it. |
| SoftApMachine.Run | service/java/com/android/server/wifi/SoftApManager.java:490-851 | A sequence of messages, one by one. The machine never returns to Idle, and a quit machine stays quit and, without stop(), reports nothing. |
| SoftApMachine.Init | service/java/com/android/server/wifi/SoftApManager.java:180-214 | A new manager is Idle, with no interface, no stations, count 0 and no timer. |
| SoftApMachine.CallbackEvent | service/java/com/android/server/wifi/SoftApManager.java:459-477 | An interface callback becomes a message iff it names the manager's own interface. |
| SoftApMachine.SetNumAssociatedStations | service/java/com/android/server/wifi/SoftApManager.java:605-625 | An unchanged count does nothing. A new count is reported, and the timer becomes pending for 0 when timeout is enabled and is cancelled otherwise. |
| SoftApMachine.OnUpChanged | service/java/com/android/server/wifi/SoftApManager.java:627-655 | No change does nothing. Coming up syncs the allow-list MACs and mode first (when named), then reports ENABLED and the client count. Going down posts CMD_INTERFACE_DOWN only. |
| SoftApMachine.EnterStarted | service/java/com/android/server/wifi/SoftApManager.java:658-679 | Flags and count are reset. The delay is at least the minimum. The timer is armed iff timeout is enabled. The up state is applied. |
| SoftApMachine.ExitStarted | service/java/com/android/server/wifi/SoftApManager.java:682-708 | Stats are stopped, and the interface is torn down unless destroyed. The list is emptied, the count is 0 and the timer is cancelled. DISABLED is reported last and the machine quits. |
| SoftApMachine.StopSession | service/java/com/android/server/wifi/SoftApManager.java:271-283 | DISABLING is reported iff an interface name is set (from ENABLED if up, else from ENABLING). Then the machine quits, running exit when Started. |
| SoftApMachine.IdleStart | service/java/com/android/server/wifi/SoftApManager.java:499-536 | An empty name reports FAILED (general) and stays Idle. A failed start reports FAILED with its reason, tears down and stays Idle. Success enters Started. |
| SoftApMachine.ToggleTimeout | service/java/com/android/server/wifi/SoftApManager.java:747-759 | The same setting changes nothing. Off cancels the timer. On schedules it iff no station is connected. |
| SoftApMachine.StationsChanged | service/java/com/android/server/wifi/SoftApManager.java:815-821 | The new list goes to the client statistics, the count becomes the length of their info list, and a connection broadcast follows. |
| SoftApMachine.FailAndExit | service/java/com/android/server/wifi/SoftApManager.java:789-801 | FAILED (general) then DISABLING are reported, a restart is requested, and the machine leaves Started. |
| SoftApProperties.InitValid | service/java/com/android/server/wifi/SoftApManager.java:180-214 | A new manager over valid client statistics satisfies the session invariant. |
| SoftApProperties.StepKeepsValid | service/java/com/android/server/wifi/SoftApManager.java:490-851 | Every message keeps the invariant, where a connect carries a MAC of 17 characters without a space, the shape the driver reports. It covers a well-formed station list of distinct MACs whose length is the count, and a live interface while Started. It also covers the timer rule: while Started the timer is pending iff timeout is enabled and no station is connected. |
| SoftApProperties.RunKeepsValid | service/java/com/android/server/wifi/SoftApManager.java:490-851 | Every sequence of messages keeps the invariant, with connect MACs of 17 characters without a space. |
| SoftApProperties.QuitIsTerminal | service/java/com/android/server/wifi/SoftApManager.java:271-283 | A quit machine ignores every message. stop() reports only DISABLING, from ENABLED or ENABLING by the up state, and only when an interface name is set. |
| SoftApProperties.RunStaysQuit | service/java/com/android/server/wifi/SoftApManager.java:700-708 | Once quit, the machine stays quit under any sequence of messages. |
| SoftApProperties.IdleStartOutcomes | service/java/com/android/server/wifi/SoftApManager.java:499-536 | The three outcomes of CMD_START in Idle, with the exact reports of each. |
| SoftApProperties.EnterOnSuccessfulStart | service/java/com/android/server/wifi/SoftApManager.java:658-679 | After a successful start the timer is armed iff timeout is enabled, and ENABLED is reported at once iff the interface is up. |
| SoftApProperties.ConnectStep | service/java/com/android/server/wifi/SoftApManager.java:802-821 | A connect with a MAC of 17 characters without a space appends it only when it is not listed. The count afterwards is the number of listed stations. |
| SoftApProperties.DisconnectStep | service/java/com/android/server/wifi/SoftApManager.java:822-846 | A disconnect removes exactly the MAC's token and keeps the order of the rest. A MAC that is not listed changes nothing. The count follows. |
| SoftApProperties.StationChangeTimer | service/java/com/android/server/wifi/SoftApManager.java:605-625 | After a station change, with any MAC string, the timer is pending iff no station is left and timeout is enabled. |
| SoftApProperties.ToggleTimer | service/java/com/android/server/wifi/SoftApManager.java:747-759 | After the toggle, the timer rule of the invariant holds with the new setting. |
| SoftApProperties.TimeoutRule | service/java/com/android/server/wifi/SoftApManager.java:767-781 | A timeout leaves Started iff timeout is enabled and no station is connected. Otherwise it is dropped. |
| SoftApProperties.QuietMessages | service/java/com/android/server/wifi/SoftApManager.java:730-766 | A native station count, a channel switch and a repeated start leave the state and the count alone. |
| SoftApProperties.BandViolationRule | service/java/com/android/server/wifi/SoftApManager.java:738-746 | A channel switch records the frequency and bandwidth. It counts a violation iff the band rule says so. |
| SoftApProperties.ExitsEndAlike | service/java/com/android/server/wifi/SoftApManager.java:682-708 | Every path out of Started ends with an empty list, count 0, no timer, DISABLED last and the machine quit. The interface is torn down unless it was destroyed. |
| SoftApProperties.StopAfterFailedStart | service/java/com/android/server/wifi/SoftApManager.java:271-283 | stop() after a start that failed past interface setup reports DISABLING from ENABLING, and no DISABLED. |
| Roster.AfterConnect | service/java/com/android/server/wifi/SoftApManager.java:806-814 | The first station becomes the list. A contained MAC leaves the list unchanged. Otherwise the list grows at the end. |
| Roster.PrefixMacIgnored | service/java/com/android/server/wifi/SoftApManager.java:809 | A MAC that is a proper prefix of a listed station is not in the list, yet the substring test finds it, so a connect leaves the list as it was. |
| Roster.AfterDisconnect | service/java/com/android/server/wifi/SoftApManager.java:826-839 | An unlisted MAC leaves the list as it was. The rebuilt list is given by DisconnectRemoves and RejoinJoins. |
| Roster.Rejoin | service/java/com/android/server/wifi/SoftApManager.java:829-838 | The rebuild loop, specified by RejoinJoins: the join of the tokens that are not the MAC. |
| Roster.ContainsIsMember | service/java/com/android/server/wifi/SoftApManager.java:809 | For a well-formed list and a 17-character MAC, the substring test is token membership. |
| Roster.ConnectAppendsOnce | service/java/com/android/server/wifi/SoftApManager.java:806-814 | A connect keeps the list well formed. The tokens become old tokens plus the MAC iff it was absent. |
| Roster.DisconnectRemoves | service/java/com/android/server/wifi/SoftApManager.java:826-839 | The rebuild keeps the list well formed. Its tokens are the old tokens without the MAC, in order. |
| Roster.RejoinJoins | service/java/com/android/server/wifi/SoftApManager.java:829-838 | The rebuild loop yields the join of the kept tokens. |
| AcceptFile.CheckMac | service/java/com/android/server/wifi/WifiApClientStats.java:577-583 | False for null. Otherwise true exactly when the string is six hex pairs joined by ':', the groups of the pattern at line 70. So it is 17 characters, with no space and no leading '#'. |
| AcceptFile.MacPatternIsPairs | service/java/com/android/server/wifi/WifiApClientStats.java:70 | Reading the pattern character by character (hex digits, with a ':' at every third place) agrees with reading it group by group (six hex pairs joined by ':'). |
| AcceptFile.ParseEntryLine | service/java/com/android/server/wifi/WifiApClientStats.java:166-181 | No entry exactly when the split is empty. Malformed, the StringIndexOutOfBoundsException of line 177, exactly when the second token is empty. A line without a space is its own key and info. |
| AcceptFile.NameMarkDropped | service/java/com/android/server/wifi/WifiApClientStats.java:173-178 | `MAC xNAME` reads as key MAC and info `MAC NAME`. The character after the space is dropped whatever it is, so "mac x" gives the info "mac ". |
| AcceptFile.TwoSpacesMalformed | service/java/com/android/server/wifi/WifiApClientStats.java:166-177 | A MAC followed by two spaces and a token is Malformed. |
| AcceptFile.MalformedLineSkipped | service/java/com/android/server/wifi/WifiApClientStats.java:147-196 | A malformed entry line ends the code's loader with the entries before it. The skipping loader reads on as if the line were absent. |
| AcceptFile.TwoSpacesEndLoad | service/java/com/android/server/wifi/WifiApClientStats.java:177 | The line "00:08:22:0e:2d:fc  #x" ends the code's loader, and the skipping loader ignores it. |
| AcceptFile.LoadLinesSkipping | service/java/com/android/server/wifi/WifiApClientStats.java:147-196 | The corrected loader keeps the loader invariant. Once it is an allow list it leaves the block list alone. |
| AcceptFile.SkippingAgrees | service/java/com/android/server/wifi/WifiApClientStats.java:147-196 | On every file the code reads to its end, the corrected loader builds the same lists and mode. |
| AcceptFile.LoadLine | service/java/com/android/server/wifi/WifiApClientStats.java:152-188 | A mode line switches to the allow list and normalises the mode. Comments are skipped. An entry is put into the list being filled. The loader invariant is kept. |
| AcceptFile.LoadLines | service/java/com/android/server/wifi/WifiApClientStats.java:147-204 | The loader keeps its invariant. Once it is an allow list it leaves the block list alone. An abort names a failing line. |
| AcceptFile.EntryLineRoundTrip | service/java/com/android/server/wifi/WifiApClientStats.java:259-267 | The line written for a well-formed entry reads back as that entry. |
| AcceptFile.EntryLineIsOneLine | service/java/com/android/server/wifi/WifiApClientStats.java:248-252 | The line written for an entry without line breaks holds none, so readLine meets it as one line. |
| AcceptFile.EntryLines | service/java/com/android/server/wifi/WifiApClientStats.java:240-270 | One written line per cached info. Read back by LoadEntryLines. |
| AcceptFile.WhiteListLines | service/java/com/android/server/wifi/WifiApClientStats.java:240-256 | The allow-list file is the mode line and then one line per entry. Read back by WhiteListRoundTrip. |
| AcceptFile.LoadEntryLines | service/java/com/android/server/wifi/WifiApClientStats.java:147-204 | Loading the written lines of a cache appends that cache, in order, to the list being filled. |
| AcceptFile.WhiteListRoundTrip | service/java/com/android/server/wifi/WifiApClientStats.java:240-256 | For entries that are a non-empty key without spaces and not starting with '#', alone or followed by a space and a non-empty name without spaces or line breaks (so a name such as "My Phone" is not recovered), loading the allow-list file recovers the mode and every entry in order, and leaves the block list alone. |
| AcceptFile.BlockListRoundTrip | service/java/com/android/server/wifi/WifiApClientStats.java:257-270 | For entries that are a non-empty key without spaces and not starting with '#', alone or followed by a space and a non-empty name without spaces or line breaks (so a name such as "My Phone" is not recovered), loading the block-list file recovers every entry in order. |
| ClientStats.Init | service/java/com/android/server/wifi/WifiApClientStats.java:82-97 | Empty caches, block mode "0" and nothing unsaved. |
| ClientStats.LoadAll | service/java/com/android/server/wifi/WifiApClientStats.java:295-299 | The loader thread keeps the state valid and touches neither the client infos nor the files. |
| ClientStats.WriteToFile | service/java/com/android/server/wifi/WifiApClientStats.java:224-287 | The allow list (mode line first) is written if dirty, else the block list if dirty, else nothing. Only the flag of the written list is cleared. The other file is untouched. |
| ClientStats.WriteBlockList | service/java/com/android/server/wifi/WifiApClientStats.java:129-135 | Nothing happens unless the block list is dirty. |
| ClientStats.WriteWhiteList | service/java/com/android/server/wifi/WifiApClientStats.java:216-222 | Nothing happens unless the allow list is dirty. |
| ClientStats.ClientInfo | service/java/com/android/server/wifi/WifiApClientStats.java:370-386 | The info is `MAC IP NAME`, with "*" for a missing name. |
| ClientStats.SaveClientInfo | service/java/com/android/server/wifi/WifiApClientStats.java:370-386 | The info is cached under the MAC and returned. Every other lookup is unchanged. |
| ClientStats.AddOrUpdateClientInfoList | service/java/com/android/server/wifi/WifiApClientStats.java:366-368 | The reported list is recorded. The info list then has one string per token. |
| ClientStats.GetStaClientInfoList | service/java/com/android/server/wifi/WifiApClientStats.java:334-364 | Nothing for an empty list. Every cached info when no list was reported. Otherwise each MAC's info, or the MAC itself. |
| ClientStats.Stop | service/java/com/android/server/wifi/WifiApClientStats.java:312-322 | Client infos and the reported list are forgotten. The lists and mode are kept. |
| ClientStats.BlockedInfo | service/java/com/android/server/wifi/WifiApClientStats.java:473-490 | The blocked info starts with the MAC. It is the bare MAC when the info has no third token. |
| ClientStats.BlockClient | service/java/com/android/server/wifi/WifiApClientStats.java:473-490 | Always true. An unknown MAC leaves the block list as it was. Other MACs are unaffected. The block-list file is saved. |
| ClientStats.UnBlockClient | service/java/com/android/server/wifi/WifiApClientStats.java:453-464 | Always true. The MAC is absent afterwards, other MACs are unaffected, and the file is saved. |
| ClientStats.AddClientToWhiteList | service/java/com/android/server/wifi/WifiApClientStats.java:504-527 | True iff checkMac accepts the MAC. On refusal nothing changes. Otherwise "MAC" or "MAC NAME" is stored and saved. |
| ClientStats.DelClientFromWhiteList | service/java/com/android/server/wifi/WifiApClientStats.java:540-553 | Always true. Only that MAC is removed, and the file is saved. |
| ClientStats.SetClientWhiteListEnabled | service/java/com/android/server/wifi/WifiApClientStats.java:561-576 | The mode is set and the allow-list file saved. The lists are untouched. |
| ClientStats.IsWhiteListEnabled | service/java/com/android/server/wifi/WifiApClientStats.java:655-662 | True iff the mode is "1". |
| ClientStats.FirstToken | service/java/com/android/server/wifi/WifiApClientStats.java:599-602 | None iff the info splits into nothing (where indexing throws). Otherwise the trimmed first token. |
| ClientStats.GetClientMacWhiteList | service/java/com/android/server/wifi/WifiApClientStats.java:633-653 | At most one MAC per entry, each accepted by checkMac. |
| ClientStats.GetClientWhiteList | service/java/com/android/server/wifi/WifiApClientStats.java:593-622 | At most one info per entry, each an allow-list info. |
| ClientStats.MacWhiteList | service/java/com/android/server/wifi/WifiApClientStats.java:633-653 | The loop of getClientMacWhiteList: at most one MAC per info, each accepted by checkMac. The exact list for MAC entries is in WhiteListsOfMacs. |
| ClientStats.WhiteInfoList | service/java/com/android/server/wifi/WifiApClientStats.java:593-622 | The loop of getClientWhiteList: at most one string per info, each with a first token accepted by checkMac. WhiteInfoSubset and WhiteListsOfMacs give the content. |
| ClientStats.WhiteInfoSubset | service/java/com/android/server/wifi/WifiApClientStats.java:593-622 | Every info the list returns is one of the allow-list infos it was given. |
| ClientStats.GetBlockedClientInfoList | service/java/com/android/server/wifi/WifiApClientStats.java:399-443 | Nothing for an empty list. Every blocked info for null. Otherwise, for each space-separated MAC that passes checkMac once trimmed, in order, its blocked info or the MAC itself. |
| ClientStats.Accepted | service/java/com/android/server/wifi/WifiApClientStats.java:417-418 | Keeps the order and exactly the requested MACs that pass checkMac once trimmed. |
| ClientStats.BlockedInfos | service/java/com/android/server/wifi/WifiApClientStats.java:410-430 | The requested MACs that pass checkMac, each mapped to its blocked info or to itself. When every MAC passes, that is one string per MAC. |
| ClientStats.ApplyKeepsInvariant | service/java/com/android/server/wifi/WifiApClientStats.java:366-576 | Every request keeps the state valid. Once the files mirror the lists they keep doing so. |
| ClientStats.BlockListSaved | service/java/com/android/server/wifi/WifiApClientStats.java:453-490 | After block or unblock, the block-list file holds exactly the lines of the new block list. |
| ClientStats.WhiteListEnabledRoundTrip | service/java/com/android/server/wifi/WifiApClientStats.java:561-576 | Setting the mode and reading it back gives the value set. |
| ClientStats.BlockAfterSave | service/java/com/android/server/wifi/WifiApClientStats.java:473-490 | Blocking a client after its info was saved stores `MAC NAME` (or `MAC *`). |
| ClientStats.ReloadRecoversLists | service/java/com/android/server/wifi/WifiApClientStats.java:147-287 | For entries that are a non-empty key without spaces and not starting with '#', alone or followed by a space and a non-empty name without spaces or line breaks (so a name such as "My Phone" is not recovered), loading a fresh instance from files that mirror the lists recovers the block list, allow list and mode. |
| ClientStats.WhiteListsOfMacs | service/java/com/android/server/wifi/WifiApClientStats.java:593-653 | For allow lists of MAC entries, the MAC list is exactly the keys in order, and the info list is every info. |
| CarrierNetworks.ParseEapType | service/java/com/android/server/wifi/CarrierNetworkConfig.java:293-302 | 18, 23 and 50 map to SIM, AKA and AKA' (4, 5, 6). Every other number maps to -1, in both directions. |
| CarrierNetworks.ParseNetworkEntry | service/java/com/android/server/wifi/CarrierNetworkConfig.java:257-274 | An entry is used iff it has exactly two fields, a decodable SSID, an integer EAP number and a SIM-based method. |
| CarrierNetworks.ProcessLookup | service/java/com/android/server/wifi/CarrierNetworkConfig.java:243-283 | After processing, an SSID maps to its last valid entry's type with this carrier's name. SSIDs without an entry keep their value. |
| CarrierNetworks.UpdateNetworkConfig | service/java/com/android/server/wifi/CarrierNetworkConfig.java:201-231 | The encryption flag is refreshed. A missing service or subscription list leaves the table empty. Every recorded type is SIM-based. |
| CarrierNetworks.UpdateForgetsOldTable | service/java/com/android/server/wifi/CarrierNetworkConfig.java:204-205 | The result does not depend on the old table. Every SSID comes from a valid entry of some subscription. |
| CarrierNetworks.GetNetworkEapType | service/java/com/android/server/wifi/CarrierNetworkConfig.java:126-129 | -1 iff the SSID is not a carrier network. Otherwise a SIM-based type. |
| CarrierNetworks.GetCarrierName | service/java/com/android/server/wifi/CarrierNetworkConfig.java:135-138 | None (null) iff the SSID is not a carrier network. |
| CarrierNetworks.GettersAfterUpdate | service/java/com/android/server/wifi/CarrierNetworkConfig.java:118-138 | After an update from any list of subscriptions, an SSID answers with the EAP type of the last valid entry of the last subscription that lists it, and that subscription's name. A later subscription overrides an earlier one. An SSID no subscription lists is unknown, and the encryption flag is the one given. |
| CarrierNetworks.BuildLookup | service/java/com/android/server/wifi/CarrierNetworkConfig.java:224-229 | The table built from the subscriptions in turn maps an SSID to the last subscription's last valid entry for it, with that subscription's name, and lacks an SSID no subscription lists. |
| CarrierSim.IsSimSlotEnabledForEapNetwork | service/java/com/android/server/wifi/CarrierNetworkConfig.java:431-449 | No card means false. An empty pattern means true. Otherwise true iff the slot's IMSI is non-empty and starts with one of the '-'-separated alternatives. |
| CarrierSim.SinglePrefixPattern | service/java/com/android/server/wifi/CarrierNetworkConfig.java:443-446 | A pattern without '-' is a single IMSI prefix. |
| CarrierSim.EapNetworkSlotAsWritten | service/java/com/android/server/wifi/CarrierNetworkConfig.java:408-421 | All slots matching gives the slot count. Otherwise the result is the highest matching slot, or -1. |
| CarrierSim.CheckEapNetworkSlot | service/java/com/android/server/wifi/CarrierNetworkConfig.java:408-421 | The slot scan computes EapNetworkSlotAsWritten. -1 means no slot matches. |
| CarrierSim.NoSlotsAnswersSlotZero | service/java/com/android/server/wifi/CarrierNetworkConfig.java:420 | With no slots the code answers 0 though no slot matches. |
| CarrierSim.EapNetworkSlot | service/java/com/android/server/wifi/CarrierNetworkConfig.java:400-421 | -1 iff no slot matches. The slot count iff there are slots and all match. Otherwise the highest matching slot. |
| CarrierSim.NewConfigSimNum | service/java/com/android/server/wifi/CarrierNetworkConfig.java:362-368 | The default slot when all or no slots match, else the matching slot. |
| CarrierSim.SlotFor | service/java/com/android/server/wifi/CarrierNetworkConfig.java:347 | The slot answer a preset uses lies between -1 and the slot count. -1 only when no slot matches. With at least one slot both rules give the documented answer. |
| CarrierSim.PresetEntry | service/java/com/android/server/wifi/CarrierNetworkConfig.java:319-393 | One entry, in the code's order of checks. Skip iff it lacks ten fields, lacks a needed IMSI, has a method other than SIM/AKA/AKA', or is a new network needing a loaded SIM with no matching slot. Abort iff the first number the checks reach fails to parse, or a saved network with no matching slot has an unparsable no-SIM method. Otherwise Save: the entry's flags, IMSI and time limit. A new network gets its method and the slot choice. A saved one keeps its SSID, moves to the single matching slot, or takes the no-SIM method when none match. |
| CarrierSim.SaveEntry | service/java/com/android/server/wifi/CarrierNetworkConfig.java:345-385 | Once the numbers have parsed, the key is the quoted SSID with WPA_EAP. Skip iff the network is new, the SIM must be loaded and no slot matches. Abort iff it is saved, no slot matches and the no-SIM method does not parse. A new network takes the matching slot, or the default slot when none or all match. A saved network keeps its SSID, moves to the single matching slot, keeps its slot when all match, and takes the no-SIM method when none match. |
| CarrierSim.NoSlotsPresetDiffers | service/java/com/android/server/wifi/CarrierNetworkConfig.java:347-374 | With no SIM slots and the SIM-load flag set, the code still saves: a new network with its default slot, a saved one with the SIM method. The documented slot answer skips the new network. |
| CarrierSim.DocumentedPresetNeedsCard | service/java/com/android/server/wifi/CarrierNetworkConfig.java:349-353 | Under the documented slot answer, a new network that needs a loaded SIM is saved only when some slot holds a matching card. |
| CarrierSim.PresetRulesAgree | service/java/com/android/server/wifi/CarrierNetworkConfig.java:319-393 | On a device with at least one slot, the code's and the documented slot answers preset every entry alike. |
| CarrierSim.PresetWifiEapNetwork | service/java/com/android/server/wifi/CarrierNetworkConfig.java:313-398 | Without entries or telephony nothing happens. Saved networks are never removed. A first entry that aborts leaves the store as it was, and a single entry that saves puts exactly its network. |
| CarrierSim.PresetAllAppend | service/java/com/android/server/wifi/CarrierNetworkConfig.java:318-397 | Entries apply in order. An abort ends the whole preset with what was saved so far. |
| CarrierSim.PresetAddsOnlyEntryKeys | service/java/com/android/server/wifi/CarrierNetworkConfig.java:343-345 | Every network the preset adds has the configuration key of one of the entries. |
| CarrierSim.PresetLeavesOtherKeys | service/java/com/android/server/wifi/CarrierNetworkConfig.java:318-393 | Entries for other networks leave a network's saved configuration, or its absence, unchanged. |
| CarrierSim.SavedEntryStays | service/java/com/android/server/wifi/CarrierNetworkConfig.java:318-397 | A network an entry saves is in the final store as that entry saved it, unless a later entry is for the same network. Later entries for other networks and a later abort do not undo it. |
| CarrierSim.AbortEndsRun | service/java/com/android/server/wifi/CarrierNetworkConfig.java:394-397 | An entry with a malformed number ends the preset: the store is what the earlier entries saved, and later entries are not applied. |
| CarrierSim.RepresetIsStable | service/java/com/android/server/wifi/CarrierNetworkConfig.java:349-385 | Repeating a saved entry while the slot answer is not -1 saves the same network again, under either slot answer. |

## Findings

| source | as written | input that shows it | evidently intended | confidence | as-written member | corrected member |
|---|---|---|---|---|---|---|
| service/java/com/android/server/wifi/CarrierNetworkConfig.java:420 | `count == phoneCount ? count : slotEnabledIndex` | `phoneCount == 0` (no SIM slots): the count 0 equals the slot count, so the answer is 0, a slot number. The documented answer when no card matches is -1. A preset with the SIM-load flag is then saved with its default slot instead of being skipped. | -1 when no slot matches | medium, not executed | CarrierSim.EapNetworkSlotAsWritten, CarrierSim.NoSlotsAnswersSlotZero, CarrierSim.NoSlotsPresetDiffers | CarrierSim.EapNetworkSlot, CarrierSim.DocumentedPresetNeedsCard (the preset under the Documented slot rule; both agree with the code whenever there is a slot, CarrierSim.SlotAgreesWithCode and CarrierSim.PresetRulesAgree) |
| service/java/com/android/server/wifi/WifiApClientStats.java:177 | `info = mac + " " + tokens[1].substring(1);` inside a try that catches only FileNotFoundException and IOException | an accept line with two spaces after the MAC, `00:08:22:0e:2d:fc  #x`: the second token is empty, `substring(1)` throws StringIndexOutOfBoundsException, and the loader thread ends with an uncaught exception. The rest of that file is never read, nor the allow-list file when the line is in the block-list file. | a line that does not parse is skipped, as the other public methods log and carry on | medium, not executed | AcceptFile.LoadLines, AcceptFile.TwoSpacesMalformed, AcceptFile.TwoSpacesEndLoad | AcceptFile.LoadLinesSkipping, AcceptFile.MalformedLineSkipped, AcceptFile.SkippingAgrees (ClientStats.LoadAll keeps the loader as written, so that the model follows the code) |

## Left out

- Android plumbing is not modelled: Context, intents, broadcasts, content observers, settings access, logging, metrics and `dump`. Their effects appear only as `Output` values.
- Threads, locks and the waiter of WifiApClientStats are not modelled. The loader thread runs as `ClientStats.LoadAll` on a fresh instance. `start()` only wakes the waiter, so `onUpChanged` does not call it in the model.
- The native layer (WifiNative, the HAL, ApConfigUtil channel selection) is not modelled. Its answers are inputs: the interface name, whether the country code is accepted, the channel result, the start result and the up state. ScanResult's classification of a frequency as 2.4GHz or 5GHz is an input of the channel-switch message.
- Reading and writing files is not modelled. A file is its sequence of lines. Open and IO errors and file permissions are not modelled.
- `getSoftApSupportChannels`, `syncSoftApSetClientWhiteListEnabled` beyond its report, and the VoWifi-related paths are not modelled. SoftApManager's `getScanMode`/`getIpMode` are not modelled either.
- A null WifiApClientStats in SoftApManager is not modelled: the station handlers dereference it anyway.
- The Base64 decoder and the conversion of its bytes to a String are taken as a parameter. WifiEnterpriseConfig is not part of this model.
- WifiConfigManager is not modelled: `addOrUpdateNetwork` is taken to succeed, and `enableNetwork` has no modelled effect. A null WifiConfigManager is not modelled either.
- The IMSI-encryption query is an input flag of the update.
- `checkEapNetworkSlot` called with a null pattern is not modelled. Its only caller passes a split field, which is never null.
- WifiRssiLinkSpeedAndFrequencyMonitor is not part of this model.
- SoftApPolicy.NonFiveGHzIgnoresCountryCode and SoftApPolicy.ChannelFailurePassesThrough follow from StartSoftAp's contract alone, so they add no proof.
- AcceptFile.WhiteListRoundTrip: a file is modelled as its sequence of lines, so the round trip is stated for entries without line breaks (AcceptFile.EntryOk). EntryOk also asks for the shape the line format carries unchanged (AcceptFile.EntryShape): a key without spaces or a leading '#', and a name without spaces. A name such as "My Phone" is written as `MAC #My` and read back as `MAC My`, and that case is not claimed. An info holding '\n' or '\r' is written as one line but read back by readLine as several, and that case is not modelled.
- AcceptFile.BlockListRoundTrip: stated for entries of that shape and without line breaks, for the same reasons.
- ClientStats.ReloadRecoversLists: stated for entries of that shape and without line breaks, for the same reasons.
- A malformed accept line (an empty second token) raises a StringIndexOutOfBoundsException. loadFromFile does not catch it (WifiApClientStats.java:191-194) and neither does the loader thread, so it ends as an uncaught exception, which can take the hosting process down. The model records this only as `Aborted`, with the entries read before the line kept. The process death and everything after it are not modelled.
- `Integer.parseInt` is modelled for ASCII digits only (JavaInt.ParseInt). Java also accepts the decimal digits of other Unicode scripts, and such fields would parse in Java but are `None` in the model.
- CarrierSim.PresetEntry: `setEapMethod` is taken to accept any method number. Its own validation in WifiEnterpriseConfig, which can throw for the no-SIM method, is not modelled.
- The count-reset broadcast is sent only when the count changes, as in `setNumAssociatedStations` (SoftApManager.java:605-625). A count that is already 0 is not re-reported when Started is entered.
- HashMap iteration order is taken to be insertion order, with a replaced key keeping its place. Java does not promise any order. The model fixes one so that writes and lists are determined.
- SoftApProperties.StepKeepsValid: proved for connect messages whose MAC is 17 characters without a space, the shape the driver reports. The code takes any string. A MAC with a space adds several tokens at once, which can repeat one another and break the distinct-stations part of the invariant. A MAC that occurs inside a listed one passes the substring test, is logged as already saved and is not added (Roster.PrefixMacIgnored).
- SoftApProperties.RunKeepsValid: stated for runs whose connect MACs have that shape, for the same reason.
- SoftApProperties.ConnectStep: stated for a MAC of that shape. For other strings the substring test is not membership, as Roster.PrefixMacIgnored shows.
- ClientStats.GetClientMacWhiteList: the contract bounds the length and says each element passes checkMac. The exact content, for allow-lists keyed by MACs, is stated by ClientStats.WhiteListsOfMacs.
- ClientStats.GetClientWhiteList: the contract bounds the length and says each element is an allow-list info. The exact content, for allow-lists keyed by MACs, is stated by ClientStats.WhiteListsOfMacs.

=== FILE: accept_file.dfy ===
/**
 * The hostapd.accept line format that WifiApClientStats writes and reads back: an
 * optional `#!macaddr_acl=N` mode line, then one `MAC` or `MAC #NAME` line per entry.
 * Files are sequences of lines.
 */
module AcceptFile {
  import opened Wrappers
  import opened JavaString
  import opened AssocCache

  const BLOCKMODE_PREFIX: string := "#!macaddr_acl="
  const BLOCKMODE_BLACKLIST: string := "0"
  const BLOCKMODE_WHITELIST: string := "1"

  predicate IsHexDigit(c: char) {
    ('0' <= c <= '9') || ('a' <= c <= 'f') || ('A' <= c <= 'F')
  }

  /** Pattern.matches("^[A-Fa-f0-9]{2}(:[A-Fa-f0-9]{2}){5}$", s): six hex pairs joined by ':'. */
  predicate IsMacAddress(s: string) {
    |s| == 17 && forall i :: 0 <= i < 17 ==> if i % 3 == 2 then s[i] == ':' else IsHexDigit(s[i])
  }

  /** One `[A-Fa-f0-9]{2}` group of the pattern. */
  predicate IsHexPair(p: string) {
    |p| == 2 && IsHexDigit(p[0]) && IsHexDigit(p[1])
  }

  predicate SixHexPairs(parts: seq<string>) {
    |parts| == 6 && forall k :: 0 <= k < 6 ==> IsHexPair(parts[k])
  }

  /** The pattern read group by group: a hex pair, then five more each after a ':'. */
  ghost predicate MatchesMacPattern(s: string) {
    exists parts :: SixHexPairs(parts) && s == Join(parts, ':')
  }

  /** Character i of a join of two-character parts: every third one is the separator. */
  lemma {:induction false} JoinOfPairs(parts: seq<string>, sep: char)
    requires |parts| >= 1
    requires forall k :: 0 <= k < |parts| ==> |parts[k]| == 2
    ensures |Join(parts, sep)| == 3 * |parts| - 1
    ensures forall i :: 0 <= i < 3 * |parts| - 1 ==>
      Join(parts, sep)[i] == if i % 3 == 2 then sep else parts[i / 3][i % 3]
  {
    if |parts| > 1 {
      var rest := parts[1..];
      JoinOfPairs(rest, sep);
      var j := Join(parts, sep);
      assert j == parts[0] + [sep] + Join(rest, sep);
      forall i | 3 <= i < 3 * |parts| - 1
        ensures j[i] == if i % 3 == 2 then sep else parts[i / 3][i % 3]
      {
        assert j[i] == Join(rest, sep)[i - 3];
        assert (i - 3) % 3 == i % 3 && (i - 3) / 3 == i / 3 - 1;
        assert rest[i / 3 - 1] == parts[i / 3];
      }
    }
  }

  /** The index-wise reading of the pattern and the group-wise one agree. */
  lemma MacPatternIsPairs(s: string)
    ensures IsMacAddress(s) <==> MatchesMacPattern(s)
  {
    if IsMacAddress(s) {
      var parts := seq(6, k requires 0 <= k < 6 => s[3 * k..3 * k + 2]);
      assert SixHexPairs(parts) by {
        forall k | 0 <= k < 6 ensures IsHexPair(parts[k]) {
          assert parts[k][0] == s[3 * k] && parts[k][1] == s[3 * k + 1];
        }
      }
      JoinOfPairs(parts, ':');
      var j := Join(parts, ':');
      forall i | 0 <= i < 17 ensures j[i] == s[i] {
        if i % 3 != 2 {
          assert parts[i / 3][i % 3] == s[3 * (i / 3) + i % 3];
        }
      }
      assert j == s;
    }
    if MatchesMacPattern(s) {
      var parts :| SixHexPairs(parts) && s == Join(parts, ':');
      JoinOfPairs(parts, ':');
      forall i | 0 <= i < 17 ensures if i % 3 == 2 then s[i] == ':' else IsHexDigit(s[i]) {
        if i % 3 != 2 {
          assert IsHexPair(parts[i / 3]);
        }
      }
    }
  }

  /** checkMac: false for null, otherwise the regular-expression match. */
  function CheckMac(s: Option<string>): (r: bool)
    ensures r <==> s.Some? && MatchesMacPattern(s.value)
    ensures r ==> s.Some? && |s.value| == 17 && ' ' !in s.value && s.value[0] != '#'
    ensures r ==> forall i :: 0 <= i < 17 ==> s.value[i] > ' '
    ensures s.Some? && s.value == "00:08:22:0e:2d:FC" ==> r
    ensures s.Some? && s.value == "00:08:22:0e:2d:fc " ==> !r
  {
    if s.Some? then MacPatternIsPairs(s.value); IsMacAddress(s.value) else false
  }

  /** A name the line format carries unchanged: non-empty and without a space. */
  predicate NameOk(name: string) {
    name != "" && ' ' !in name
  }

  /** A key the line format carries unchanged: non-empty, no space, not a comment. */
  predicate KeyOk(key: string) {
    key != "" && ' ' !in key && key[0] != '#'
  }

  /** The cached info is `key` or `key + " " + name`, the two shapes the writer preserves. */
  predicate EntryShape(e: Entry) {
    && KeyOk(e.key)
    && (e.info == e.key
        || (|e.info| > |e.key| + 1 && e.info[..|e.key| + 1] == e.key + " "
            && NameOk(e.info[|e.key| + 1..])))
  }

  /** No character that readLine takes as the end of a line. */
  predicate NoLineBreak(s: string) {
    '\n' !in s && '\r' !in s
  }

  /**
   * An entry the file carries: one of the two shapes, and its written line stays one line
   * when read back.
   */
  predicate EntryOk(e: Entry) {
    EntryShape(e) && NoLineBreak(e.info)
  }

  predicate CacheOk(c: Cache) {
    UniqueKeys(c) && forall i :: 0 <= i < |c| ==> EntryOk(c[i])
  }

  /** The line writeToFile emits for one cached info (WifiApClientStats.java lines 248-252). */
  function EntryLine(info: string): (line: string)
  {
    var tokens := JavaSplit(info, ' ');
    if |tokens| > 1 then tokens[0] + " #" + tokens[1] else info
  }

  /** One line per cached info, in iteration order. */
  function EntryLines(c: Cache): (lines: seq<string>)
    ensures |lines| == |c|
  {
    if |c| == 0 then [] else [EntryLine(c[0].info)] + EntryLines(c[1..])
  }

  /** The allow-list file: the mode line first, then the entries. */
  function WhiteListLines(mode: string, c: Cache): (lines: seq<string>)
    ensures |lines| == |c| + 1 && StartsWith(lines[0], BLOCKMODE_PREFIX)
  {
    [BLOCKMODE_PREFIX + mode] + EntryLines(c)
  }

  /** What the loader has built so far while reading one file. */
  datatype LoadState = LoadState(mode: string, isWhiteList: bool, white: Cache, blocked: Cache)

  /** Any mode other than "0" or "1" is read as "0". */
  function NormaliseMode(m: string): (r: string)
    ensures r == BLOCKMODE_BLACKLIST || r == BLOCKMODE_WHITELIST
    ensures r == m || r == BLOCKMODE_BLACKLIST
    ensures m == BLOCKMODE_BLACKLIST || m == BLOCKMODE_WHITELIST ==> r == m
  {
    if m == BLOCKMODE_BLACKLIST || m == BLOCKMODE_WHITELIST then m else BLOCKMODE_BLACKLIST
  }

  /** How a line that is not a comment is read. */
  datatype EntryParse = NoEntry | Parsed(entry: Entry) | Malformed

  /**
   * A `MAC` or `MAC #NAME` line: the MAC is the first space-separated token, the info is
   * the MAC alone or the MAC, a space and the second token without its first character.
   * Malformed stands for the StringIndexOutOfBoundsException on an empty second token.
   */
  function ParseEntryLine(line: string): (r: EntryParse)
    ensures r.Parsed? ==> ' ' !in r.entry.key && StartsWith(r.entry.info, r.entry.key)
    ensures r.NoEntry? <==> JavaSplit(line, ' ') == []
    ensures r.Parsed? && ' ' !in line ==> r.entry == Entry(line, line)
    ensures r.Malformed? <==> |JavaSplit(line, ' ')| > 1 && JavaSplit(line, ' ')[1] == ""
  {
    var tokens := JavaSplit(line, ' ');
    if |tokens| == 0 then NoEntry
    else if |tokens| > 1 && tokens[1] == "" then Malformed
    else
      var mac := tokens[0];
      Parsed(Entry(mac, if |tokens| > 1 then mac + " " + tokens[1][1..] else mac))
  }

  /**
   * `MAC xNAME` reads as the MAC and the info `MAC NAME`: the first character after the
   * space is dropped whatever it is, a '#' or not, and NAME may be empty.
   */
  lemma NameMarkDropped(mac: string, mark: char, name: string)
    requires mac != "" && ' ' !in mac && ' ' !in name && mark != ' '
    ensures ParseEntryLine(mac + " " + [mark] + name) == Parsed(Entry(mac, mac + " " + name))
  {
    var line := mac + " " + [mark] + name;
    assert line == Join([mac, [mark] + name], ' ');
    JavaSplitJoin([mac, [mark] + name], ' ');
    assert ([mark] + name)[1..] == name;
  }

  /** Two spaces after the MAC leave an empty second token: the line is Malformed. */
  lemma TwoSpacesMalformed(mac: string, rest: string)
    requires ' ' !in mac && ' ' !in rest && rest != ""
    ensures ParseEntryLine(mac + "  " + rest).Malformed?
  {
    var line := mac + "  " + rest;
    assert Join([mac, "", rest], ' ') == mac + " " + Join(["", rest], ' ');
    assert Join(["", rest], ' ') == "" + " " + rest;
    assert line == Join([mac, "", rest], ' ');
    JavaSplitJoin([mac, "", rest], ' ');
  }

  predicate ModeOk(mode: string) {
    mode == BLOCKMODE_BLACKLIST || mode == BLOCKMODE_WHITELIST
  }

  /** What every step of the loader keeps: a valid mode and lists without repeated keys. */
  predicate LoadStateOk(st: LoadState) {
    ModeOk(st.mode) && UniqueKeys(st.white) && UniqueKeys(st.blocked)
  }

  /** One step of loadFromFile; None when the line aborts the loader. */
  function LoadLine(st: LoadState, line: string): (r: Option<LoadState>)
    ensures r.Some? && LoadStateOk(st) ==> LoadStateOk(r.value)
    ensures StartsWith(line, BLOCKMODE_PREFIX) ==>
      r == Some(st.(isWhiteList := true, mode := NormaliseMode(line[|BLOCKMODE_PREFIX|..])))
    ensures StartsWith(line, "#") && !StartsWith(line, BLOCKMODE_PREFIX) ==> r == Some(st)
    ensures r.Some? && !StartsWith(line, "#") ==>
      r.value.isWhiteList == st.isWhiteList && r.value.mode == st.mode
      && (st.isWhiteList ==> r.value.blocked == st.blocked)
      && (!st.isWhiteList ==> r.value.white == st.white)
  {
    var st1 := if StartsWith(line, BLOCKMODE_PREFIX)
      then st.(isWhiteList := true, mode := NormaliseMode(line[|BLOCKMODE_PREFIX|..]))
      else st;
    if StartsWith(line, "#") then Some(st1)
    else
      match ParseEntryLine(line)
      case NoEntry => Some(st1)
      case Malformed => None
      case Parsed(e) =>
        if st1.isWhiteList then Some(st1.(white := Put(st1.white, e.key, e.info)))
        else Some(st1.(blocked := Put(st1.blocked, e.key, e.info)))
  }

  /**
   * The outcome of reading a whole file: Done, or Aborted by a malformed line. The
   * StringIndexOutOfBoundsException it raises is not caught by loadFromFile
   * (WifiApClientStats.java lines 191-194) nor by the loader thread, so it ends that thread
   * with an uncaught exception; Aborted keeps the entries read before that line and stands
   * for everything that follows the crash.
   */
  datatype LoadResult = Done(state: LoadState) | Aborted(state: LoadState)

  /** loadFromFile over a whole file. */
  function LoadLines(st: LoadState, lines: seq<string>): (r: LoadResult)
    ensures LoadStateOk(st) ==> LoadStateOk(r.state)
    ensures st.isWhiteList ==> r.state.isWhiteList && r.state.blocked == st.blocked
    ensures r.Aborted? ==> exists i :: 0 <= i < |lines| && LoadLine(r.state, lines[i]).None?
    decreases |lines|
  {
    if |lines| == 0 then Done(st)
    else
      match LoadLine(st, lines[0])
      case None => Aborted(st)
      case Some(st1) =>
        var r := LoadLines(st1, lines[1..]);
        assert r.Aborted? ==> exists i :: 0 < i < |lines| && LoadLine(r.state, lines[i]).None? by {
          if r.Aborted? {
            var j :| 0 <= j < |lines[1..]| && LoadLine(r.state, lines[1..][j]).None?;
            assert lines[1..][j] == lines[j + 1];
          }
        }
        r
  }

  /** The evidently intended loader step: a malformed line is skipped, not fatal. */
  function LoadLineSkipping(st: LoadState, line: string): (r: LoadState)
    ensures LoadLine(st, line).Some? ==> r == LoadLine(st, line).value
    ensures LoadLine(st, line).None? ==> r == st
  {
    match LoadLine(st, line)
    case Some(st1) => st1
    case None => st
  }

  /** The evidently intended loadFromFile: every line is read, malformed ones skipped. */
  function LoadLinesSkipping(st: LoadState, lines: seq<string>): (r: LoadState)
    ensures LoadStateOk(st) ==> LoadStateOk(r)
    ensures st.isWhiteList ==> r.isWhiteList && r.blocked == st.blocked
    decreases |lines|
  {
    if |lines| == 0 then st else LoadLinesSkipping(LoadLineSkipping(st, lines[0]), lines[1..])
  }

  /** On a file the code reads to its end, the skipping loader builds the same lists. */
  lemma {:induction false} SkippingAgrees(st: LoadState, lines: seq<string>)
    ensures LoadLines(st, lines).Done? ==> LoadLinesSkipping(st, lines) == LoadLines(st, lines).state
    decreases |lines|
  {
    if |lines| > 0 && LoadLine(st, lines[0]).Some? {
      SkippingAgrees(LoadLine(st, lines[0]).value, lines[1..]);
    }
  }

  /**
   * A malformed entry line ends the code's loader at once, while the skipping loader goes
   * on to read the rest of the file as if the line were absent.
   */
  lemma MalformedLineSkipped(st: LoadState, bad: string, rest: seq<string>)
    requires !StartsWith(bad, "#") && ParseEntryLine(bad).Malformed?
    ensures LoadLines(st, [bad] + rest) == Aborted(st)
    ensures LoadLinesSkipping(st, [bad] + rest) == LoadLinesSkipping(st, rest)
  {
    assert LoadLine(st, bad).None?;
    assert ([bad] + rest)[1..] == rest;
  }

  /**
   * The input that shows it: an accept line with two spaces after a valid MAC, such as
   * "00:08:22:0e:2d:fc  #x".
   */
  lemma TwoSpacesEndLoad(st: LoadState, mac: string, rest: seq<string>)
    requires CheckMac(Some(mac))
    ensures LoadLines(st, [mac + "  #x"] + rest) == Aborted(st)
    ensures LoadLinesSkipping(st, [mac + "  #x"] + rest) == LoadLinesSkipping(st, rest)
  {
    var bad := mac + "  #x";
    assert ' ' !in mac && mac != "";
    TwoSpacesMalformed(mac, "#x");
    assert bad == mac + "  " + "#x";
    assert bad[0] == mac[0];
    MalformedLineSkipped(st, bad, rest);
  }

  /** The line written for a well-formed entry reads back as that entry. */
  lemma EntryLineRoundTrip(e: Entry)
    requires EntryShape(e)
    ensures !StartsWith(EntryLine(e.info), "#")
    ensures ParseEntryLine(EntryLine(e.info)) == Parsed(e)
  {
    var key := e.key;
    if e.info == key {
      JavaSplitSingle(key, ' ');
    } else {
      var name := e.info[|key| + 1..];
      assert e.info == Join([key, name], ' ');
      JavaSplitJoin([key, name], ' ');
      var line := key + " #" + name;
      assert line == Join([key, "#" + name], ' ');
      JavaSplitJoin([key, "#" + name], ' ');
      assert ("#" + name)[1..] == name;
      assert line[0] == key[0];
    }
  }

  /**
   * The line written for an entry the file carries holds no line break, so reading the
   * file back line by line meets it as one line.
   */
  lemma EntryLineIsOneLine(e: Entry)
    requires EntryOk(e)
    ensures NoLineBreak(EntryLine(e.info))
  {
    var key := e.key;
    if e.info != key {
      var name := e.info[|key| + 1..];
      assert e.info == Join([key, name], ' ');
      JavaSplitJoin([key, name], ' ');
      assert EntryLine(e.info) == key + " #" + name;
      assert e.info == key + " " + name;
      assert forall c :: c in key || c in name ==> c in e.info;
    }
  }

  /** The list the loader is currently filling. */
  function Target(st: LoadState): Cache {
    if st.isWhiteList then st.white else st.blocked
  }

  /** st with entries appended to the list the loader is filling. */
  function AppendTarget(st: LoadState, c: Cache): LoadState {
    if st.isWhiteList then st.(white := st.white + c) else st.(blocked := st.blocked + c)
  }

  /** Reading one written entry line appends the entry when its key is new. */
  lemma LoadOneEntry(st: LoadState, e: Entry)
    requires EntryShape(e) && !HasKey(Target(st), e.key)
    ensures LoadLine(st, EntryLine(e.info)) == Some(AppendTarget(st, [e]))
  {
    var line := EntryLine(e.info);
    EntryLineRoundTrip(e);
    assert !StartsWith(line, BLOCKMODE_PREFIX) by {
      assert BLOCKMODE_PREFIX[..1] == "#";
    }
    assert LoadLine(st, line) == Some(
      if st.isWhiteList then st.(white := Put(st.white, e.key, e.info))
      else st.(blocked := Put(st.blocked, e.key, e.info)));
  }

  lemma AppendTwice(st: LoadState, e: Entry, rest: Cache)
    ensures AppendTarget(AppendTarget(st, [e]), rest) == AppendTarget(st, [e] + rest)
  {
    assert st.white + [e] + rest == st.white + ([e] + rest);
    assert st.blocked + [e] + rest == st.blocked + ([e] + rest);
  }

  /**
   * Reading the entry lines of a well-formed cache appends the cache to a list that holds
   * none of its keys, on the side the loader is writing to.
   */
  lemma {:induction false} LoadEntryLines(st: LoadState, c: Cache)
    requires CacheOk(c)
    requires forall i :: 0 <= i < |c| ==> !HasKey(Target(st), c[i].key)
    ensures LoadLines(st, EntryLines(c)) == Done(AppendTarget(st, c))
    decreases |c|
  {
    if |c| == 0 {
      assert st.white + c == st.white && st.blocked + c == st.blocked;
    } else {
      var e := c[0];
      var st1 := AppendTarget(st, [e]);
      var rest := c[1..];
      assert [e] + rest == c;
      LoadFirstEntryLine(st, c);
      RestStaysFresh(st, c);
      LoadEntryLines(st1, rest);
      AppendTwice(st, e, rest);
      assert LoadLines(st, EntryLines(c)) == LoadLines(st1, EntryLines(rest));
      assert AppendTarget(st1, rest) == AppendTarget(st, c);
    }
  }

  /** The first entry line of a cache is read as its first entry; the rest follows. */
  lemma LoadFirstEntryLine(st: LoadState, c: Cache)
    requires |c| > 0 && CacheOk(c) && !HasKey(Target(st), c[0].key)
    ensures LoadLines(st, EntryLines(c)) == LoadLines(AppendTarget(st, [c[0]]), EntryLines(c[1..]))
  {
    LoadOneEntry(st, c[0]);
    var lines := EntryLines(c);
    assert lines == [EntryLine(c[0].info)] + EntryLines(c[1..]);
    assert lines[1..] == EntryLines(c[1..]);
  }

  /** After the first entry is appended, the rest of a well-formed cache is still well formed and new. */
  lemma RestStaysFresh(st: LoadState, c: Cache)
    requires |c| > 0 && CacheOk(c)
    requires forall i :: 0 <= i < |c| ==> !HasKey(Target(st), c[i].key)
    ensures CacheOk(c[1..])
    ensures forall i :: 0 <= i < |c[1..]| ==> !HasKey(Target(AppendTarget(st, [c[0]])), c[1..][i].key)
  {
    var rest := c[1..];
    assert forall i :: 0 <= i < |rest| ==> rest[i] == c[i + 1];
    var st1 := AppendTarget(st, [c[0]]);
    forall i | 0 <= i < |rest|
      ensures !HasKey(Target(st1), rest[i].key)
    {
      assert rest[i] == c[i + 1];
      assert Target(st1) == Target(st) + [c[0]];
    }
  }

  /**
   * Write-then-load for the allow-list file: loading what the writer emits into an empty
   * allow-list recovers the mode and every entry, in order, and leaves the block-list alone.
   */
  lemma WhiteListRoundTrip(mode: string, c: Cache, st: LoadState)
    requires mode == BLOCKMODE_BLACKLIST || mode == BLOCKMODE_WHITELIST
    requires CacheOk(c)
    requires !st.isWhiteList && st.white == []
    ensures LoadLines(st, WhiteListLines(mode, c)) == Done(LoadState(mode, true, c, st.blocked))
  {
    var line := BLOCKMODE_PREFIX + mode;
    assert StartsWith(line, BLOCKMODE_PREFIX);
    assert line[|BLOCKMODE_PREFIX|..] == mode;
    var st1 := st.(isWhiteList := true, mode := mode);
    assert LoadLine(st, line) == Some(st1);
    assert WhiteListLines(mode, c)[1..] == EntryLines(c);
    LoadEntryLines(st1, c);
    assert [] + c == c;
  }

  /**
   * Write-then-load for the block-list file: loading its entry lines into an empty
   * block-list recovers every entry, in order.
   */
  lemma BlockListRoundTrip(c: Cache, st: LoadState)
    requires CacheOk(c)
    requires !st.isWhiteList && st.blocked == []
    ensures LoadLines(st, EntryLines(c)) == Done(st.(blocked := c))
  {
    LoadEntryLines(st, c);
    assert [] + c == c;
  }
}

=== FILE: assoc_cache.dfy ===
/**
 * A string-keyed HashMap of the client-stats module, modelled as an association list
 * whose order stands for the map's iteration order.
 */
module AssocCache {
  import opened Wrappers

  datatype Entry = Entry(key: string, info: string)

  type Cache = seq<Entry>

  /** No key occurs twice, as in a HashMap. */
  predicate UniqueKeys(c: Cache) {
    forall i, j :: 0 <= i < j < |c| ==> c[i].key != c[j].key
  }

  predicate HasKey(c: Cache, k: string) {
    exists i | 0 <= i < |c| :: c[i].key == k
  }

  /** map.get(k): the info stored under k, or None (null). */
  function Get(c: Cache, k: string): (r: Option<string>)
    ensures r.Some? <==> HasKey(c, k)
  {
    if |c| == 0 then None
    else if c[0].key == k then Some(c[0].info)
    else
      assert forall i :: 0 < i < |c| ==> c[i] == c[1..][i - 1];
      Get(c[1..], k)
  }

  /** Every entry under key k gets info v; positions and other entries stay. */
  function Replace(c: Cache, k: string, v: string): (r: Cache)
    ensures |r| == |c|
    ensures forall i :: 0 <= i < |c| ==> r[i].key == c[i].key
    ensures forall i :: 0 <= i < |c| ==> r[i] == (if c[i].key == k then Entry(k, v) else c[i])
  {
    seq(|c|, i requires 0 <= i < |c| => if c[i].key == k then Entry(k, v) else c[i])
  }

  /** map.put(k, v): replaces the info of an existing key in place, otherwise appends. */
  function Put(c: Cache, k: string, v: string): (r: Cache)
    ensures Get(r, k) == Some(v)
    ensures forall k' :: k' != k ==> Get(r, k') == Get(c, k')
    ensures UniqueKeys(c) ==> UniqueKeys(r)
    ensures !HasKey(c, k) ==> r == c + [Entry(k, v)]
  {
    if HasKey(c, k) then
      var r := Replace(c, k, v);
      GetReplace(c, k, v);
      r
    else
      var r := c + [Entry(k, v)];
      GetAppend(c, Entry(k, v));
      r
  }

  /** map.remove(k): drops the entry of k, if any, keeping the order of the rest. */
  function Remove(c: Cache, k: string): (r: Cache)
    ensures Get(r, k) == None
    ensures forall k' :: k' != k ==> Get(r, k') == Get(c, k')
    ensures forall i :: 0 <= i < |r| ==> r[i] in c
    ensures UniqueKeys(c) ==> UniqueKeys(r)
  {
    if |c| == 0 then []
    else
      var rest := Remove(c[1..], k);
      assert forall i :: 0 <= i < |rest| ==> rest[i] in c[1..];
      if c[0].key == k then rest else [c[0]] + rest
  }

  /** map.values() in iteration order. */
  function Values(c: Cache): (r: seq<string>)
    ensures |r| == |c|
    ensures forall i :: 0 <= i < |c| ==> r[i] == c[i].info
  {
    if |c| == 0 then [] else [c[0].info] + Values(c[1..])
  }

  /** Rewriting the infos under key k changes what get returns for k only. */
  lemma {:induction false} GetReplace(c: Cache, k: string, v: string)
    ensures HasKey(c, k) ==> Get(Replace(c, k, v), k) == Some(v)
    ensures forall k' :: k' != k ==> Get(Replace(c, k, v), k') == Get(c, k')
  {
    if |c| > 0 {
      GetReplace(c[1..], k, v);
      assert Replace(c, k, v)[1..] == Replace(c[1..], k, v);
      assert HasKey(c, k) && c[0].key != k ==> HasKey(c[1..], k) by {
        if HasKey(c, k) && c[0].key != k {
          var i :| 0 <= i < |c| && c[i].key == k;
          assert c[1..][i - 1].key == k;
        }
      }
    }
  }

  /** Appending an entry with a new key leaves every other lookup alone. */
  lemma {:induction false} GetAppend(c: Cache, e: Entry)
    requires !HasKey(c, e.key)
    ensures Get(c + [e], e.key) == Some(e.info)
    ensures forall k' :: k' != e.key ==> Get(c + [e], k') == Get(c, k')
  {
    if |c| > 0 {
      assert (c + [e])[1..] == c[1..] + [e];
      GetAppend(c[1..], e);
    }
  }

  /** With unique keys, the entry at position i is what get returns for its key. */
  lemma {:induction false} GetAt(c: Cache, i: int)
    requires UniqueKeys(c) && 0 <= i < |c|
    ensures Get(c, c[i].key) == Some(c[i].info)
  {
    if i > 0 {
      assert c[1..][i - 1] == c[i];
      GetAt(c[1..], i - 1);
    }
  }
}

=== FILE: carrier_networks.dfy ===
/**
 * The carrier Wi-Fi network table of CarrierNetworkConfig: each active subscription's
 * carrier configuration lists entries "<base64 SSID>,<EAP method number>", and the table
 * maps every decoded SSID to its SIM-based EAP type and the carrier's display name.
 */
module CarrierNetworks {
  import opened Wrappers
  import opened JavaString
  import opened JavaInt

  /** The field separator of an entry and the number of fields an entry must have. */
  const NETWORK_CONFIG_SEPARATOR: char := ','
  const CONFIG_ELEMENT_SIZE: nat := 2

  /** The standard EAP method numbers of the SIM-based methods. */
  const EAP_SIM: int := 18
  const EAP_AKA: int := 23
  const EAP_AKA_PRIME: int := 50

  /** The framework's own numbering of the same methods (WifiEnterpriseConfig.Eap). */
  const EAP_METHOD_SIM: int := 4
  const EAP_METHOD_AKA: int := 5
  const EAP_METHOD_AKA_PRIME: int := 6

  predicate SimBasedMethod(m: int) {
    m == EAP_METHOD_SIM || m == EAP_METHOD_AKA || m == EAP_METHOD_AKA_PRIME
  }

  /** What the table records for one SSID. */
  datatype NetworkInfo = NetworkInfo(eapType: int, carrierName: string)

  /** The SSID-keyed table; lookups never depend on the order in which the keys arrived. */
  type NetworkMap = map<string, NetworkInfo>

  /** The table and whether carrier IMSI-encryption information was available at the last update. */
  datatype CarrierState = CarrierState(networks: NetworkMap, encryptionInfoAvailable: bool)

  /**
   * The Base64 decoder of the platform, taken as a parameter: None stands for the
   * IllegalArgumentException it throws on malformed input.
   */
  type Decoder = string -> Option<string>

  /** One active subscription: its display name and its carrier Wi-Fi string array, if any. */
  datatype Subscription = Subscription(displayName: Option<string>, wifiStrings: Option<seq<string>>)

  /** A valid table: every recorded EAP type is one of the SIM-based methods. */
  predicate MapOk(m: NetworkMap) {
    forall ssid :: ssid in m ==> SimBasedMethod(m[ssid].eapType)
  }

  /** parseEapType: the standard number of a SIM-based method to the framework's, anything else to -1. */
  function ParseEapType(eapType: int): (r: int)
    ensures r == EAP_METHOD_SIM <==> eapType == EAP_SIM
    ensures r == EAP_METHOD_AKA <==> eapType == EAP_AKA
    ensures r == EAP_METHOD_AKA_PRIME <==> eapType == EAP_AKA_PRIME
    ensures r == -1 <==> eapType != EAP_SIM && eapType != EAP_AKA && eapType != EAP_AKA_PRIME
    ensures r == -1 || SimBasedMethod(r)
  {
    if eapType == EAP_SIM then EAP_METHOD_SIM
    else if eapType == EAP_AKA then EAP_METHOD_AKA
    else if eapType == EAP_AKA_PRIME then EAP_METHOD_AKA_PRIME
    else -1
  }

  /** A decoded entry. */
  datatype ParsedEntry = ParsedEntry(ssid: string, eapType: int)

  /**
   * One entry of the string array: exactly two comma-separated fields, a decodable SSID,
   * an integer EAP number, and a SIM-based method; None when the loop skips the entry.
   */
  function ParseNetworkEntry(entry: string, decode: Decoder): (r: Option<ParsedEntry>)
    ensures r.Some? <==>
      var fields := JavaSplit(entry, NETWORK_CONFIG_SEPARATOR);
      && |fields| == CONFIG_ELEMENT_SIZE
      && decode(fields[0]).Some?
      && ParseInt(fields[1]).Some?
      && ParseEapType(ParseInt(fields[1]).value) != -1
    ensures r.Some? ==>
      var fields := JavaSplit(entry, NETWORK_CONFIG_SEPARATOR);
      && Some(r.value.ssid) == decode(fields[0])
      && r.value.eapType == ParseEapType(ParseInt(fields[1]).value)
      && SimBasedMethod(r.value.eapType)
    ensures NETWORK_CONFIG_SEPARATOR !in entry ==> r.None?
  {
    var fields := JavaSplit(entry, NETWORK_CONFIG_SEPARATOR);
    if |fields| != CONFIG_ELEMENT_SIZE then None
    else
      match decode(fields[0])
      case None => None
      case Some(ssid) =>
        match ParseInt(fields[1])
        case None => None
        case Some(n) =>
          var eapType := ParseEapType(n);
          if eapType == -1 then None else Some(ParsedEntry(ssid, eapType))
  }

  /** Whether entry is a valid entry for ssid. */
  predicate ValidEntryFor(entry: string, decode: Decoder, ssid: string) {
    var p := ParseNetworkEntry(entry, decode);
    p.Some? && p.value.ssid == ssid
  }

  /**
   * processNetworkConfig: the entries in array order, each valid one put into the table
   * under its SSID; written as "all but the last entry, then the last".
   */
  function ProcessNetworkConfig(m: NetworkMap, entries: seq<string>, carrierName: string,
                                decode: Decoder): (r: NetworkMap)
    ensures m.Keys <= r.Keys
    ensures MapOk(m) ==> MapOk(r)
    decreases |entries|
  {
    if |entries| == 0 then m
    else
      var acc := ProcessNetworkConfig(m, entries[..|entries| - 1], carrierName, decode);
      match ParseNetworkEntry(entries[|entries| - 1], decode)
      case None => acc
      case Some(p) => acc[p.ssid := NetworkInfo(p.eapType, carrierName)]
  }

  /** The index of the last element satisfying p, or -1 when there is none. */
  function LastWhere<T>(xs: seq<T>, p: T -> bool): (k: int)
    ensures -1 <= k < |xs|
    ensures k >= 0 ==> p(xs[k])
    ensures forall j :: k < j < |xs| ==> !p(xs[j])
    decreases |xs|
  {
    if |xs| == 0 then -1
    else if p(xs[|xs| - 1]) then |xs| - 1
    else
      var k := LastWhere(xs[..|xs| - 1], p);
      assert forall j :: k < j < |xs| - 1 ==> xs[..|xs| - 1][j] == xs[j];
      k
  }

  /** The index of the last valid entry for ssid, or -1 when there is none. */
  function LastEntryFor(entries: seq<string>, ssid: string, decode: Decoder): (k: int)
    ensures -1 <= k < |entries|
    ensures k >= 0 ==> ValidEntryFor(entries[k], decode, ssid)
    ensures forall j :: k < j < |entries| ==> !ValidEntryFor(entries[j], decode, ssid)
  {
    LastWhere(entries, e => ValidEntryFor(e, decode, ssid))
  }

  /**
   * After processing, an SSID maps to the EAP type of its last valid entry, with this
   * carrier's name; an SSID without a valid entry keeps what the table had.
   */
  lemma {:induction false} ProcessLookup(m: NetworkMap, entries: seq<string>, carrierName: string,
                                        decode: Decoder, ssid: string)
    ensures var k := LastEntryFor(entries, ssid, decode);
      var r := ProcessNetworkConfig(m, entries, carrierName, decode);
      && (k == -1 ==> (ssid in r <==> ssid in m) && (ssid in m ==> r[ssid] == m[ssid]))
      && (k >= 0 ==> ssid in r && r[ssid] == NetworkInfo(ParseNetworkEntry(entries[k], decode).value.eapType, carrierName))
    decreases |entries|
  {
    if |entries| > 0 {
      var init := entries[..|entries| - 1];
      ProcessLookup(m, init, carrierName, decode, ssid);
    }
  }

  /** An SSID in the processed table was there before or has a valid entry. */
  lemma ProcessedFromEntries(m: NetworkMap, entries: seq<string>, carrierName: string,
                             decode: Decoder, ssid: string)
    requires ssid in ProcessNetworkConfig(m, entries, carrierName, decode)
    ensures ssid in m || exists i :: 0 <= i < |entries| && ValidEntryFor(entries[i], decode, ssid)
  {
    ProcessLookup(m, entries, carrierName, decode, ssid);
  }

  /** The tables of the subscriptions in list order, starting from an empty table. */
  function BuildNetworks(subs: seq<Subscription>, decode: Decoder): (r: NetworkMap)
    ensures MapOk(r)
    decreases |subs|
  {
    if |subs| == 0 then map[]
    else
      var acc := BuildNetworks(subs[..|subs| - 1], decode);
      var sub := subs[|subs| - 1];
      match sub.wifiStrings
      case None => acc
      case Some(entries) => ProcessNetworkConfig(acc, entries, sub.displayName.GetOr(""), decode)
  }

  /**
   * updateNetworkConfig: the encryption flag is refreshed, the table is cleared, and, when
   * the carrier-config service, the subscription service and the subscription list are all
   * there (services is Some), rebuilt from every subscription in turn; a missing display
   * name counts as "".
   */
  function UpdateNetworkConfig(st: CarrierState, services: Option<seq<Subscription>>,
                               encryptionInfoAvailable: bool, decode: Decoder): (r: CarrierState)
    ensures r.encryptionInfoAvailable == encryptionInfoAvailable
    ensures services.None? ==> r.networks == map[]
    ensures services == Some([]) ==> r.networks == map[]
    ensures MapOk(r.networks)
  {
    CarrierState(if services.None? then map[] else BuildNetworks(services.value, decode), encryptionInfoAvailable)
  }

  /** Every SSID of a rebuilt table comes from a valid entry of some subscription. */
  lemma {:induction false} BuiltFromEntries(subs: seq<Subscription>, decode: Decoder, ssid: string)
    requires ssid in BuildNetworks(subs, decode)
    ensures exists j, i :: 0 <= j < |subs| && subs[j].wifiStrings.Some? && 0 <= i < |subs[j].wifiStrings.value| && ValidEntryFor(subs[j].wifiStrings.value[i], decode, ssid)
    decreases |subs|
  {
    var init := subs[..|subs| - 1];
    var acc := BuildNetworks(init, decode);
    var sub := subs[|subs| - 1];
    if ssid in acc {
      BuiltFromEntries(init, decode, ssid);
      var j, i :| 0 <= j < |init| && init[j].wifiStrings.Some? && 0 <= i < |init[j].wifiStrings.value| && ValidEntryFor(init[j].wifiStrings.value[i], decode, ssid);
      assert subs[j] == init[j];
    } else {
      var entries := sub.wifiStrings.value;
      ProcessLookup(acc, entries, sub.displayName.GetOr(""), decode, ssid);
      var k := LastEntryFor(entries, ssid, decode);
      assert subs[|subs| - 1].wifiStrings.value[k] == entries[k];
    }
  }

  /**
   * The update forgets the old table: two updates with the same inputs agree whatever the
   * tables were before, and no SSID survives without a valid entry in the new configuration.
   */
  lemma UpdateForgetsOldTable(st1: CarrierState, st2: CarrierState, services: Option<seq<Subscription>>,
                              enc: bool, decode: Decoder, ssid: string)
    ensures UpdateNetworkConfig(st1, services, enc, decode) == UpdateNetworkConfig(st2, services, enc, decode)
    ensures ssid in UpdateNetworkConfig(st1, services, enc, decode).networks ==>
      services.Some? && exists j, i :: 0 <= j < |services.value| && services.value[j].wifiStrings.Some? && 0 <= i < |services.value[j].wifiStrings.value| && ValidEntryFor(services.value[j].wifiStrings.value[i], decode, ssid)
  {
    if ssid in UpdateNetworkConfig(st1, services, enc, decode).networks {
      BuiltFromEntries(services.value, decode, ssid);
    }
  }

  /** isCarrierNetwork: whether the table has the SSID. */
  function IsCarrierNetwork(st: CarrierState, ssid: string): (r: bool)
    ensures r <==> ssid in st.networks
  {
    ssid in st.networks
  }

  /** getNetworkEapType: the recorded EAP type, or -1 for an SSID that is not a carrier network. */
  function GetNetworkEapType(st: CarrierState, ssid: string): (r: int)
    ensures MapOk(st.networks) ==> (r == -1 <==> !IsCarrierNetwork(st, ssid))
    ensures MapOk(st.networks) ==> r == -1 || SimBasedMethod(r)
  {
    if ssid in st.networks then st.networks[ssid].eapType else -1
  }

  /** getCarrierName: the recorded carrier name, or None (null) for an SSID that is not a carrier network. */
  function GetCarrierName(st: CarrierState, ssid: string): (r: Option<string>)
    ensures r.None? <==> !IsCarrierNetwork(st, ssid)
  {
    if ssid in st.networks then Some(st.networks[ssid].carrierName) else None
  }

  /** isCarrierEncryptionInfoAvailable: the flag of the last update. */
  function IsCarrierEncryptionInfoAvailable(st: CarrierState): bool {
    st.encryptionInfoAvailable
  }

  /** Whether the subscription carries a valid entry for ssid. */
  predicate HasEntryFor(sub: Subscription, ssid: string, decode: Decoder) {
    sub.wifiStrings.Some? && LastEntryFor(sub.wifiStrings.value, ssid, decode) >= 0
  }

  /** The index of the last subscription with a valid entry for ssid, or -1 when there is none. */
  function LastSubscriptionFor(subs: seq<Subscription>, ssid: string, decode: Decoder): (j: int)
    ensures -1 <= j < |subs|
    ensures j >= 0 ==> HasEntryFor(subs[j], ssid, decode)
    ensures forall i :: j < i < |subs| ==> !HasEntryFor(subs[i], ssid, decode)
  {
    LastWhere(subs, sub => HasEntryFor(sub, ssid, decode))
  }

  /** A last subscription without a valid entry for ssid does not change which one is last. */
  lemma LastSubscriptionSkips(subs: seq<Subscription>, ssid: string, decode: Decoder)
    requires |subs| > 0 && !HasEntryFor(subs[|subs| - 1], ssid, decode)
    ensures LastSubscriptionFor(subs, ssid, decode) == LastSubscriptionFor(subs[..|subs| - 1], ssid, decode)
  {
  }

  /**
   * After a rebuild, an SSID maps to the EAP type of the last valid entry of the last
   * subscription that has one, with that subscription's name; it is absent when no
   * subscription has a valid entry for it.
   */
  lemma {:induction false} BuildLookup(subs: seq<Subscription>, decode: Decoder, ssid: string)
    ensures var j := LastSubscriptionFor(subs, ssid, decode);
      var r := BuildNetworks(subs, decode);
      && (j == -1 ==> ssid !in r)
      && (j >= 0 ==>
            var entries := subs[j].wifiStrings.value;
            var k := LastEntryFor(entries, ssid, decode);
            ssid in r && r[ssid] == NetworkInfo(ParseNetworkEntry(entries[k], decode).value.eapType, subs[j].displayName.GetOr("")))
    decreases |subs|
  {
    if |subs| > 0 {
      var n := |subs|;
      var init := subs[..n - 1];
      var sub := subs[n - 1];
      var acc := BuildNetworks(init, decode);
      var name := sub.displayName.GetOr("");
      BuildLookup(init, decode, ssid);
      if sub.wifiStrings.None? {
        assert BuildNetworks(subs, decode) == acc;
      } else {
        assert BuildNetworks(subs, decode) == ProcessNetworkConfig(acc, sub.wifiStrings.value, name, decode);
        ProcessLookup(acc, sub.wifiStrings.value, name, decode, ssid);
      }
      if HasEntryFor(sub, ssid, decode) {
        assert LastSubscriptionFor(subs, ssid, decode) == n - 1;
      } else {
        LastSubscriptionSkips(subs, ssid, decode);
        var j := LastSubscriptionFor(init, ssid, decode);
        if j >= 0 {
          assert subs[j] == init[j];
        }
      }
    }
  }

  /**
   * The getters after an update from any list of subscriptions: an SSID answers with the
   * EAP type and the name that the last subscription with a valid entry for it gives, so a
   * later subscription overrides an earlier one; an SSID no subscription lists is unknown.
   */
  lemma GettersAfterUpdate(st: CarrierState, subs: seq<Subscription>, enc: bool, decode: Decoder, ssid: string)
    ensures var r := UpdateNetworkConfig(st, Some(subs), enc, decode);
      var j := LastSubscriptionFor(subs, ssid, decode);
      && IsCarrierEncryptionInfoAvailable(r) == enc
      && (j == -1 ==> !IsCarrierNetwork(r, ssid) && GetNetworkEapType(r, ssid) == -1 && GetCarrierName(r, ssid).None?)
      && (j >= 0 ==>
            var entries := subs[j].wifiStrings.value;
            var k := LastEntryFor(entries, ssid, decode);
            && IsCarrierNetwork(r, ssid)
            && GetNetworkEapType(r, ssid) == ParseNetworkEntry(entries[k], decode).value.eapType
            && GetCarrierName(r, ssid) == Some(subs[j].displayName.GetOr("")))
  {
    BuildLookup(subs, decode, ssid);
  }
}

=== FILE: carrier_sim.dfy ===
/**
 * The SIM side of CarrierNetworkConfig: which SIM slots hold a card matching an operator
 * IMSI pattern, and the presetting of operator EAP networks into the saved-network store
 * from entries of ten comma-separated fields.
 */
module CarrierSim {
  import opened Wrappers
  import opened JavaString
  import opened JavaInt
  import opened CarrierNetworks

  /**
   * What the telephony service answers: the number of SIM slots, whether a slot holds a
   * card, and the subscriber IMSI of the slot's subscription (None for null).
   */
  datatype Telephony = Telephony(phoneCount: nat, hasIccCard: int -> bool, slotImsi: int -> Option<string>)

  /** Whether some alternative of the list is a prefix of imsi. */
  function AnyPrefixOf(imsi: string, alternatives: seq<string>): (r: bool)
    ensures r <==> exists i :: 0 <= i < |alternatives| && StartsWith(imsi, alternatives[i])
  {
    if |alternatives| == 0 then false
    else StartsWith(imsi, alternatives[0]) || AnyPrefixOf(imsi, alternatives[1..])
  }

  /**
   * isSimSlotEnabledForEapNetwork: the slot must hold a card; an empty operator pattern
   * accepts any card; otherwise the slot's IMSI must be non-empty and start with one of the
   * '-'-separated alternatives of the pattern.
   */
  function IsSimSlotEnabledForEapNetwork(slot: int, configImsi: string, tel: Telephony): (r: bool)
    ensures !tel.hasIccCard(slot) ==> !r
    ensures tel.hasIccCard(slot) && configImsi == "" ==> r
    ensures configImsi != "" ==> (r <==>
      && tel.hasIccCard(slot)
      && !IsEmpty(tel.slotImsi(slot))
      && exists i :: 0 <= i < |JavaSplit(configImsi, '-')| && StartsWith(tel.slotImsi(slot).value, JavaSplit(configImsi, '-')[i]))
  {
    if !tel.hasIccCard(slot) then false
    else if configImsi == "" then true
    else
      match tel.slotImsi(slot)
      case None => false
      case Some(imsi) => imsi != "" && AnyPrefixOf(imsi, JavaSplit(configImsi, '-'))
  }

  /** A pattern without '-' is a single IMSI prefix. */
  lemma SinglePrefixPattern(slot: int, configImsi: string, tel: Telephony)
    requires configImsi != "" && '-' !in configImsi
    ensures IsSimSlotEnabledForEapNetwork(slot, configImsi, tel) <==>
      tel.hasIccCard(slot) && !IsEmpty(tel.slotImsi(slot)) && StartsWith(tel.slotImsi(slot).value, configImsi)
  {
    assert JavaSplit(configImsi, '-') == [configImsi];
  }

  predicate SlotEnabled(configImsi: string, tel: Telephony, slot: int) {
    IsSimSlotEnabledForEapNetwork(slot, configImsi, tel)
  }

  /** The number of enabled slots among the first n. */
  function EnabledCount(configImsi: string, tel: Telephony, n: nat): (c: nat)
    ensures c <= n
  {
    if n == 0 then 0
    else EnabledCount(configImsi, tel, n - 1) + (if SlotEnabled(configImsi, tel, n - 1) then 1 else 0)
  }

  /** The highest enabled slot among the first n, or -1 when none of them is enabled. */
  function LastEnabled(configImsi: string, tel: Telephony, n: nat): (k: int)
    ensures -1 <= k < n
    ensures k >= 0 ==> SlotEnabled(configImsi, tel, k)
    ensures forall j :: k < j < n ==> !SlotEnabled(configImsi, tel, j)
  {
    if n == 0 then -1
    else if SlotEnabled(configImsi, tel, n - 1) then n - 1
    else LastEnabled(configImsi, tel, n - 1)
  }

  /** The count reaches n exactly when all of the first n slots are enabled. */
  lemma {:induction false} CountIsAll(configImsi: string, tel: Telephony, n: nat)
    ensures EnabledCount(configImsi, tel, n) == n <==> forall j :: 0 <= j < n ==> SlotEnabled(configImsi, tel, j)
  {
    if n > 0 {
      CountIsAll(configImsi, tel, n - 1);
    }
  }

  /**
   * checkEapNetworkSlot as written: the slot count when every slot is enabled, otherwise
   * the highest enabled slot, or -1.
   */
  function EapNetworkSlotAsWritten(configImsi: string, tel: Telephony): (r: int)
    ensures (forall j :: 0 <= j < tel.phoneCount ==> SlotEnabled(configImsi, tel, j)) ==> r == tel.phoneCount
    ensures !(forall j :: 0 <= j < tel.phoneCount ==> SlotEnabled(configImsi, tel, j)) ==>
      && -1 <= r < tel.phoneCount
      && (r >= 0 ==> SlotEnabled(configImsi, tel, r))
      && (forall j :: r < j < tel.phoneCount ==> !SlotEnabled(configImsi, tel, j))
  {
    CountIsAll(configImsi, tel, tel.phoneCount);
    var n := tel.phoneCount;
    if EnabledCount(configImsi, tel, n) == n then n else LastEnabled(configImsi, tel, n)
  }

  /**
   * On a device without SIM slots the code answers 0, a slot number, although no slot holds
   * a matching card (the documented answer for that case is -1).
   */
  lemma NoSlotsAnswersSlotZero(configImsi: string, hasIccCard: int -> bool, slotImsi: int -> Option<string>)
    ensures var tel := Telephony(0, hasIccCard, slotImsi);
      && EapNetworkSlotAsWritten(configImsi, tel) == 0
      && !exists j :: 0 <= j < tel.phoneCount && SlotEnabled(configImsi, tel, j)
  {
  }

  /**
   * The documented slot answer: -1 when no slot holds a matching card, the slot count when
   * all do, otherwise the highest matching slot.
   */
  function EapNetworkSlot(configImsi: string, tel: Telephony): (r: int)
    ensures r == -1 <==> !exists j :: 0 <= j < tel.phoneCount && SlotEnabled(configImsi, tel, j)
    ensures r == tel.phoneCount <==> tel.phoneCount > 0 && forall j :: 0 <= j < tel.phoneCount ==> SlotEnabled(configImsi, tel, j)
    ensures 0 <= r < tel.phoneCount ==>
      && SlotEnabled(configImsi, tel, r)
      && (forall j :: r < j < tel.phoneCount ==> !SlotEnabled(configImsi, tel, j))
      && !(forall j :: 0 <= j < tel.phoneCount ==> SlotEnabled(configImsi, tel, j))
    ensures -1 <= r <= tel.phoneCount
  {
    if tel.phoneCount == 0 then -1 else EapNetworkSlotAsWritten(configImsi, tel)
  }

  /** The correction changes nothing on a device with at least one slot. */
  lemma SlotAgreesWithCode(configImsi: string, tel: Telephony)
    requires tel.phoneCount > 0
    ensures EapNetworkSlot(configImsi, tel) == EapNetworkSlotAsWritten(configImsi, tel)
  {
  }

  /** The slot scan of checkEapNetworkSlot, one slot at a time. */
  method CheckEapNetworkSlot(configImsi: string, tel: Telephony) returns (r: int)
    ensures r == EapNetworkSlotAsWritten(configImsi, tel)
    ensures -1 <= r <= tel.phoneCount
    ensures r == -1 ==> !exists j :: 0 <= j < tel.phoneCount && SlotEnabled(configImsi, tel, j)
  {
    var count: int := 0;
    var slotEnabledIndex: int := -1;
    var phoneCount: int := tel.phoneCount;
    var i: int := 0;
    while i < phoneCount
      invariant 0 <= i <= phoneCount
      invariant count == EnabledCount(configImsi, tel, i)
      invariant slotEnabledIndex == LastEnabled(configImsi, tel, i)
    {
      var enabled := IsSimSlotEnabledForEapNetwork(i, configImsi, tel);
      assert EnabledCount(configImsi, tel, i + 1) == count + (if enabled then 1 else 0);
      assert LastEnabled(configImsi, tel, i + 1) == if enabled then i else slotEnabledIndex;
      if enabled {
        count := count + 1;
        slotEnabledIndex := i;
      }
      i := i + 1;
    }
    assert i == tel.phoneCount;
    CountIsAll(configImsi, tel, tel.phoneCount);
    r := if count == phoneCount then count else slotEnabledIndex;
  }

  /** The fields of a preset entry and their positions. */
  const PRESET_EAP_CONFIG_ELEMENT_SIZE: nat := 10
  const PRESET_EAP_SSID_INDEX: nat := 0
  const PRESET_EAP_WITHSIMLOAD_INDEX: nat := 1
  const PRESET_EAP_METHOD_INDEX: nat := 2
  const PRESET_EAP_METHOD_NOSIM_INDEX: nat := 3
  const PRESET_EAP_IMSI_INDEX: nat := 4
  const PRESET_EAP_SIMSLOT_INDEX: nat := 5
  const PRESET_EAP_MAX_CONNECT_TIME_INDEX: nat := 6
  const PRESET_EAP_AUTOJOIN_MEN_INDEX: nat := 7
  const PRESET_EAP_MODIFY_INDEX: nat := 8
  const PRESET_EAP_FORGET_INDEX: nat := 9

  /** The part of a saved EAP network that presetting reads and writes. */
  datatype PresetConfig = PresetConfig(
    ssid: string,
    eapMethod: int,
    simNum: int,
    autoJoinMenu: bool,
    canModify: bool,
    canForget: bool,
    imsi: string,
    maxConnectTime: int)

  /** The saved networks, by configuration key. */
  type Store = map<string, PresetConfig>

  /** The SSID in double quotes, as saved networks carry it. */
  function QuotedSsid(ssid: string): string {
    "\"" + ssid + "\""
  }

  /** The configuration key of a WPA-EAP network. */
  function ConfigKey(ssid: string): string {
    QuotedSsid(ssid) + "WPA_EAP"
  }

  /**
   * The SIM slot of a new preset: the entry's default slot when every slot or no slot
   * matches, otherwise the one matching slot.
   */
  function NewConfigSimNum(slotEnabled: int, phoneCount: nat, simSlot: int): (n: int)
    ensures slotEnabled == phoneCount || slotEnabled == -1 ==> n == simSlot
    ensures slotEnabled != phoneCount && slotEnabled != -1 ==> n == slotEnabled
  {
    if slotEnabled == phoneCount || slotEnabled == -1 then simSlot else slotEnabled
  }

  /** What one entry does: nothing, stop the whole preset (NumberFormatException), or save a network. */
  datatype PresetStep = Skip | Abort | Save(key: string, config: PresetConfig)

  /** The settings every saved preset takes from the entry, new or existing. */
  function WithEntrySettings(c: PresetConfig, f: seq<string>, maxConnectTime: int): (r: PresetConfig)
    requires |f| == PRESET_EAP_CONFIG_ELEMENT_SIZE
    ensures r.ssid == c.ssid && r.eapMethod == c.eapMethod && r.simNum == c.simNum
    ensures r.autoJoinMenu == ParseBoolean(f[PRESET_EAP_AUTOJOIN_MEN_INDEX])
    ensures r.canModify == ParseBoolean(f[PRESET_EAP_MODIFY_INDEX])
    ensures r.canForget == ParseBoolean(f[PRESET_EAP_FORGET_INDEX])
    ensures r.imsi == f[PRESET_EAP_IMSI_INDEX] && r.maxConnectTime == maxConnectTime
  {
    c.(autoJoinMenu := ParseBoolean(f[PRESET_EAP_AUTOJOIN_MEN_INDEX]),
       canModify := ParseBoolean(f[PRESET_EAP_MODIFY_INDEX]),
       canForget := ParseBoolean(f[PRESET_EAP_FORGET_INDEX]),
       imsi := f[PRESET_EAP_IMSI_INDEX],
       maxConnectTime := maxConnectTime)
  }

  /** The fields of an entry. */
  function PresetFields(network: string): seq<string> {
    JavaSplit(network, NETWORK_CONFIG_SEPARATOR)
  }

  /**
   * The slot answer a preset works from: checkEapNetworkSlot as the code computes it, or
   * the documented answer, which is -1 on a device without SIM slots.
   */
  datatype SlotRule = AsWritten | Documented

  function SlotFor(rule: SlotRule, imsi: string, tel: Telephony): (r: int)
    ensures -1 <= r <= tel.phoneCount
    ensures r == -1 ==> !exists j :: 0 <= j < tel.phoneCount && SlotEnabled(imsi, tel, j)
    ensures tel.phoneCount > 0 ==> r == EapNetworkSlot(imsi, tel)
  {
    match rule
    case AsWritten => EapNetworkSlotAsWritten(imsi, tel)
    case Documented => EapNetworkSlot(imsi, tel)
  }

  /**
   * The entry passes the connect-time and IMSI checks: the time parses, and an IMSI is
   * given whenever the SIM must be loaded or the connect time is limited.
   */
  predicate ImsiChecked(f: seq<string>)
    requires |f| == PRESET_EAP_CONFIG_ELEMENT_SIZE
  {
    && ParseInt(f[PRESET_EAP_MAX_CONNECT_TIME_INDEX]).Some?
    && (|| f[PRESET_EAP_IMSI_INDEX] != ""
        || (!ParseBoolean(f[PRESET_EAP_WITHSIMLOAD_INDEX]) && ParseInt(f[PRESET_EAP_MAX_CONNECT_TIME_INDEX]).value <= 0))
  }

  /** The entry also passes the EAP method check: the method parses and is SIM, AKA or AKA'. */
  predicate MethodChecked(f: seq<string>)
    requires |f| == PRESET_EAP_CONFIG_ELEMENT_SIZE
  {
    ImsiChecked(f) && ParseInt(f[PRESET_EAP_METHOD_INDEX]).Some? && SimBasedMethod(ParseInt(f[PRESET_EAP_METHOD_INDEX]).value)
  }

  /** The entry also has a default slot that parses: it reaches the store. */
  predicate SlotParsed(f: seq<string>)
    requires |f| == PRESET_EAP_CONFIG_ELEMENT_SIZE
  {
    MethodChecked(f) && ParseInt(f[PRESET_EAP_SIMSLOT_INDEX]).Some?
  }

  /**
   * One entry of presetWifiEapNetwork, with its checks in the order of the code: ten
   * fields; a maximum connect time that parses; an IMSI whenever the SIM must be loaded or
   * the connect time is limited; a SIM-based EAP method; a default slot that parses; then a
   * new network (which needs a matching card when the SIM must be loaded) or an update of
   * the saved one, whose EAP method falls back to the no-SIM method when no slot matches.
   * A number that does not parse aborts (NumberFormatException).
   */
  function PresetEntry(rule: SlotRule, store: Store, tel: Telephony, network: string): (r: PresetStep)
    ensures var f := PresetFields(network);
      r.Skip? <==>
        || |f| != PRESET_EAP_CONFIG_ELEMENT_SIZE
        || (ParseInt(f[PRESET_EAP_MAX_CONNECT_TIME_INDEX]).Some? && !ImsiChecked(f))
        || (ImsiChecked(f) && ParseInt(f[PRESET_EAP_METHOD_INDEX]).Some? && !MethodChecked(f))
        || (&& SlotParsed(f) && ConfigKey(f[PRESET_EAP_SSID_INDEX]) !in store
            && ParseBoolean(f[PRESET_EAP_WITHSIMLOAD_INDEX]) && SlotFor(rule, f[PRESET_EAP_IMSI_INDEX], tel) == -1)
    ensures var f := PresetFields(network);
      r.Abort? <==>
        && |f| == PRESET_EAP_CONFIG_ELEMENT_SIZE
        && (|| ParseInt(f[PRESET_EAP_MAX_CONNECT_TIME_INDEX]).None?
            || (ImsiChecked(f) && ParseInt(f[PRESET_EAP_METHOD_INDEX]).None?)
            || (MethodChecked(f) && ParseInt(f[PRESET_EAP_SIMSLOT_INDEX]).None?)
            || (&& SlotParsed(f) && ConfigKey(f[PRESET_EAP_SSID_INDEX]) in store
                && SlotFor(rule, f[PRESET_EAP_IMSI_INDEX], tel) == -1 && ParseInt(f[PRESET_EAP_METHOD_NOSIM_INDEX]).None?))
    ensures r.Save? ==>
      var f := PresetFields(network);
      && |f| == PRESET_EAP_CONFIG_ELEMENT_SIZE
      && SlotParsed(f)
      && r.key == ConfigKey(f[PRESET_EAP_SSID_INDEX])
      && r.config.imsi == f[PRESET_EAP_IMSI_INDEX]
      && r.config.maxConnectTime == ParseInt(f[PRESET_EAP_MAX_CONNECT_TIME_INDEX]).value
      && r.config.autoJoinMenu == ParseBoolean(f[PRESET_EAP_AUTOJOIN_MEN_INDEX])
      && r.config.canModify == ParseBoolean(f[PRESET_EAP_MODIFY_INDEX])
      && r.config.canForget == ParseBoolean(f[PRESET_EAP_FORGET_INDEX])
    ensures r.Save? && r.key !in store ==>
      var f := PresetFields(network);
      var slot := SlotFor(rule, f[PRESET_EAP_IMSI_INDEX], tel);
      && r.config.ssid == QuotedSsid(f[PRESET_EAP_SSID_INDEX])
      && r.config.eapMethod == ParseInt(f[PRESET_EAP_METHOD_INDEX]).value
      && r.config.simNum == NewConfigSimNum(slot, tel.phoneCount, ParseInt(f[PRESET_EAP_SIMSLOT_INDEX]).value)
      && (ParseBoolean(f[PRESET_EAP_WITHSIMLOAD_INDEX]) ==> slot != -1)
    ensures r.Save? && r.key in store ==>
      var f := PresetFields(network);
      var slot := SlotFor(rule, f[PRESET_EAP_IMSI_INDEX], tel);
      var saved := store[r.key];
      && r.config.ssid == saved.ssid
      && (slot >= 0 ==> r.config.eapMethod == ParseInt(f[PRESET_EAP_METHOD_INDEX]).value)
      && (slot >= 0 && slot != tel.phoneCount ==> r.config.simNum == slot)
      && (slot == tel.phoneCount ==> r.config.simNum == saved.simNum)
      && (slot < 0 ==> r.config.simNum == saved.simNum)
      && (slot < 0 ==> ParseInt(f[PRESET_EAP_METHOD_NOSIM_INDEX]).Some? && r.config.eapMethod == ParseInt(f[PRESET_EAP_METHOD_NOSIM_INDEX]).value)
  {
    var f := PresetFields(network);
    if |f| != PRESET_EAP_CONFIG_ELEMENT_SIZE then Skip
    else
      var needSimLoad := ParseBoolean(f[PRESET_EAP_WITHSIMLOAD_INDEX]);
      match ParseInt(f[PRESET_EAP_MAX_CONNECT_TIME_INDEX])
      case None => Abort
      case Some(maxConnectTime) =>
        var imsi := f[PRESET_EAP_IMSI_INDEX];
        if imsi == "" && (needSimLoad || maxConnectTime > 0) then Skip
        else
          assert ImsiChecked(f);
          match ParseInt(f[PRESET_EAP_METHOD_INDEX])
          case None => Abort
          case Some(eapMethod) =>
            if !SimBasedMethod(eapMethod) then Skip
            else
              assert MethodChecked(f);
              match ParseInt(f[PRESET_EAP_SIMSLOT_INDEX])
              case None => Abort
              case Some(simSlot) =>
                assert SlotParsed(f);
                SaveEntry(rule, store, tel, f, maxConnectTime, eapMethod, simSlot)
  }

  /**
   * The last part of one entry, once its numbers have parsed: a new network is saved unless
   * the SIM must be loaded and no slot matches; a saved one is updated, falling back to the
   * no-SIM method (which must parse) when no slot matches.
   */
  function SaveEntry(rule: SlotRule, store: Store, tel: Telephony, f: seq<string>, maxConnectTime: int,
                     eapMethod: int, simSlot: int): (r: PresetStep)
    requires |f| == PRESET_EAP_CONFIG_ELEMENT_SIZE
    ensures var slot := SlotFor(rule, f[PRESET_EAP_IMSI_INDEX], tel);
      r.Skip? <==> ConfigKey(f[PRESET_EAP_SSID_INDEX]) !in store && ParseBoolean(f[PRESET_EAP_WITHSIMLOAD_INDEX]) && slot == -1
    ensures var slot := SlotFor(rule, f[PRESET_EAP_IMSI_INDEX], tel);
      r.Abort? <==> ConfigKey(f[PRESET_EAP_SSID_INDEX]) in store && slot == -1 && ParseInt(f[PRESET_EAP_METHOD_NOSIM_INDEX]).None?
    ensures r.Save? ==>
      && r.key == ConfigKey(f[PRESET_EAP_SSID_INDEX])
      && r.config.imsi == f[PRESET_EAP_IMSI_INDEX]
      && r.config.maxConnectTime == maxConnectTime
      && r.config.autoJoinMenu == ParseBoolean(f[PRESET_EAP_AUTOJOIN_MEN_INDEX])
      && r.config.canModify == ParseBoolean(f[PRESET_EAP_MODIFY_INDEX])
      && r.config.canForget == ParseBoolean(f[PRESET_EAP_FORGET_INDEX])
    ensures r.Save? && r.key !in store ==>
      var slot := SlotFor(rule, f[PRESET_EAP_IMSI_INDEX], tel);
      && r.config.ssid == QuotedSsid(f[PRESET_EAP_SSID_INDEX])
      && r.config.eapMethod == eapMethod
      && r.config.simNum == NewConfigSimNum(slot, tel.phoneCount, simSlot)
      && (ParseBoolean(f[PRESET_EAP_WITHSIMLOAD_INDEX]) ==> slot != -1)
    ensures r.Save? && r.key in store ==>
      var slot := SlotFor(rule, f[PRESET_EAP_IMSI_INDEX], tel);
      var saved := store[r.key];
      && r.config.ssid == saved.ssid
      && (slot >= 0 ==> r.config.eapMethod == eapMethod)
      && (slot >= 0 && slot != tel.phoneCount ==> r.config.simNum == slot)
      && (slot == tel.phoneCount ==> r.config.simNum == saved.simNum)
      && (slot < 0 ==> r.config.simNum == saved.simNum)
      && (slot < 0 ==> ParseInt(f[PRESET_EAP_METHOD_NOSIM_INDEX]).Some? && r.config.eapMethod == ParseInt(f[PRESET_EAP_METHOD_NOSIM_INDEX]).value)
  {
    var needSimLoad := ParseBoolean(f[PRESET_EAP_WITHSIMLOAD_INDEX]);
    var ssid := f[PRESET_EAP_SSID_INDEX];
    var key := ConfigKey(ssid);
    var slotEnabled := SlotFor(rule, f[PRESET_EAP_IMSI_INDEX], tel);
    if key !in store then
      if needSimLoad && slotEnabled == -1 then Skip
      else
        var c := PresetConfig(QuotedSsid(ssid), eapMethod,
                              NewConfigSimNum(slotEnabled, tel.phoneCount, simSlot),
                              false, false, false, "", 0);
        Save(key, WithEntrySettings(c, f, maxConnectTime))
    else if slotEnabled >= 0 then
      var c := store[key].(eapMethod := eapMethod);
      var c' := if slotEnabled != tel.phoneCount then c.(simNum := slotEnabled) else c;
      Save(key, WithEntrySettings(c', f, maxConnectTime))
    else
      match ParseInt(f[PRESET_EAP_METHOD_NOSIM_INDEX])
      case None => Abort
      case Some(noSimMethod) =>
        Save(key, WithEntrySettings(store[key].(eapMethod := noSimMethod), f, maxConnectTime))
  }

  /**
   * On a device without SIM slots the code presets a network whose SIM must be loaded,
   * although no slot holds a card: a new one is saved with its default slot, and a saved one
   * takes the SIM method instead of the no-SIM method. The documented slot answer skips the
   * new one and gives the saved one the no-SIM method.
   */
  lemma NoSlotsPresetDiffers(store: Store, tel: Telephony, f: seq<string>, maxConnectTime: int,
                             eapMethod: int, simSlot: int)
    requires |f| == PRESET_EAP_CONFIG_ELEMENT_SIZE && tel.phoneCount == 0
    requires ParseBoolean(f[PRESET_EAP_WITHSIMLOAD_INDEX])
    ensures !exists j :: 0 <= j < tel.phoneCount && SlotEnabled(f[PRESET_EAP_IMSI_INDEX], tel, j)
    ensures var code := SaveEntry(AsWritten, store, tel, f, maxConnectTime, eapMethod, simSlot);
      && code.Save?
      && (code.key !in store ==> code.config.simNum == simSlot)
      && code.config.eapMethod == eapMethod
    ensures var documented := SaveEntry(Documented, store, tel, f, maxConnectTime, eapMethod, simSlot);
      ConfigKey(f[PRESET_EAP_SSID_INDEX]) !in store ==> documented.Skip?
  {
    assert EapNetworkSlotAsWritten(f[PRESET_EAP_IMSI_INDEX], tel) == 0;
  }

  /**
   * Under the documented slot answer, a new network whose SIM must be loaded is saved only
   * when some slot holds a matching card.
   */
  lemma DocumentedPresetNeedsCard(store: Store, tel: Telephony, network: string)
    ensures var r := PresetEntry(Documented, store, tel, network);
      var f := PresetFields(network);
      r.Save? && r.key !in store && ParseBoolean(f[PRESET_EAP_WITHSIMLOAD_INDEX]) ==>
        exists j :: 0 <= j < tel.phoneCount && SlotEnabled(f[PRESET_EAP_IMSI_INDEX], tel, j)
  {
  }

  /** The two slot answers preset alike on a device with at least one slot. */
  lemma PresetRulesAgree(store: Store, tel: Telephony, network: string)
    requires tel.phoneCount > 0
    ensures PresetEntry(AsWritten, store, tel, network) == PresetEntry(Documented, store, tel, network)
  {
    var f := PresetFields(network);
    if |f| == PRESET_EAP_CONFIG_ELEMENT_SIZE {
      assert SlotFor(AsWritten, f[PRESET_EAP_IMSI_INDEX], tel) == SlotFor(Documented, f[PRESET_EAP_IMSI_INDEX], tel);
    }
  }

  /** The store after a preset, and whether a malformed number stopped it early. */
  datatype PresetResult = PresetResult(store: Store, aborted: bool)

  /** The entries in order; the first aborting entry ends the run with what was saved so far. */
  function PresetAll(rule: SlotRule, store: Store, tel: Telephony, networks: seq<string>): (r: PresetResult)
    ensures store.Keys <= r.store.Keys
    decreases |networks|
  {
    if |networks| == 0 then PresetResult(store, false)
    else
      match PresetEntry(rule, store, tel, networks[0])
      case Abort => PresetResult(store, true)
      case Skip => PresetAll(rule, store, tel, networks[1..])
      case Save(key, config) => PresetAll(rule, store[key := config], tel, networks[1..])
  }

  /**
   * presetWifiEapNetwork: nothing happens without the entry list or the telephony service;
   * otherwise the entries are applied to the store in order, with the code's slot answer.
   */
  function PresetWifiEapNetwork(store: Store, networks: Option<seq<string>>, tel: Option<Telephony>): (r: Store)
    ensures networks.None? || tel.None? ==> r == store
    ensures store.Keys <= r.Keys
    ensures networks.Some? && tel.Some? && |networks.value| > 0 ==>
      var first := PresetEntry(AsWritten, store, tel.value, networks.value[0]);
      && (first.Abort? ==> r == store)
      && (first.Save? && |networks.value| == 1 ==> r == store[first.key := first.config])
  {
    if networks.None? || tel.None? then store
    else
      var ns := networks.value;
      assert |ns| == 1 && PresetEntry(AsWritten, store, tel.value, ns[0]).Save? ==>
        var first := PresetEntry(AsWritten, store, tel.value, ns[0]);
        PresetAll(AsWritten, store, tel.value, ns) == PresetAll(AsWritten, store[first.key := first.config], tel.value, ns[1..]);
      PresetAll(AsWritten, store, tel.value, ns).store
  }

  /**
   * A run over two lists in a row is a run over the first and, unless it aborted, a run over
   * the second from where the first left off.
   */
  lemma {:induction false} PresetAllAppend(rule: SlotRule, store: Store, tel: Telephony, first: seq<string>, rest: seq<string>)
    ensures var a := PresetAll(rule, store, tel, first);
      PresetAll(rule, store, tel, first + rest) == (if a.aborted then a else PresetAll(rule, a.store, tel, rest))
    decreases |first|
  {
    if |first| > 0 {
      assert (first + rest)[0] == first[0];
      assert (first + rest)[1..] == first[1..] + rest;
      match PresetEntry(rule, store, tel, first[0])
      case Abort =>
      case Skip => PresetAllAppend(rule, store, tel, first[1..], rest);
      case Save(key, config) => PresetAllAppend(rule, store[key := config], tel, first[1..], rest);
    } else {
      assert first + rest == rest;
    }
  }

  /** Whether network is a ten-field entry whose SSID has the configuration key key. */
  predicate EntryKeyIs(network: string, key: string) {
    var f := PresetFields(network);
    |f| == PRESET_EAP_CONFIG_ELEMENT_SIZE && key == ConfigKey(f[PRESET_EAP_SSID_INDEX])
  }

  /** Every key the run adds is the configuration key of one of the entries. */
  lemma {:induction false} PresetAddsOnlyEntryKeys(rule: SlotRule, store: Store, tel: Telephony, networks: seq<string>, key: string)
    requires key in PresetAll(rule, store, tel, networks).store && key !in store
    ensures exists i :: 0 <= i < |networks| && EntryKeyIs(networks[i], key)
    decreases |networks|
  {
    var s := PresetEntry(rule, store, tel, networks[0]);
    if s.Save? && s.key == key {
      assert 0 < |networks|;
    } else {
      var next := if s.Save? then store[s.key := s.config] else store;
      PresetAddsOnlyEntryKeys(rule, next, tel, networks[1..], key);
      var i :| 0 <= i < |networks[1..]| && EntryKeyIs(networks[1..][i], key);
      assert networks[1..][i] == networks[i + 1];
    }
  }

  /** Entries for other networks leave a key's saved network, or its absence, as it was. */
  lemma {:induction false} PresetLeavesOtherKeys(rule: SlotRule, store: Store, tel: Telephony, networks: seq<string>, key: string)
    requires forall i :: 0 <= i < |networks| ==> !EntryKeyIs(networks[i], key)
    ensures var r := PresetAll(rule, store, tel, networks).store;
      (key in r <==> key in store) && (key in store ==> r[key] == store[key])
    decreases |networks|
  {
    if |networks| > 0 {
      var rest := networks[1..];
      assert !EntryKeyIs(networks[0], key);
      forall i | 0 <= i < |rest| ensures !EntryKeyIs(rest[i], key) {
        assert rest[i] == networks[i + 1];
      }
      var s := PresetEntry(rule, store, tel, networks[0]);
      if s.Save? {
        assert s.key != key;
        PresetLeavesOtherKeys(rule, store[s.key := s.config], tel, rest, key);
      } else if s.Skip? {
        PresetLeavesOtherKeys(rule, store, tel, rest, key);
      }
    }
  }

  /**
   * A network an entry saves stays saved as that entry left it, unless a later entry is
   * for the same network: later entries for other networks, and an abort, do not undo it.
   */
  lemma SavedEntryStays(store: Store, tel: Telephony, before: seq<string>, network: string, after: seq<string>)
    requires var a := PresetAll(AsWritten, store, tel, before);
      !a.aborted && PresetEntry(AsWritten, a.store, tel, network).Save?
    requires var s := PresetEntry(AsWritten, PresetAll(AsWritten, store, tel, before).store, tel, network);
      forall i :: 0 <= i < |after| ==> !EntryKeyIs(after[i], s.key)
    ensures var s := PresetEntry(AsWritten, PresetAll(AsWritten, store, tel, before).store, tel, network);
      var r := PresetWifiEapNetwork(store, Some(before + [network] + after), Some(tel));
      s.key in r && r[s.key] == s.config
  {
    var a := PresetAll(AsWritten, store, tel, before);
    var s := PresetEntry(AsWritten, a.store, tel, network);
    assert before + [network] + after == before + ([network] + after);
    PresetAllAppend(AsWritten, store, tel, before, [network] + after);
    var rest := [network] + after;
    assert rest[0] == network && rest[1..] == after;
    assert PresetAll(AsWritten, a.store, tel, rest) == PresetAll(AsWritten, a.store[s.key := s.config], tel, after);
    PresetLeavesOtherKeys(AsWritten, a.store[s.key := s.config], tel, after, s.key);
  }

  /**
   * An entry with a malformed number ends the run (NumberFormatException): the store is what
   * the entries before it saved, and the entries after it are not looked at.
   */
  lemma AbortEndsRun(store: Store, tel: Telephony, before: seq<string>, network: string, after: seq<string>)
    requires PresetEntry(AsWritten, PresetAll(AsWritten, store, tel, before).store, tel, network).Abort?
    ensures PresetWifiEapNetwork(store, Some(before + [network] + after), Some(tel))
      == PresetAll(AsWritten, store, tel, before).store
  {
    var a := PresetAll(AsWritten, store, tel, before);
    var rest := [network] + after;
    assert before + [network] + after == before + rest;
    PresetAllAppend(AsWritten, store, tel, before, rest);
    if !a.aborted {
      assert rest[0] == network;
      assert PresetAll(AsWritten, a.store, tel, rest) == PresetResult(a.store, true);
    }
  }

  /**
   * Presetting the same entry again, with a matching card in some slot, saves the same
   * network: the second pass takes the existing-network branch and writes the same values.
   */
  lemma RepresetIsStable(rule: SlotRule, store: Store, tel: Telephony, network: string)
    requires PresetEntry(rule, store, tel, network).Save?
    requires SlotFor(rule, PresetFields(network)[PRESET_EAP_IMSI_INDEX], tel) >= 0
    ensures var s := PresetEntry(rule, store, tel, network);
      PresetEntry(rule, store[s.key := s.config], tel, network) == s
  {
  }
}

=== FILE: client_stats.dfy ===
/**
 * WifiApClientStats: the connected-client cache, the block-list and the allow-list of the
 * hotspot, the block mode, and the two accept files they are persisted to. Every public
 * operation is a function from the old state to the new one (and its return value).
 */
module ClientStats {
  import opened Wrappers
  import opened JavaString
  import opened AssocCache
  import opened AcceptFile

  /** The two files the lists are written to. */
  datatype ListFile = BlockListFile | WhiteListFile

  datatype Stats = Stats(
    clientInfo: Cache,          // MAC -> "MAC IP NAME" of the connected clients
    blocked: Cache,             // MAC -> "MAC" or "MAC NAME"
    white: Cache,               // MAC -> "MAC" or "MAC NAME"
    blockedChanged: bool,
    whiteChanged: bool,
    newMacList: Option<string>, // the space-separated MACs last reported by the hotspot
    blockedMode: string,        // "0" block-list mode, "1" allow-list mode
    blockListFile: seq<string>,
    whiteListFile: seq<string>)

  /** What every operation keeps: maps without repeated keys, a valid mode, nothing unsaved. */
  predicate Valid(st: Stats) {
    && UniqueKeys(st.clientInfo) && UniqueKeys(st.blocked) && UniqueKeys(st.white)
    && ModeOk(st.blockedMode)
    && !st.blockedChanged && !st.whiteChanged
  }

  /** The files hold exactly what the writer emits for the current lists and mode. */
  predicate Synced(st: Stats) {
    st.blockListFile == EntryLines(st.blocked)
    && st.whiteListFile == WhiteListLines(st.blockedMode, st.white)
  }

  /** A fresh instance over the two files, before the loader has run. */
  function Init(blockFile: seq<string>, whiteFile: seq<string>): (st: Stats)
    ensures Valid(st) && st.blockedMode == BLOCKMODE_BLACKLIST
  {
    Stats([], [], [], false, false, None, BLOCKMODE_BLACKLIST, blockFile, whiteFile)
  }

  /**
   * The loader thread: the block-list file, then the allow-list file, each starting as
   * not-an-allow-list. A malformed line raises an exception that nothing on the thread
   * catches, so an abort in the first file skips the second; what an uncaught exception
   * does to the hosting process afterwards is not modelled.
   */
  function LoadAll(st: Stats): (r: Stats)
    ensures Valid(st) ==> Valid(r)
    ensures r.clientInfo == st.clientInfo && r.newMacList == st.newMacList
    ensures r.blockListFile == st.blockListFile && r.whiteListFile == st.whiteListFile
  {
    var first := LoadLines(LoadState(st.blockedMode, false, st.white, st.blocked), st.blockListFile);
    var last :=
      if first.Aborted? then first.state
      else LoadLines(first.state.(isWhiteList := false), st.whiteListFile).state;
    st.(blockedMode := last.mode, white := last.white, blocked := last.blocked)
  }

  /**
   * writeToFile: the allow-list (mode line first) if it is dirty, else the block-list if it
   * is dirty, else nothing; the named file is truncated and receives that content, and only
   * the flag of the list written is cleared.
   */
  function WriteToFile(st: Stats, file: ListFile): (r: Stats)
    ensures st.whiteChanged ==>
      FileOf(r, file) == WhiteListLines(st.blockedMode, st.white)
      && !r.whiteChanged && r.blockedChanged == st.blockedChanged
    ensures !st.whiteChanged && st.blockedChanged ==>
      FileOf(r, file) == EntryLines(st.blocked) && !r.blockedChanged && !r.whiteChanged
    ensures !st.whiteChanged && !st.blockedChanged ==> FileOf(r, file) == [] && r.(blockListFile := st.blockListFile, whiteListFile := st.whiteListFile) == st
    ensures FileOf(r, Other(file)) == FileOf(st, Other(file))
    ensures r.clientInfo == st.clientInfo && r.blocked == st.blocked && r.white == st.white
    ensures r.blockedMode == st.blockedMode && r.newMacList == st.newMacList
  {
    var lines :=
      if st.whiteChanged then WhiteListLines(st.blockedMode, st.white)
      else if st.blockedChanged then EntryLines(st.blocked)
      else [];
    var st1 :=
      if st.whiteChanged then st.(whiteChanged := false)
      else if st.blockedChanged then st.(blockedChanged := false)
      else st;
    match file
    case BlockListFile => st1.(blockListFile := lines)
    case WhiteListFile => st1.(whiteListFile := lines)
  }

  function FileOf(st: Stats, file: ListFile): seq<string> {
    match file
    case BlockListFile => st.blockListFile
    case WhiteListFile => st.whiteListFile
  }

  function Other(file: ListFile): ListFile {
    match file
    case BlockListFile => WhiteListFile
    case WhiteListFile => BlockListFile
  }

  /** writeBlockList: writes the block-list file only when the block-list is dirty. */
  function WriteBlockList(st: Stats): (r: Stats)
    ensures !st.blockedChanged ==> r == st
    ensures st.blockedChanged && !st.whiteChanged ==>
      r == st.(blockedChanged := false, blockListFile := EntryLines(st.blocked))
  {
    if st.blockedChanged then WriteToFile(st, BlockListFile) else st
  }

  /** writeWhiteList: writes the allow-list file only when the allow-list is dirty. */
  function WriteWhiteList(st: Stats): (r: Stats)
    ensures !st.whiteChanged ==> r == st
    ensures st.whiteChanged ==>
      r == st.(whiteChanged := false, whiteListFile := WhiteListLines(st.blockedMode, st.white))
  {
    if st.whiteChanged then WriteToFile(st, WhiteListFile) else st
  }

  /** The info string saveClientInfo builds: MAC, IP and the name or "*". */
  function ClientInfo(mac: string, name: Option<string>, ip: string): (info: string)
    ensures StartsWith(info, mac + " " + ip + " ")
    ensures name.None? ==> info[|mac| + |ip| + 2..] == "*"
    ensures name.Some? ==> info[|mac| + |ip| + 2..] == name.value
  {
    mac + " " + ip + " " + name.GetOr("*")
  }

  /** saveClientInfo: caches the info under the MAC and returns it. */
  function SaveClientInfo(st: Stats, mac: string, name: Option<string>, ip: string): (r: (Stats, string))
    ensures r.1 == ClientInfo(mac, name, ip)
    ensures Get(r.0.clientInfo, mac) == Some(r.1)
    ensures forall k :: k != mac ==> Get(r.0.clientInfo, k) == Get(st.clientInfo, k)
    ensures r.0 == st.(clientInfo := r.0.clientInfo)
    ensures Valid(st) ==> Valid(r.0)
  {
    var info := ClientInfo(mac, name, ip);
    (st.(clientInfo := Put(st.clientInfo, mac, info)), info)
  }

  /** addOrUpdateClientInfoList: records the MAC list the hotspot reported last. */
  function AddOrUpdateClientInfoList(st: Stats, macList: string): (r: Stats)
    ensures r.newMacList == Some(macList) && r.(newMacList := st.newMacList) == st
    ensures |GetStaClientInfoList(r)| == if macList == "" then 0 else |JavaSplit(macList, ' ')|
  {
    st.(newMacList := Some(macList))
  }

  /** For each MAC, its cached info, or the MAC itself when nothing is cached yet. */
  function InfoOrMac(c: Cache, macs: seq<string>): (r: seq<string>)
    ensures |r| == |macs|
    ensures forall i :: 0 <= i < |macs| ==> r[i] == Get(c, macs[i]).GetOr(macs[i])
  {
    if |macs| == 0 then [] else [Get(c, macs[0]).GetOr(macs[0])] + InfoOrMac(c, macs[1..])
  }

  /**
   * getStaClientInfoList: nothing for an empty reported list, every cached info when no list
   * was reported, otherwise one string per reported MAC.
   */
  function GetStaClientInfoList(st: Stats): (r: seq<string>)
    ensures st.newMacList == Some("") ==> r == []
    ensures st.newMacList.None? ==> r == Values(st.clientInfo)
    ensures st.newMacList.Some? && st.newMacList.value != "" ==>
      var macs := JavaSplit(st.newMacList.value, ' ');
      |r| == |macs| && forall i :: 0 <= i < |macs| ==>
        (HasKey(st.clientInfo, macs[i]) ==> Some(r[i]) == Get(st.clientInfo, macs[i]))
        && (!HasKey(st.clientInfo, macs[i]) ==> r[i] == macs[i])
  {
    match st.newMacList
    case None => Values(st.clientInfo)
    case Some(list) => if list == "" then [] else InfoOrMac(st.clientInfo, JavaSplit(list, ' '))
  }

  /** stop: forgets the connected clients and the reported list, then saves dirty lists. */
  function Stop(st: Stats): (r: Stats)
    ensures r.clientInfo == [] && r.newMacList.None?
    ensures GetStaClientInfoList(r) == []
    ensures r.blocked == st.blocked && r.white == st.white && r.blockedMode == st.blockedMode
    ensures Valid(st) ==> Valid(r) && r == st.(clientInfo := [], newMacList := None)
  {
    WriteWhiteList(WriteBlockList(st.(newMacList := None, clientInfo := [])))
  }

  /** The block-list info for a client whose cached info is `info`: its third token or none. */
  function BlockedInfo(mac: string, info: string): (r: string)
    ensures StartsWith(r, mac)
    ensures |JavaSplit(info, ' ')| <= 2 ==> r == mac
  {
    var tokens := JavaSplit(info, ' ');
    if |tokens| > 2 then mac + " " + tokens[2] else mac
  }

  /**
   * blockClient: blocks a connected client under its cached name; for a MAC without cached
   * info the lookup fails, the block-list stays as it was, and the answer is still true.
   */
  function BlockClient(st: Stats, mac: string): (r: (Stats, bool))
    ensures r.1
    ensures !HasKey(st.clientInfo, mac) ==> r.0.blocked == st.blocked
    ensures HasKey(st.clientInfo, mac) ==>
      Get(r.0.blocked, mac) == Some(BlockedInfo(mac, Get(st.clientInfo, mac).value))
    ensures forall k :: k != mac ==> Get(r.0.blocked, k) == Get(st.blocked, k)
    ensures Valid(st) ==> Valid(r.0) && r.0 == st.(blocked := r.0.blocked, blockListFile := EntryLines(r.0.blocked))
  {
    var blocked :=
      match Get(st.clientInfo, mac)
      case None => st.blocked
      case Some(info) => Put(st.blocked, mac, BlockedInfo(mac, info));
    (WriteBlockList(st.(blocked := blocked, blockedChanged := true)), true)
  }

  /** unBlockClient: removes the MAC from the block-list and always answers true. */
  function UnBlockClient(st: Stats, mac: string): (r: (Stats, bool))
    ensures r.1
    ensures Get(r.0.blocked, mac).None?
    ensures forall k :: k != mac ==> Get(r.0.blocked, k) == Get(st.blocked, k)
    ensures Valid(st) ==> Valid(r.0) && r.0 == st.(blocked := r.0.blocked, blockListFile := EntryLines(r.0.blocked))
  {
    (WriteBlockList(st.(blocked := Remove(st.blocked, mac), blockedChanged := true)), true)
  }

  /**
   * addClientToWhiteList: refuses a null MAC or one that is not a MAC address; otherwise
   * stores "MAC" or "MAC NAME" and answers true.
   */
  function AddClientToWhiteList(st: Stats, mac: Option<string>, name: Option<string>): (r: (Stats, bool))
    ensures r.1 <==> CheckMac(mac)
    ensures !r.1 ==> r.0 == st
    ensures r.1 ==>
      Get(r.0.white, mac.value) == Some(if name.Some? then mac.value + " " + name.value else mac.value)
      && forall k :: k != mac.value ==> Get(r.0.white, k) == Get(st.white, k)
    ensures r.1 && Valid(st) ==>
      Valid(r.0) && r.0 == st.(white := r.0.white, whiteListFile := WhiteListLines(st.blockedMode, r.0.white))
  {
    if !CheckMac(mac) then (st, false)
    else
      var info := if name.Some? then mac.value + " " + name.value else mac.value;
      (WriteWhiteList(st.(white := Put(st.white, mac.value, info), whiteChanged := true)), true)
  }

  /** delClientFromWhiteList: removes only that MAC and always answers true. */
  function DelClientFromWhiteList(st: Stats, mac: string): (r: (Stats, bool))
    ensures r.1
    ensures Get(r.0.white, mac).None?
    ensures forall k :: k != mac ==> Get(r.0.white, k) == Get(st.white, k)
    ensures Valid(st) ==>
      Valid(r.0) && r.0 == st.(white := r.0.white, whiteListFile := WhiteListLines(st.blockedMode, r.0.white))
  {
    (WriteWhiteList(st.(white := Remove(st.white, mac), whiteChanged := true)), true)
  }

  /** setClientWhiteListEnabled: sets the mode and saves the allow-list file. */
  function SetClientWhiteListEnabled(st: Stats, enabled: bool): (r: (Stats, bool))
    ensures r.1 && ModeOk(r.0.blockedMode)
    ensures r.0.white == st.white && r.0.blocked == st.blocked && r.0.clientInfo == st.clientInfo
    ensures Valid(st) ==>
      Valid(r.0) && r.0 == st.(blockedMode := r.0.blockedMode, whiteListFile := WhiteListLines(r.0.blockedMode, st.white))
  {
    var mode := if enabled then BLOCKMODE_WHITELIST else BLOCKMODE_BLACKLIST;
    (WriteWhiteList(st.(blockedMode := mode, whiteChanged := true)), true)
  }

  /** isWhiteListEnabled: the mode is "1". */
  function IsWhiteListEnabled(st: Stats): (r: bool)
    ensures r <==> st.blockedMode == BLOCKMODE_WHITELIST
    ensures ModeOk(st.blockedMode) ==> (!r <==> st.blockedMode == BLOCKMODE_BLACKLIST)
  {
    st.blockedMode == BLOCKMODE_WHITELIST
  }

  /**
   * The trimmed first space-separated token of an info string, or None when the string
   * splits into nothing (only spaces), where indexing the token array throws.
   */
  function FirstToken(s: string): (r: Option<string>)
    ensures r.None? <==> JavaSplit(s, ' ') == []
    ensures ' ' !in s ==> r == Some(Trim(s))
  {
    var tokens := JavaSplit(s, ' ');
    if |tokens| == 0 then None else Some(Trim(tokens[0]))
  }

  /**
   * getClientMacWhiteList over the allow-list infos in iteration order: the MACs that pass
   * checkMac; an info made only of spaces throws and ends the list there.
   */
  function MacWhiteList(infos: seq<string>): (r: seq<string>)
    ensures |r| <= |infos|
    ensures forall i :: 0 <= i < |r| ==> CheckMac(Some(r[i]))
  {
    if |infos| == 0 then []
    else
      match FirstToken(infos[0])
      case None => []
      case Some(m) => (if CheckMac(Some(m)) then [m] else []) + MacWhiteList(infos[1..])
  }

  /** getClientWhiteList: the infos whose first token is a MAC, with the same early end. */
  function WhiteInfoList(infos: seq<string>): (r: seq<string>)
    ensures |r| <= |infos|
    ensures forall i :: 0 <= i < |r| ==> FirstToken(r[i]).Some? && CheckMac(FirstToken(r[i]))
  {
    if |infos| == 0 then []
    else
      match FirstToken(infos[0])
      case None => []
      case Some(m) => (if CheckMac(Some(m)) then [infos[0]] else []) + WhiteInfoList(infos[1..])
  }

  function GetClientMacWhiteList(st: Stats): (r: seq<string>)
    ensures |r| <= |st.white|
    ensures forall i :: 0 <= i < |r| ==> CheckMac(Some(r[i]))
  {
    MacWhiteList(Values(st.white))
  }

  function GetClientWhiteList(st: Stats): (r: seq<string>)
    ensures |r| <= |st.white|
    ensures forall i :: 0 <= i < |r| ==> r[i] in Values(st.white)
  {
    WhiteInfoSubset(Values(st.white));
    WhiteInfoList(Values(st.white))
  }

  lemma {:induction false} WhiteInfoSubset(infos: seq<string>)
    ensures forall x :: x in WhiteInfoList(infos) ==> x in infos
  {
    if |infos| > 0 {
      WhiteInfoSubset(infos[1..]);
      var r := WhiteInfoList(infos);
      var rest := WhiteInfoList(infos[1..]);
      assert infos == [infos[0]] + infos[1..];
      match FirstToken(infos[0])
      case None =>
        assert r == [];
      case Some(m) =>
        assert r == (if CheckMac(Some(m)) then [infos[0]] else []) + rest;
        forall x | x in r ensures x in infos {
          if x != infos[0] {
            assert x in rest;
          }
        }
    }
  }

  /** The requested MACs that pass checkMac once trimmed, in request order. */
  function Accepted(macs: seq<string>): (r: seq<string>)
    ensures |r| <= |macs|
    ensures forall x :: x in r <==> x in macs && CheckMac(Some(Trim(x)))
  {
    if |macs| == 0 then []
    else (if CheckMac(Some(Trim(macs[0]))) then [macs[0]] else []) + Accepted(macs[1..])
  }

  /** For each requested MAC that passes checkMac, its blocked info or the MAC itself. */
  function BlockedInfos(c: Cache, macs: seq<string>): (r: seq<string>)
    ensures |r| <= |macs|
    ensures r == InfoOrMac(c, Accepted(macs))
    ensures (forall i :: 0 <= i < |macs| ==> CheckMac(Some(Trim(macs[i])))) ==> r == InfoOrMac(c, macs)
  {
    if |macs| == 0 then []
    else
      (if CheckMac(Some(Trim(macs[0]))) then [Get(c, macs[0]).GetOr(macs[0])] else [])
      + BlockedInfos(c, macs[1..])
  }

  /**
   * getBlockedClientInfoList: nothing for an empty list, every blocked info for a null
   * list, otherwise one string per listed MAC that passes checkMac.
   */
  function GetBlockedClientInfoList(st: Stats, macList: Option<string>): (r: seq<string>)
    ensures macList == Some("") ==> r == []
    ensures macList.None? ==> r == Values(st.blocked)
    ensures macList.Some? ==> |r| <= |JavaSplit(macList.value, ' ')|
    ensures macList.Some? && macList.value != "" ==>
      r == InfoOrMac(st.blocked, Accepted(JavaSplit(macList.value, ' ')))
  {
    match macList
    case None => Values(st.blocked)
    case Some(list) => if list == "" then [] else BlockedInfos(st.blocked, JavaSplit(list, ' '))
  }

  /** The public requests a client of WifiApClientStats can make. */
  datatype Request =
    | SaveInfo(mac: string, name: Option<string>, ip: string)
    | UpdateMacList(macList: string)
    | Block(mac: string)
    | Unblock(mac: string)
    | AddWhite(whiteMac: Option<string>, whiteName: Option<string>)
    | DelWhite(mac: string)
    | SetWhiteListEnabled(enabled: bool)
    | StopStats

  function Apply(st: Stats, req: Request): Stats {
    match req
    case SaveInfo(mac, name, ip) => SaveClientInfo(st, mac, name, ip).0
    case UpdateMacList(list) => AddOrUpdateClientInfoList(st, list)
    case Block(mac) => BlockClient(st, mac).0
    case Unblock(mac) => UnBlockClient(st, mac).0
    case AddWhite(mac, name) => AddClientToWhiteList(st, mac, name).0
    case DelWhite(mac) => DelClientFromWhiteList(st, mac).0
    case SetWhiteListEnabled(b) => SetClientWhiteListEnabled(st, b).0
    case StopStats => Stop(st)
  }

  /**
   * Every request keeps the state valid, and once the files mirror the lists they keep
   * doing so: each change of a list or the mode is saved at once.
   */
  lemma ApplyKeepsInvariant(st: Stats, req: Request)
    requires Valid(st)
    ensures Valid(Apply(st, req))
    ensures Synced(st) ==> Synced(Apply(st, req))
  {
  }

  /** A change of the block-list brings the block-list file up to date. */
  lemma BlockListSaved(st: Stats, mac: string)
    requires Valid(st)
    ensures Apply(st, Block(mac)).blockListFile == EntryLines(Apply(st, Block(mac)).blocked)
    ensures Apply(st, Unblock(mac)).blockListFile == EntryLines(Apply(st, Unblock(mac)).blocked)
  {
  }

  /** Setting the mode and reading it back gives the value set. */
  lemma WhiteListEnabledRoundTrip(st: Stats, enabled: bool)
    ensures IsWhiteListEnabled(SetClientWhiteListEnabled(st, enabled).0) == enabled
  {
  }

  /**
   * Blocking a client after its info was saved stores its name (or "*"): the name is the
   * third token of the saved info.
   */
  lemma BlockAfterSave(st: Stats, mac: string, name: Option<string>, ip: string)
    requires ' ' !in mac && ' ' !in ip && ip != ""
    requires name.Some? ==> NameOk(name.value)
    ensures var st1 := SaveClientInfo(st, mac, name, ip).0;
      Get(BlockClient(st1, mac).0.blocked, mac) == Some(mac + " " + name.GetOr("*"))
  {
    var st1 := SaveClientInfo(st, mac, name, ip).0;
    NameIsThirdToken(mac, name, ip);
    assert Get(st1.clientInfo, mac) == Some(ClientInfo(mac, name, ip));
  }

  /** The third space-separated token of a saved info is the name, or "*". */
  lemma NameIsThirdToken(mac: string, name: Option<string>, ip: string)
    requires ' ' !in mac && ' ' !in ip && ip != ""
    requires name.Some? ==> NameOk(name.value)
    ensures BlockedInfo(mac, ClientInfo(mac, name, ip)) == mac + " " + name.GetOr("*")
  {
    var n := name.GetOr("*");
    assert Join([ip, n], ' ') == ip + " " + n;
    assert ClientInfo(mac, name, ip) == Join([mac, ip, n], ' ');
    JavaSplitJoin([mac, ip, n], ' ');
  }

  /**
   * Write-then-load for a whole instance: a fresh instance over files that mirror the
   * lists loads back the same block-list, allow-list and mode.
   */
  lemma ReloadRecoversLists(st: Stats)
    requires Synced(st) && ModeOk(st.blockedMode)
    requires CacheOk(st.blocked) && CacheOk(st.white)
    ensures var r := LoadAll(Init(st.blockListFile, st.whiteListFile));
      r.blocked == st.blocked && r.white == st.white && r.blockedMode == st.blockedMode
  {
    var s0 := LoadState(BLOCKMODE_BLACKLIST, false, [], []);
    BlockListRoundTrip(st.blocked, s0);
    var s1 := s0.(blocked := st.blocked);
    WhiteListRoundTrip(st.blockedMode, st.white, s1);
  }

  /** A MAC key stored as "MAC" or "MAC NAME" is read back by the first-token rule. */
  lemma FirstTokenOfEntry(e: Entry)
    requires EntryShape(e) && IsMacAddress(e.key)
    ensures FirstToken(e.info) == Some(e.key)
  {
    var key := e.key;
    assert !IsTrimmed(key[0]) && !IsTrimmed(key[|key| - 1]);
    if e.info != key {
      var name := e.info[|key| + 1..];
      assert e.info == Join([key, name], ' ');
      JavaSplitJoin([key, name], ' ');
    }
  }

  /** The keys of a cache, in iteration order. */
  function Keys(c: Cache): (r: seq<string>)
    ensures |r| == |c| && forall i :: 0 <= i < |c| ==> r[i] == c[i].key
  {
    if |c| == 0 then [] else [c[0].key] + Keys(c[1..])
  }

  /**
   * When every allow-list entry is a MAC address stored in one of the writer's shapes,
   * getClientMacWhiteList returns exactly the allow-listed MACs, in iteration order, and
   * getClientWhiteList every allow-list info.
   */
  lemma {:induction false} WhiteListsOfMacs(c: Cache)
    requires forall i :: 0 <= i < |c| ==> EntryShape(c[i]) && IsMacAddress(c[i].key)
    ensures MacWhiteList(Values(c)) == Keys(c)
    ensures WhiteInfoList(Values(c)) == Values(c)
  {
    if |c| > 0 {
      FirstTokenOfEntry(c[0]);
      assert Values(c)[1..] == Values(c[1..]);
      WhiteListsOfMacs(c[1..]);
    }
  }
}

=== FILE: java_int.dfy ===
/**
 * Integer.parseInt and Boolean.parseBoolean as the carrier-network parsers use them,
 * with decimal formatting as their partner.
 */
module JavaInt {
  import opened Wrappers

  /** The range of a Java int. */
  const INT_MIN: int := -0x8000_0000
  const INT_MAX: int := 0x7fff_ffff

  predicate IsDigit(c: char) {
    '0' <= c <= '9'
  }

  predicate AllDigits(s: string) {
    forall i :: 0 <= i < |s| ==> IsDigit(s[i])
  }

  function DigitValue(c: char): (d: nat)
    requires IsDigit(c)
    ensures d < 10
  {
    (c as int) - ('0' as int)
  }

  function DigitChar(d: nat): (c: char)
    requires d < 10
    ensures IsDigit(c) && DigitValue(c) == d
  {
    (('0' as int) + d) as char
  }

  /** The value of a string of decimal digits, most significant first. */
  function DigitsValue(s: string): nat
    requires AllDigits(s)
  {
    if |s| == 0 then 0 else 10 * DigitsValue(s[..|s| - 1]) + DigitValue(s[|s| - 1])
  }

  /**
   * Integer.parseInt(s) for ASCII digits: an optional '+' or '-', then at least one digit,
   * and a value inside the int range; None stands for NumberFormatException.
   */
  function ParseInt(s: string): (r: Option<int>)
    ensures r.Some? ==> INT_MIN <= r.value <= INT_MAX
    ensures r.Some? ==> exists i :: 0 <= i < |s| && IsDigit(s[i])
    ensures |s| == 0 ==> r.None?
  {
    if |s| == 0 then None
    else
      var digits := if s[0] == '-' || s[0] == '+' then s[1..] else s;
      if |digits| == 0 || !AllDigits(digits) then None
      else
        assert IsDigit(s[|s| - 1]);
        var v: int := if s[0] == '-' then 0 - (DigitsValue(digits) as int) else DigitsValue(digits);
        if INT_MIN <= v <= INT_MAX then Some(v) else None
  }

  /** Decimal digits of n without leading zeros. */
  function NatToString(n: nat): (r: string)
    ensures |r| > 0 && AllDigits(r) && DigitsValue(r) == n
    ensures r[0] != '-' && r[0] != '+'
  {
    if n < 10 then [DigitChar(n)]
    else
      var r := NatToString(n / 10) + [DigitChar(n % 10)];
      assert r[..|r| - 1] == NatToString(n / 10);
      r
  }

  /** Integer.toString(n). */
  function IntToString(n: int): string
  {
    if n < 0 then "-" + NatToString(-n) else NatToString(n)
  }

  /** parseInt reads back what toString writes, for every int. */
  lemma ParseIntToString(n: int)
    requires INT_MIN <= n <= INT_MAX
    ensures ParseInt(IntToString(n)) == Some(n)
  {
    if n < 0 {
      assert ("-" + NatToString(-n))[1..] == NatToString(-n);
    }
  }

  /** Character.toLowerCase restricted to ASCII letters. */
  function ToLowerAscii(c: char): char
  {
    if 'A' <= c <= 'Z' then ((c as int) + 32) as char else c
  }

  /** Boolean.parseBoolean(s): true exactly for "true" in any letter case. */
  function ParseBoolean(s: string): (r: bool)
    ensures r ==> |s| == 4 && (s[0] == 't' || s[0] == 'T')
    ensures s == "true" || s == "TRUE" || s == "True" ==> r
    ensures s == "false" || s == "" ==> !r
  {
    |s| == 4 && forall i :: 0 <= i < 4 ==> ToLowerAscii(s[i]) == "true"[i]
  }
}

=== FILE: java_string.dfy ===
/**
 * The parts of java.lang.String that decide outcomes in the hotspot and carrier code:
 * String.split with a one-character separator (trailing empty fields dropped), joining
 * with a separator, contains, startsWith, isEmpty and trim.
 */
module JavaString {
  import opened Wrappers

  /** TextUtils.isEmpty / `s == null || s.isEmpty()`. */
  predicate IsEmpty(s: Option<string>) {
    s.None? || s.value == ""
  }

  /** s.startsWith(prefix) */
  predicate StartsWith(s: string, prefix: string) {
    |prefix| <= |s| && s[..|prefix|] == prefix
  }

  /** s.contains(sub): some window of s equals sub (the empty string is contained everywhere). */
  predicate Contains(s: string, sub: string) {
    exists i | 0 <= i <= |s| :: OccursAt(s, sub, i)
  }

  /** sub is the window of s that starts at index i. */
  predicate OccursAt(s: string, sub: string, i: int) {
    0 <= i && i + |sub| <= |s| && s[i..i + |sub|] == sub
  }

  /** Every field of s between occurrences of sep, none dropped; there is always at least one. */
  function SplitAll(s: string, sep: char): (r: seq<string>)
    ensures |r| >= 1
    ensures forall i :: 0 <= i < |r| ==> sep !in r[i]
    ensures sep !in s ==> r == [s]
    ensures |r| == 1 ==> sep !in s
  {
    if |s| == 0 then [""]
    else
      var rest := SplitAll(s[1..], sep);
      assert s == [s[0]] + s[1..];
      if s[0] == sep then [""] + rest
      else [[s[0]] + rest[0]] + rest[1..]
  }

  /** The fields with sep written between neighbours. */
  function Join(parts: seq<string>, sep: char): string
  {
    if |parts| == 0 then ""
    else if |parts| == 1 then parts[0]
    else parts[0] + [sep] + Join(parts[1..], sep)
  }

  /** Removes empty strings from the end of a field list. */
  function DropTrailingEmpty(fields: seq<string>): (r: seq<string>)
    ensures |r| <= |fields| && r == fields[..|r|]
    ensures |r| > 0 ==> r[|r| - 1] != ""
    ensures forall i :: |r| <= i < |fields| ==> fields[i] == ""
  {
    if |fields| == 0 then []
    else if fields[|fields| - 1] == "" then DropTrailingEmpty(fields[..|fields| - 1])
    else fields
  }

  /**
   * Java's s.split(sep) for a separator that is not a regular-expression metacharacter:
   * when sep does not occur the result is [s] (so "".split(",") is [""]); otherwise the
   * fields of s with trailing empty fields removed (so ",".split(",") is []).
   */
  function JavaSplit(s: string, sep: char): (r: seq<string>)
    ensures forall i :: 0 <= i < |r| ==> sep !in r[i]
    ensures sep !in s ==> r == [s]
    ensures sep in s && |r| > 0 ==> r[|r| - 1] != ""
  {
    if sep !in s then [s] else DropTrailingEmpty(SplitAll(s, sep))
  }

  /** Java's Character.isWhitespace is not what trim uses: trim strips chars <= U+0020. */
  predicate IsTrimmed(c: char) {
    c <= ' '
  }

  /** s.trim(): strips leading and trailing characters at or below U+0020. */
  function Trim(s: string): (r: string)
    ensures |r| <= |s|
    ensures |r| > 0 ==> !IsTrimmed(r[0]) && !IsTrimmed(r[|r| - 1])
    ensures Contains(s, r)
    ensures (|s| == 0 || (!IsTrimmed(s[0]) && !IsTrimmed(s[|s| - 1]))) ==> r == s
  {
    var a := TrimStart(s);
    var b := TrimEnd(s[a..]);
    assert s[a..][..b] == s[a..a + b];
    assert OccursAt(s, s[a..a + b], a);
    s[a..a + b]
  }

  function TrimStart(s: string): (k: nat)
    ensures k <= |s|
    ensures forall i :: 0 <= i < k ==> IsTrimmed(s[i])
    ensures k < |s| ==> !IsTrimmed(s[k])
  {
    if |s| == 0 || !IsTrimmed(s[0]) then 0 else 1 + TrimStart(s[1..])
  }

  function TrimEnd(s: string): (k: nat)
    ensures k <= |s|
    ensures forall i :: k <= i < |s| ==> IsTrimmed(s[i])
    ensures 0 < k ==> !IsTrimmed(s[k - 1])
  {
    if |s| == 0 || !IsTrimmed(s[|s| - 1]) then |s| else TrimEnd(s[..|s| - 1])
  }

  /** Splitting a joined list gives the list back when no part holds the separator. */
  lemma {:induction false} SplitAllJoin(parts: seq<string>, sep: char)
    requires |parts| >= 1
    requires forall i :: 0 <= i < |parts| ==> sep !in parts[i]
    ensures SplitAll(Join(parts, sep), sep) == parts
  {
    if |parts| == 1 {
    } else {
      SplitAllJoin(parts[1..], sep);
      SplitAllPrefix(parts[0], Join(parts[1..], sep), sep);
      assert parts == [parts[0]] + parts[1..];
    }
  }

  /** Splitting `a + [sep] + b` with no separator in a gives a's field followed by b's. */
  lemma {:induction false} SplitAllPrefix(a: string, b: string, sep: char)
    requires sep !in a
    ensures SplitAll(a + [sep] + b, sep) == [a] + SplitAll(b, sep)
    decreases |a|
  {
    if |a| == 0 {
      assert a + [sep] + b == [sep] + b;
      assert ([sep] + b)[1..] == b;
    } else {
      var s := a + [sep] + b;
      var tail := SplitAll(b, sep);
      SplitAllPrefix(a[1..], b, sep);
      assert s[0] == a[0] && a[0] != sep;
      assert s[1..] == a[1..] + [sep] + b;
      var rest := SplitAll(s[1..], sep);
      assert rest == [a[1..]] + tail;
      assert rest[0] == a[1..] && rest[1..] == tail;
      assert SplitAll(s, sep) == [[s[0]] + rest[0]] + rest[1..];
      assert [a[0]] + a[1..] == a;
    }
  }

  /** Joining the fields of s gives s back. */
  lemma {:induction false} JoinSplitAll(s: string, sep: char)
    ensures Join(SplitAll(s, sep), sep) == s
  {
    if |s| > 0 {
      var t := s[1..];
      JoinSplitAll(t, sep);
      var rest := SplitAll(t, sep);
      assert s == [s[0]] + t;
      if s[0] == sep {
        var r := [""] + rest;
        assert SplitAll(s, sep) == r;
        assert r[1..] == rest;
        assert Join(r, sep) == "" + [sep] + Join(rest, sep);
      } else {
        var r := [[s[0]] + rest[0]] + rest[1..];
        assert SplitAll(s, sep) == r;
        if |rest| == 1 {
          assert Join(r, sep) == [s[0]] + rest[0];
        } else {
          assert r[1..] == rest[1..];
          assert Join(rest, sep) == rest[0] + [sep] + Join(rest[1..], sep);
          assert Join(r, sep) == [s[0]] + rest[0] + [sep] + Join(rest[1..], sep);
        }
      }
    }
  }

  /**
   * The round trip the code relies on: splitting a joined, non-empty list whose parts hold
   * no separator and whose last part is non-empty yields the list back.
   */
  lemma JavaSplitJoin(parts: seq<string>, sep: char)
    requires |parts| >= 1
    requires forall i :: 0 <= i < |parts| ==> sep !in parts[i]
    requires parts[|parts| - 1] != ""
    ensures JavaSplit(Join(parts, sep), sep) == parts
  {
    SplitAllJoin(parts, sep);
    if |parts| == 1 {
    } else {
      assert sep in Join(parts, sep) by {
        assert Join(parts, sep)[|parts[0]|] == sep;
      }
    }
  }

  /** A string without the separator is a single field. */
  lemma JavaSplitSingle(s: string, sep: char)
    requires sep !in s
    ensures JavaSplit(s, sep) == [s]
  {
  }

  /** Appending one more part to a non-empty list appends the separator and the part. */
  lemma {:induction false} JoinSnoc(parts: seq<string>, x: string, sep: char)
    requires |parts| >= 1
    ensures Join(parts + [x], sep) == Join(parts, sep) + [sep] + x
  {
    if |parts| == 1 {
      assert (parts + [x])[1..] == [x];
    } else {
      JoinSnoc(parts[1..], x, sep);
      assert (parts + [x])[1..] == parts[1..] + [x];
    }
  }

  /** A join of non-empty parts is empty exactly when there are no parts. */
  lemma JoinEmpty(parts: seq<string>, sep: char)
    requires forall i :: 0 <= i < |parts| ==> parts[i] != ""
    ensures Join(parts, sep) == "" <==> |parts| == 0
  {
    if |parts| >= 2 {
      assert |Join(parts, sep)| >= 1;
    }
  }

  /** A string contains its own prefixes. */
  lemma ContainsPrefix(s: string, t: string)
    requires |t| <= |s| && s[..|t|] == t
    ensures Contains(s, t)
  {
    assert OccursAt(s, t, 0);
  }

  /** What a suffix contains, the whole string contains. */
  lemma ContainsShift(a: string, b: string, t: string)
    requires Contains(b, t)
    ensures Contains(a + b, t)
  {
    var i :| 0 <= i <= |b| && OccursAt(b, t, i);
    assert (a + b)[|a| + i..|a| + i + |t|] == b[i..i + |t|];
    assert OccursAt(a + b, t, |a| + i);
  }

  /** Every part of a join is a substring of it. */
  lemma {:induction false} JoinContainsPart(parts: seq<string>, sep: char, k: nat)
    requires k < |parts|
    ensures Contains(Join(parts, sep), parts[k])
  {
    if |parts| == 1 || k == 0 {
      ContainsPrefix(Join(parts, sep), parts[k]);
    } else {
      JoinContainsPart(parts[1..], sep, k - 1);
      ContainsShift(parts[0] + [sep], Join(parts[1..], sep), parts[k]);
    }
  }

  /** A window that starts inside the first L characters but not at 0 covers index L. */
  lemma StraddleHitsSeparator(s: string, m: string, i: int, L: nat, sep: char)
    requires OccursAt(s, m, i) && |m| == L && 0 < i <= L && L < |s| && s[L] == sep
    ensures sep in m
  {
    assert m[L - i] == s[L];
  }

  /**
   * For parts that all have the same positive length L and hold no separator, and a
   * candidate of length L without separator, substring containment in the joined string
   * coincides with membership of the candidate among the parts.
   */
  lemma {:induction false} ContainsFixedWidth(parts: seq<string>, sep: char, m: string, L: nat)
    requires L > 0 && |m| == L && sep !in m
    requires forall i :: 0 <= i < |parts| ==> |parts[i]| == L && sep !in parts[i]
    ensures Contains(Join(parts, sep), m) <==> m in parts
  {
    if |parts| == 0 {
    } else if |parts| == 1 {
      if Contains(parts[0], m) {
        var i :| 0 <= i <= |parts[0]| && OccursAt(parts[0], m, i);
        assert parts[0] == parts[0][0..L];
      }
      if m in parts {
        assert parts[0][0..L] == m;
        assert OccursAt(parts[0], m, 0);
      }
    } else {
      var a := parts[0];
      var rest := Join(parts[1..], sep);
      var s := Join(parts, sep);
      assert s == a + [sep] + rest;
      ContainsFixedWidth(parts[1..], sep, m, L);
      assert m in parts <==> m == a || m in parts[1..] by {
        assert parts == [a] + parts[1..];
      }
      ContainsAfterPart(a, sep, rest, m, L);
      if m == a {
        ContainsPrefix(s, m);
      } else if Contains(rest, m) {
        ContainsShift(a + [sep], rest, m);
      }
    }
  }

  /**
   * A window of width L in a + [sep] + rest, where a has width L and the window holds no
   * separator, is a itself or lies inside rest.
   */
  lemma ContainsAfterPart(a: string, sep: char, rest: string, m: string, L: nat)
    requires L > 0 && |m| == L && sep !in m && |a| == L
    ensures Contains(a + [sep] + rest, m) ==> m == a || Contains(rest, m)
  {
    var s := a + [sep] + rest;
    if Contains(s, m) {
      var i :| 0 <= i <= |s| && OccursAt(s, m, i);
      if i == 0 {
        assert s[0..L] == a;
      } else if i <= L {
        StraddleHitsSeparator(s, m, i, L, sep);
        assert false;
      } else {
        var j := i - (L + 1);
        assert rest[j..j + |m|] == s[i..i + |m|];
        assert OccursAt(rest, m, j);
      }
    }
  }
}

=== FILE: roster.dfy ===
/**
 * The connected-station list of a running soft AP: the MACs of the associated stations
 * in one string, separated by single spaces, in order of connection.
 */
module Roster {
  import opened JavaString

  /** The stations of a list; the empty list has none (the count code returns early for ""). */
  function Tokens(stations: string): seq<string> {
    if stations == "" then [] else JavaSplit(stations, ' ')
  }

  /** The station count the client list reports for a list. */
  function Count(stations: string): nat {
    |Tokens(stations)|
  }

  /** The shape of a MAC string reported by the driver: 17 characters without a space. */
  predicate StationMac(mac: string) {
    |mac| == 17 && ' ' !in mac
  }

  predicate Distinct(ts: seq<string>) {
    forall i, j :: 0 <= i < j < |ts| ==> ts[i] != ts[j]
  }

  /** A well-formed list: distinct station MACs joined by single spaces. */
  predicate RosterOk(stations: string) {
    var ts := Tokens(stations);
    Join(ts, ' ') == stations && Distinct(ts) && forall i :: 0 <= i < |ts| ==> StationMac(ts[i])
  }

  /** A connected station: the first one, or appended unless the list already contains it. */
  function AfterConnect(stations: string, mac: string): (r: string)
    ensures stations == "" ==> r == mac
    ensures Contains(stations, mac) && stations != "" ==> r == stations
    ensures !Contains(stations, mac) && stations != "" ==> r == stations + " " + mac
    ensures stations != "" ==> StartsWith(r, stations)
  {
    if stations == "" then mac
    else if Contains(stations, mac) then stations
    else stations + " " + mac
  }

  /**
   * Outside the driver's MAC shape the substring test is not membership: a MAC made of the
   * first n characters of a listed station is no station of the list, yet a connect with it
   * leaves the list as it was.
   */
  lemma PrefixMacIgnored(stations: string, n: nat)
    requires RosterOk(stations) && stations != "" && 0 < n < 17
    ensures |Tokens(stations)| > 0
    ensures var mac := Tokens(stations)[0][..n];
      mac !in Tokens(stations) && AfterConnect(stations, mac) == stations
  {
    var ts := Tokens(stations);
    assert |ts| > 0;
    assert StationMac(ts[0]);
    var mac := ts[0][..n];
    JoinStartsWithFirst(ts, ' ');
    assert stations[..n] == ts[0][..|ts[0]|][..n];
    ContainsPrefix(stations, mac);
    assert mac !in ts by {
      forall i | 0 <= i < |ts| ensures ts[i] != mac {
        assert StationMac(ts[i]);
      }
    }
  }

  /** A join begins with its first part. */
  lemma JoinStartsWithFirst(parts: seq<string>, sep: char)
    requires |parts| > 0
    ensures StartsWith(Join(parts, sep), parts[0])
  {
    if |parts| > 1 {
      assert Join(parts, sep) == parts[0] + ([sep] + Join(parts[1..], sep));
    }
  }

  /** The rebuild loop: every token not equal to mac, glued with " " onto what is non-empty. */
  function Rejoin(acc: string, tokens: seq<string>, mac: string): string
    decreases |tokens|
  {
    if |tokens| == 0 then acc
    else
      var t := tokens[0];
      if t == mac then Rejoin(acc, tokens[1..], mac)
      else Rejoin(if acc == "" then t else acc + " " + t, tokens[1..], mac)
  }

  /** A disconnected station: the list rebuilt without it, when the list contains it at all. */
  function AfterDisconnect(stations: string, mac: string): (r: string)
    ensures !Contains(stations, mac) ==> r == stations
  {
    if Contains(stations, mac) then Rejoin("", JavaSplit(stations, ' '), mac) else stations
  }

  /** The tokens other than mac, in order. */
  function Without(ts: seq<string>, mac: string): (r: seq<string>)
    ensures |r| <= |ts| && mac !in r
    ensures forall t :: t in r <==> t in ts && t != mac
  {
    if |ts| == 0 then []
    else (if ts[0] == mac then [] else [ts[0]]) + Without(ts[1..], mac)
  }

  /** Parts without spaces and empty strings split back into themselves. */
  lemma TokensOfJoin(parts: seq<string>)
    requires forall i :: 0 <= i < |parts| ==> parts[i] != "" && ' ' !in parts[i]
    ensures Tokens(Join(parts, ' ')) == parts
  {
    JoinEmpty(parts, ' ');
    if |parts| > 0 {
      JavaSplitJoin(parts, ' ');
    }
  }

  /** No token is the empty string. */
  predicate NoneEmpty(ts: seq<string>) {
    forall i :: 0 <= i < |ts| ==> ts[i] != ""
  }

  /** The rebuild loop appends the kept tokens to the list it has built so far. */
  lemma {:induction false} RejoinJoins(done: seq<string>, tokens: seq<string>, mac: string)
    requires NoneEmpty(done) && NoneEmpty(tokens)
    ensures Rejoin(Join(done, ' '), tokens, mac) == Join(done + Without(tokens, mac), ' ')
    decreases |tokens|
  {
    if |tokens| == 0 {
      assert done + [] == done;
    } else {
      var t := tokens[0];
      var rest := tokens[1..];
      var acc := Join(done, ' ');
      assert NoneEmpty(rest) by {
        forall i | 0 <= i < |rest| ensures rest[i] != "" {
          assert rest[i] == tokens[i + 1];
        }
      }
      if t == mac {
        assert Rejoin(acc, tokens, mac) == Rejoin(acc, rest, mac);
        assert Without(tokens, mac) == Without(rest, mac);
        RejoinJoins(done, rest, mac);
      } else {
        assert t != "";
        KeepToken(done, t, rest, mac);
        RejoinJoins(done + [t], rest, mac);
      }
    }
  }

  /** One kept token: rebuilding from here is rebuilding from the list with the token glued on. */
  lemma KeepToken(done: seq<string>, t: string, rest: seq<string>, mac: string)
    requires NoneEmpty(done) && t != "" && t != mac
    ensures NoneEmpty(done + [t])
    ensures Rejoin(Join(done, ' '), [t] + rest, mac) == Rejoin(Join(done + [t], ' '), rest, mac)
    ensures done + Without([t] + rest, mac) == (done + [t]) + Without(rest, mac)
  {
    var acc := Join(done, ' ');
    var tokens := [t] + rest;
    assert tokens[0] == t && tokens[1..] == rest;
    assert Rejoin(acc, tokens, mac) == Rejoin(if acc == "" then t else acc + " " + t, rest, mac);
    GlueToken(done, t);
    var done' := done + [t];
    forall i | 0 <= i < |done'| ensures done'[i] != "" {
      if i < |done| {
        assert done'[i] == done[i];
      }
    }
    assert Without(tokens, mac) == [t] + Without(rest, mac);
  }

  /** Gluing one more non-empty token onto a joined list, as the rebuild loop does. */
  lemma GlueToken(done: seq<string>, t: string)
    requires NoneEmpty(done)
    ensures var acc := Join(done, ' ');
      (if acc == "" then t else acc + " " + t) == Join(done + [t], ' ')
  {
    JoinEmpty(done, ' ');
    if done == [] {
      assert done + [t] == [t];
    } else {
      JoinSnoc(done, t, ' ');
    }
  }

  lemma {:induction false} WithoutKeepsDistinct(ts: seq<string>, mac: string)
    requires Distinct(ts)
    ensures Distinct(Without(ts, mac))
  {
    if |ts| > 0 {
      var rest := ts[1..];
      assert Distinct(rest) by {
        forall i, j | 0 <= i < j < |rest|
          ensures rest[i] != rest[j]
        {
          assert rest[i] == ts[i + 1] && rest[j] == ts[j + 1];
        }
      }
      WithoutKeepsDistinct(rest, mac);
      var w := Without(rest, mac);
      if ts[0] != mac {
        forall j | 0 <= j < |rest|
          ensures rest[j] != ts[0]
        {
          assert rest[j] == ts[j + 1];
        }
        assert ts[0] !in w;
        var r := [ts[0]] + w;
        forall i, j | 0 <= i < j < |r|
          ensures r[i] != r[j]
        {
          assert r[j] == w[j - 1];
          if i > 0 {
            assert r[i] == w[i - 1];
          }
        }
      }
    }
  }

  /** In a well-formed list, the substring test for a station MAC is token membership. */
  lemma ContainsIsMember(stations: string, mac: string)
    requires RosterOk(stations) && StationMac(mac)
    ensures Contains(stations, mac) <==> mac in Tokens(stations)
  {
    ContainsFixedWidth(Tokens(stations), ' ', mac, 17);
  }

  /**
   * A connect keeps the list well formed, appends the MAC when it is new and changes
   * nothing when it is already listed.
   */
  lemma ConnectAppendsOnce(stations: string, mac: string)
    requires RosterOk(stations) && StationMac(mac)
    ensures RosterOk(AfterConnect(stations, mac))
    ensures mac in Tokens(stations) ==> Tokens(AfterConnect(stations, mac)) == Tokens(stations)
    ensures mac !in Tokens(stations) ==> Tokens(AfterConnect(stations, mac)) == Tokens(stations) + [mac]
  {
    var ts := Tokens(stations);
    if stations == "" {
      TokensOfJoin([mac]);
    } else {
      ContainsIsMember(stations, mac);
      if mac !in ts {
        assert ts != [];
        JoinSnoc(ts, mac, ' ');
        TokensOfJoin(ts + [mac]);
        assert Join(ts + [mac], ' ') == stations + " " + mac;
      }
    }
  }

  /**
   * A disconnect keeps the list well formed and removes exactly the MAC's token, keeping
   * the order of the rest; for any MAC, including one that is not listed.
   */
  lemma DisconnectRemoves(stations: string, mac: string)
    requires RosterOk(stations)
    ensures RosterOk(AfterDisconnect(stations, mac))
    ensures Tokens(AfterDisconnect(stations, mac)) == Without(Tokens(stations), mac)
    ensures mac !in Tokens(stations) ==> AfterDisconnect(stations, mac) == stations
  {
    var ts := Tokens(stations);
    if !Contains(stations, mac) {
      NotContainedNotListed(stations, mac);
      WithoutAbsent(ts, mac);
    } else if stations == "" {
      var i :| 0 <= i <= |stations| && OccursAt(stations, mac, i);
      assert mac == "";
      assert JavaSplit(stations, ' ') == [""];
    } else {
      DisconnectListed(stations, mac);
    }
  }

  /** A MAC the list does not contain as a substring is not one of its tokens. */
  lemma NotContainedNotListed(stations: string, mac: string)
    requires RosterOk(stations) && !Contains(stations, mac)
    ensures mac !in Tokens(stations)
  {
    var ts := Tokens(stations);
    forall k | 0 <= k < |ts|
      ensures ts[k] != mac
    {
      JoinContainsPart(ts, ' ', k);
    }
  }

  /** The rebuild of a non-empty well-formed list drops the MAC's tokens. */
  lemma DisconnectListed(stations: string, mac: string)
    requires RosterOk(stations) && stations != ""
    ensures var r := Rejoin("", JavaSplit(stations, ' '), mac);
      RosterOk(r) && Tokens(r) == Without(Tokens(stations), mac)
    ensures mac !in Tokens(stations) ==> Rejoin("", JavaSplit(stations, ' '), mac) == stations
  {
    var ts := Tokens(stations);
    var w := Without(ts, mac);
    var r := Rejoin("", JavaSplit(stations, ' '), mac);
    assert JavaSplit(stations, ' ') == ts;
    assert Join([], ' ') == "";
    RejoinJoins([], ts, mac);
    assert [] + w == w;
    assert r == Join(w, ' ');
    forall i | 0 <= i < |w|
      ensures StationMac(w[i])
    {
      assert w[i] in ts;
    }
    TokensOfJoin(w);
    WithoutKeepsDistinct(ts, mac);
    if mac !in ts {
      WithoutAbsent(ts, mac);
    }
  }

  lemma {:induction false} WithoutAbsent(ts: seq<string>, mac: string)
    requires mac !in ts
    ensures Without(ts, mac) == ts
  {
    if |ts| > 0 {
      WithoutAbsent(ts[1..], mac);
      assert ts == [ts[0]] + ts[1..];
    }
  }
}

=== FILE: soft_ap_machine.dfy ===
/**
 * The SoftApManager state machine as a pure transition function: a session and one
 * message give the next session and what the manager reports on the way (AP state
 * changes, client counts, interface teardowns, allow-list syncs, connection-change
 * broadcasts, band-preference metrics and restart requests).
 */
module SoftApMachine {
  import opened Wrappers
  import opened JavaString
  import opened SoftApPolicy
  import opened Roster
  import CS = ClientStats

  /** Idle and Started are the machine's states; Quit is the machine after quitNow. */
  datatype Phase = Idle | Started | Quit

  /** The AP states broadcast by updateApState. */
  datatype ApState = Disabling | Disabled | Enabling | Enabled | Failed

  datatype Output =
    | StateChanged(newState: ApState, prevState: ApState, reason: int)
    | NumClientsChanged(count: int)
    | Teardown(iface: Option<string>)
    | WhiteListSynced(macs: seq<string>, whiteListEnabled: bool)
    | ConnectionChanged
    | BandPreferenceViolation(frequency: int)
    | InterfaceDownPosted
    | RestartRequested

  datatype Session = Session(
    phase: Phase,
    config: Option<ApConfig>,
    countryCode: Option<string>,
    iface: Option<string>,
    ifaceUp: bool,
    ifaceDestroyed: bool,
    stations: string,
    numStations: int,
    timeoutEnabled: bool,
    timeoutDelay: int,
    timerPending: bool,
    reportedFrequency: int,
    reportedBandwidth: int,
    clients: CS.Stats)

  /**
   * What the platform answers while a Start is handled: the interface name from
   * setupInterfaceForSoftApMode, the start answers, isInterfaceUp, the configured timeout
   * delay and the SOFT_AP_TIMEOUT_ENABLED setting (1 means enabled).
   */
  datatype NativeAnswers = NativeAnswers(
    iface: Option<string>,
    start: StartAnswers,
    ifaceUp: bool,
    configuredDelay: int,
    timeoutSetting: int)

  datatype Event =
    | Start(answers: NativeAnswers)
    | Stop
    | InterfaceStatusChanged(status: int)
    | InterfaceDown
    | InterfaceDestroyed
    | Failure
    | NumAssociatedStationsChanged(num: int)
    | ChannelSwitched(frequency: int, bandwidth: int, is5GHz: bool, is24GHz: bool)
    | TimeoutToggleChanged(setting: int)
    | NoAssociatedStationsTimeout
    | StationConnected(mac: string)
    | StationDisconnected(mac: string)

  /** The interface callbacks of WifiNative. */
  datatype InterfaceCallback = OnDestroyed | OnUp | OnDown

  /** A new manager: Idle, no interface, no stations, no timer. */
  function Init(config: Option<ApConfig>, countryCode: Option<string>, clients: CS.Stats): (s: Session)
    ensures s.phase == Idle && s.iface.None? && s.stations == "" && s.numStations == 0
    ensures !s.timerPending && !s.ifaceUp && !s.ifaceDestroyed
  {
    Session(Idle, config, countryCode, None, false, false, "", 0, false, 0, false, -1, -1, clients)
  }

  /** The callbacks post a message only for the manager's own interface. */
  function CallbackEvent(s: Session, kind: InterfaceCallback, ifaceName: string): (e: Option<Event>)
    ensures e.Some? <==> s.iface == Some(ifaceName)
    ensures e == Some(InterfaceDestroyed) <==> s.iface == Some(ifaceName) && kind == OnDestroyed
  {
    if s.iface != Some(ifaceName) then None
    else
      match kind
      case OnDestroyed => Some(InterfaceDestroyed)
      case OnUp => Some(InterfaceStatusChanged(1))
      case OnDown => Some(InterfaceStatusChanged(0))
  }

  /**
   * setNumAssociatedStations: an unchanged count does nothing; a new count is reported,
   * then the timer is scheduled (if timeout is enabled) for 0 and cancelled otherwise.
   */
  function SetNumAssociatedStations(s: Session, n: int): (r: (Session, seq<Output>))
    ensures r.0.numStations == n
    ensures n == s.numStations ==> r == (s, [])
    ensures n != s.numStations ==> r.1 == [NumClientsChanged(n)]
    ensures n != s.numStations && (s.timerPending ==> s.numStations == 0) ==>
      (r.0.timerPending <==> n == 0 && s.timeoutEnabled)
    ensures r.0 == s.(numStations := n, timerPending := r.0.timerPending)
  {
    if s.numStations == n then (s, [])
    else
      var pending := if n == 0 then s.timeoutEnabled || s.timerPending else false;
      (s.(numStations := n, timerPending := pending), [NumClientsChanged(n)])
  }

  /**
   * onUpChanged: no change does nothing. Coming up syncs the allow-list to the driver,
   * reports ENABLED and the client count; going down posts an InterfaceDown message.
   */
  function OnUpChanged(s: Session, isUp: bool): (r: (Session, seq<Output>))
    ensures isUp == s.ifaceUp ==> r == (s, [])
    ensures r.0 == s.(ifaceUp := isUp)
    ensures isUp && !s.ifaceUp ==>
      StateChanged(Enabled, Enabling, 0) in r.1 && NumClientsChanged(s.numStations) in r.1
      && (s.iface.Some? ==>
            r.1[0] == WhiteListSynced(CS.GetClientMacWhiteList(s.clients), CS.IsWhiteListEnabled(s.clients)))
    ensures !isUp && s.ifaceUp ==> r.1 == [InterfaceDownPosted]
  {
    if isUp == s.ifaceUp then (s, [])
    else if isUp then
      var sync :=
        if s.iface.Some?
        then [WhiteListSynced(CS.GetClientMacWhiteList(s.clients), CS.IsWhiteListEnabled(s.clients))]
        else [];
      (s.(ifaceUp := true), sync + [StateChanged(Enabled, Enabling, 0), NumClientsChanged(s.numStations)])
    else
      (s.(ifaceUp := false), [InterfaceDownPosted])
  }

  /**
   * StartedState.enter: clears the up and destroyed flags, applies the interface's current
   * up state, fixes the delay, reads the timeout setting, resets the count to 0 and
   * schedules the timer when timeout is enabled.
   */
  function EnterStarted(s: Session, a: NativeAnswers): (r: (Session, seq<Output>))
    ensures r.0.phase == Started && r.0.ifaceUp == a.ifaceUp && !r.0.ifaceDestroyed
    ensures r.0.numStations == 0
    ensures r.0.timeoutDelay == TimeoutDelay(a.configuredDelay)
    ensures r.0.timeoutDelay >= MIN_SOFT_AP_TIMEOUT_DELAY_MS
    ensures r.0.timeoutEnabled <==> a.timeoutSetting == 1
    ensures r.0.timerPending <==> r.0.timeoutEnabled
    ensures a.ifaceUp ==> StateChanged(Enabled, Enabling, 0) in r.1
    ensures !a.ifaceUp ==> r.1 == []
    ensures r.0.stations == s.stations && r.0.iface == s.iface && r.0.clients == s.clients
  {
    var s1 := s.(phase := Started, ifaceUp := false, ifaceDestroyed := false);
    var (s2, outs) := OnUpChanged(s1, a.ifaceUp);
    var enabled := a.timeoutSetting == 1;
    (s2.(timeoutDelay := TimeoutDelay(a.configuredDelay), timeoutEnabled := enabled,
         numStations := 0, timerPending := enabled), outs)
  }

  /**
   * StartedState.exit: stops the client statistics, tears the interface down unless it was
   * destroyed, empties the station list, resets the count, cancels the timer, reports
   * DISABLED, forgets the interface and quits the machine.
   */
  function ExitStarted(s: Session): (r: (Session, seq<Output>))
    ensures r.0.phase == Quit && r.0.stations == "" && r.0.numStations == 0 && !r.0.timerPending
    ensures r.0.iface.None? && !r.0.ifaceUp && !r.0.ifaceDestroyed
    ensures r.0.clients == CS.Stop(s.clients)
    ensures |r.1| > 0 && r.1[|r.1| - 1] == StateChanged(Disabled, Disabling, 0)
    ensures Teardown(s.iface) in r.1 <==> !s.ifaceDestroyed
    ensures NumClientsChanged(0) in r.1 <==> s.numStations != 0
  {
    var teardown := if !s.ifaceDestroyed then [Teardown(s.iface)] else [];
    var s1 := s.(clients := CS.Stop(s.clients), stations := "");
    var (s2, outs) := SetNumAssociatedStations(s1, 0);
    var s3 := s2.(timerPending := false, iface := None, ifaceUp := false, ifaceDestroyed := false, phase := Quit);
    (s3, teardown + outs + [StateChanged(Disabled, Disabling, 0)])
  }

  /**
   * stop(): reports DISABLING when an interface name is set (from ENABLED if it is up, else
   * from ENABLING), then quits the machine, which runs StartedState.exit when started.
   */
  function StopSession(s: Session): (r: (Session, seq<Output>))
    ensures r.0.phase == Quit
    ensures s.iface.Some? ==> |r.1| > 0 && r.1[0] == StateChanged(Disabling, if s.ifaceUp then Enabled else Enabling, 0)
    ensures s.iface.None? && s.phase != Started ==> r == (s.(phase := Quit), [])
    ensures s.phase != Started ==> r.0 == s.(phase := Quit)
  {
    var report :=
      if s.iface.Some? then [StateChanged(Disabling, if s.ifaceUp then Enabled else Enabling, 0)] else [];
    if s.phase == Started then
      var (s2, outs) := ExitStarted(s);
      (s2, report + outs)
    else (s.(phase := Quit), report)
  }

  /**
   * CMD_START in Idle: set up the interface; an empty name fails at once; otherwise report
   * ENABLING, try to start, and on failure report FAILED with its reason and tear down;
   * on success enter Started.
   */
  function IdleStart(s: Session, a: NativeAnswers): (r: (Session, seq<Output>))
    requires s.phase == Idle
    ensures IsEmpty(a.iface) ==>
      r == (s.(iface := a.iface), [StateChanged(Failed, Disabled, SAP_START_FAILURE_GENERAL)])
    ensures !IsEmpty(a.iface) ==> |r.1| > 0 && r.1[0] == StateChanged(Enabling, Disabled, 0)
    ensures var o := StartSoftAp(s.config, s.countryCode, CS.IsWhiteListEnabled(s.clients), a.start);
      !IsEmpty(a.iface) && o.result != Success ==>
        r.0 == s.(iface := a.iface, countryCode := o.countryCode, config := o.config)
        && r.1 == [StateChanged(Enabling, Disabled, 0),
                   StateChanged(Failed, Enabling, FailureReason(o.result)),
                   Teardown(a.iface)]
    ensures var o := StartSoftAp(s.config, s.countryCode, CS.IsWhiteListEnabled(s.clients), a.start);
      !IsEmpty(a.iface) && o.result == Success ==>
        r.0.phase == Started && r.0.iface == a.iface && r.0.countryCode == o.countryCode
        && r.0 == EnterStarted(s.(iface := a.iface, countryCode := o.countryCode, config := o.config), a).0
    ensures r.0.phase == Idle || r.0.phase == Started
    ensures r.0.phase == Started <==>
      (!IsEmpty(a.iface) &&
       StartSoftAp(s.config, s.countryCode, CS.IsWhiteListEnabled(s.clients), a.start).result == Success)
    ensures r.0.stations == s.stations && r.0.clients == s.clients
  {
    var s1 := s.(iface := a.iface);
    if IsEmpty(a.iface) then (s1, [StateChanged(Failed, Disabled, SAP_START_FAILURE_GENERAL)])
    else
      var o := StartSoftAp(s.config, s.countryCode, CS.IsWhiteListEnabled(s.clients), a.start);
      var s2 := s1.(countryCode := o.countryCode, config := o.config);
      if o.result != Success then
        (s2, [StateChanged(Enabling, Disabled, 0),
              StateChanged(Failed, Enabling, FailureReason(o.result)),
              Teardown(a.iface)])
      else
        var (s3, outs) := EnterStarted(s2, a);
        (s3, [StateChanged(Enabling, Disabled, 0)] + outs)
  }

  /**
   * CMD_TIMEOUT_TOGGLE_CHANGED: the same value does nothing; disabling cancels the timer;
   * enabling schedules it when no station is connected.
   */
  function ToggleTimeout(s: Session, enabled: bool): (r: Session)
    ensures r.timeoutEnabled == enabled
    ensures enabled == s.timeoutEnabled ==> r == s
    ensures enabled != s.timeoutEnabled && !enabled ==> !r.timerPending
    ensures enabled != s.timeoutEnabled && enabled && s.numStations == 0 ==> r.timerPending
    ensures enabled != s.timeoutEnabled && enabled && s.numStations != 0 ==> r.timerPending == s.timerPending
    ensures r == s.(timeoutEnabled := enabled, timerPending := r.timerPending)
  {
    if s.timeoutEnabled == enabled then s
    else if !enabled then s.(timeoutEnabled := false, timerPending := false)
    else if s.numStations == 0 then s.(timeoutEnabled := true, timerPending := true)
    else s.(timeoutEnabled := true)
  }

  /**
   * A station connect or disconnect: the new list goes to the client statistics, the count
   * becomes the length of their info list, and the change is broadcast.
   */
  function StationsChanged(s: Session, stations: string): (r: (Session, seq<Output>))
    ensures r.0.stations == stations && r.0.numStations == Count(stations)
    ensures r.0.clients == CS.AddOrUpdateClientInfoList(s.clients, stations)
    ensures |r.1| > 0 && r.1[|r.1| - 1] == ConnectionChanged
    ensures Count(stations) == s.numStations ==> r.1 == [ConnectionChanged]
    ensures r.0 == s.(stations := stations, clients := r.0.clients, numStations := r.0.numStations,
                      timerPending := r.0.timerPending)
    ensures (s.timerPending <==> s.timeoutEnabled && s.numStations == 0) ==>
      (r.0.timerPending <==> r.0.timeoutEnabled && r.0.numStations == 0)
  {
    var clients := CS.AddOrUpdateClientInfoList(s.clients, stations);
    var n := |CS.GetStaClientInfoList(clients)|;
    var (s2, outs) := SetNumAssociatedStations(s.(stations := stations, clients := clients), n);
    (s2, outs + [ConnectionChanged])
  }

  /** StartedState.processMessage. */
  function StartedStep(s: Session, e: Event): (r: (Session, seq<Output>))
    requires s.phase == Started
    ensures r.0.phase == Started || r.0.phase == Quit
  {
    match e
    case Start(_) => (s, [])
    case Stop => StopSession(s)
    case NumAssociatedStationsChanged(_) => (s, [])
    case ChannelSwitched(freq, bw, is5, is24) =>
      var violated := s.config.Some? && BandPreferenceViolated(s.config.value.apBand, is5, is24);
      (s.(reportedFrequency := freq, reportedBandwidth := bw),
       if violated then [BandPreferenceViolation(freq)] else [])
    case TimeoutToggleChanged(setting) => (ToggleTimeout(s, setting == 1), [])
    case InterfaceStatusChanged(status) => OnUpChanged(s, status == 1)
    case NoAssociatedStationsTimeout =>
      var s1 := s.(timerPending := false);
      if !s.timeoutEnabled || s.numStations != 0 then (s1, [])
      else
        var (s2, outs) := ExitStarted(s1);
        (s2, [StateChanged(Disabling, Enabled, 0)] + outs)
    case InterfaceDestroyed =>
      var (s2, outs) := ExitStarted(s.(ifaceDestroyed := true));
      (s2, [StateChanged(Disabling, Enabled, 0)] + outs)
    case Failure =>
      FailAndExit(s)
    case InterfaceDown =>
      FailAndExit(s)
    case StationConnected(mac) => StationsChanged(s, AfterConnect(s.stations, mac))
    case StationDisconnected(mac) => StationsChanged(s, AfterDisconnect(s.stations, mac))
  }

  /** CMD_FAILURE and CMD_INTERFACE_DOWN: report FAILED then DISABLING, ask for a restart, exit. */
  function FailAndExit(s: Session): (r: (Session, seq<Output>))
    ensures r.0 == ExitStarted(s).0
    ensures |r.1| > 3 && r.1[..3] == [StateChanged(Failed, Enabled, SAP_START_FAILURE_GENERAL),
                         StateChanged(Disabling, Failed, 0), RestartRequested]
  {
    var (s2, outs) := ExitStarted(s);
    (s2, [StateChanged(Failed, Enabled, SAP_START_FAILURE_GENERAL), StateChanged(Disabling, Failed, 0),
          RestartRequested] + outs)
  }

  /** One message: Idle handles only CMD_START, a quit machine only the stop() report. */
  function Step(s: Session, e: Event): (r: (Session, seq<Output>))
    ensures s.phase == Quit && !e.Stop? ==> r == (s, [])
    ensures s.phase == Idle && !e.Start? && !e.Stop? ==> r == (s, [])
    ensures s.phase != Idle ==> r.0.phase != Idle
    ensures s.phase == Quit ==> r.0.phase == Quit
  {
    match s.phase
    case Quit => if e.Stop? then StopSession(s) else (s, [])
    case Idle =>
      (match e
       case Start(a) => IdleStart(s, a)
       case Stop => StopSession(s)
       case _ => (s, []))
    case Started => StartedStep(s, e)
  }

  /** A sequence of messages, with everything reported along the way. */
  function Run(s: Session, events: seq<Event>): (r: (Session, seq<Output>))
    ensures s.phase != Idle ==> r.0.phase != Idle
    ensures s.phase == Quit ==> r.0.phase == Quit
    ensures (forall i :: 0 <= i < |events| ==> !events[i].Stop?) && s.phase == Quit ==> r == (s, [])
    decreases |events|
  {
    if |events| == 0 then (s, [])
    else
      var (s1, o1) := Step(s, events[0]);
      assert forall i :: 0 <= i < |events| - 1 ==> events[1..][i] == events[i + 1];
      var (s2, o2) := Run(s1, events[1..]);
      assert (forall i :: 0 <= i < |events| ==> !events[i].Stop?) && s.phase == Quit ==>
        !events[0].Stop? && s1 == s && o1 == [] && o1 + o2 == o2;
      (s2, o1 + o2)
  }
}

=== FILE: soft_ap_policy.dfy ===
/**
 * The decision rules of SoftApManager that do not depend on the state machine: starting
 * the AP (configuration, country code and band), the idle-timeout delay, the failure
 * reason of a failed start, and the band-preference rule.
 */
module SoftApPolicy {
  import opened Wrappers
  import opened JavaString

  /** The smallest idle-timeout delay, ten minutes. */
  const MIN_SOFT_AP_TIMEOUT_DELAY_MS: int := 600000

  /** Failure reasons reported with the FAILED state. */
  const SAP_START_FAILURE_GENERAL: int := 0
  const SAP_START_FAILURE_NO_CHANNEL: int := 1

  /** The band the user asked for: AP_BAND_2GHZ, AP_BAND_5GHZ or AP_BAND_ANY. */
  datatype ApBand = Band2GHz | Band5GHz | BandAny

  /** The part of the AP configuration the start path reads; macAddrAcl is written by it. */
  datatype ApConfig = ApConfig(ssid: Option<string>, apBand: ApBand, hiddenSsid: bool, macAddrAcl: int)

  /** The result codes of a start attempt (ApConfigUtil's SUCCESS, ERROR_NO_CHANNEL, ERROR_GENERIC). */
  datatype StartResult = Success | ErrorNoChannel | ErrorGeneric

  /**
   * What the platform answers during a start: the saved country-code setting, whether the
   * HAL accepts the country code, the band and channel selection result, and whether the
   * native start succeeds.
   */
  datatype StartAnswers = StartAnswers(
    savedCountryCode: Option<string>,
    setCountryCodeOk: bool,
    channelResult: StartResult,
    nativeStartOk: bool)

  /** The result code, the country code kept afterwards, and the configuration afterwards. */
  datatype StartOutcome = StartOutcome(result: StartResult, countryCode: Option<string>, config: Option<ApConfig>)

  predicate ConfigOk(config: Option<ApConfig>) {
    config.Some? && config.value.ssid.Some?
  }

  /** An empty country code falls back to the saved setting. */
  function EffectiveCountryCode(countryCode: Option<string>, saved: Option<string>): (r: Option<string>)
    ensures !IsEmpty(countryCode) ==> r == countryCode
    ensures IsEmpty(countryCode) ==> r == saved
  {
    if IsEmpty(countryCode) then saved else countryCode
  }

  /**
   * Whether the country-code step lets the start go on: a 5GHz request needs a country code
   * that the HAL accepts; other bands go on either way.
   */
  function CountryCodeAllows(band: ApBand, countryCode: Option<string>, setOk: bool): (r: bool)
    ensures band != Band5GHz ==> r
    ensures band == Band5GHz ==> (r <==> !IsEmpty(countryCode) && setOk)
  {
    if IsEmpty(countryCode) then band != Band5GHz
    else setOk || band != Band5GHz
  }

  /**
   * startSoftAp. A missing configuration or SSID fails before anything else; otherwise the
   * macAddrAcl flag follows the allow-list mode, the country code falls back to the saved
   * setting, the country-code and channel steps may fail, and the native start decides.
   */
  function StartSoftAp(config: Option<ApConfig>, countryCode: Option<string>, whiteListEnabled: bool,
                       answers: StartAnswers): (r: StartOutcome)
    ensures !ConfigOk(config) ==> r == StartOutcome(ErrorGeneric, countryCode, config)
    ensures ConfigOk(config) ==>
      && r.countryCode == EffectiveCountryCode(countryCode, answers.savedCountryCode)
      && r.config == Some(config.value.(macAddrAcl := if whiteListEnabled then 1 else 0))
    ensures r.result == Success <==>
      && ConfigOk(config)
      && CountryCodeAllows(config.value.apBand, r.countryCode, answers.setCountryCodeOk)
      && answers.channelResult == Success
      && answers.nativeStartOk
    ensures r.result == ErrorNoChannel <==>
      && ConfigOk(config)
      && CountryCodeAllows(config.value.apBand, r.countryCode, answers.setCountryCodeOk)
      && answers.channelResult == ErrorNoChannel
    ensures ConfigOk(config) && config.value.apBand == Band5GHz && IsEmpty(r.countryCode) ==>
      r.result == ErrorGeneric
  {
    if !ConfigOk(config) then StartOutcome(ErrorGeneric, countryCode, config)
    else
      var cfg := config.value.(macAddrAcl := if whiteListEnabled then 1 else 0);
      var cc := EffectiveCountryCode(countryCode, answers.savedCountryCode);
      var result :=
        if IsEmpty(cc) && cfg.apBand == Band5GHz then ErrorGeneric
        else if !IsEmpty(cc) && !answers.setCountryCodeOk && cfg.apBand == Band5GHz then ErrorGeneric
        else if answers.channelResult != Success then answers.channelResult
        else if !answers.nativeStartOk then ErrorGeneric
        else Success;
      StartOutcome(result, cc, Some(cfg))
  }

  /**
   * For a 2.4GHz or any-band request the result does not depend on the country code nor on
   * whether the HAL accepts it.
   */
  lemma NonFiveGHzIgnoresCountryCode(config: Option<ApConfig>, cc1: Option<string>, cc2: Option<string>,
                                     w: bool, a1: StartAnswers, a2: StartAnswers)
    requires ConfigOk(config) && config.value.apBand != Band5GHz
    requires a1.channelResult == a2.channelResult && a1.nativeStartOk == a2.nativeStartOk
    ensures StartSoftAp(config, cc1, w, a1).result == StartSoftAp(config, cc2, w, a2).result
  {
  }

  /** A non-SUCCESS channel result that is reached comes back unchanged. */
  lemma ChannelFailurePassesThrough(config: Option<ApConfig>, cc: Option<string>, w: bool, a: StartAnswers)
    requires ConfigOk(config) && a.channelResult != Success
    requires CountryCodeAllows(config.value.apBand, EffectiveCountryCode(cc, a.savedCountryCode), a.setCountryCodeOk)
    ensures StartSoftAp(config, cc, w, a).result == a.channelResult
  {
  }

  /** getConfigSoftApTimeoutDelay: the configured delay, raised to the minimum. */
  function TimeoutDelay(configured: int): (d: int)
    ensures d >= MIN_SOFT_AP_TIMEOUT_DELAY_MS && d >= configured
    ensures d == configured || d == MIN_SOFT_AP_TIMEOUT_DELAY_MS
  {
    if configured < MIN_SOFT_AP_TIMEOUT_DELAY_MS then MIN_SOFT_AP_TIMEOUT_DELAY_MS else configured
  }

  /** The failure reason of a failed start: NO_CHANNEL exactly for ERROR_NO_CHANNEL. */
  function FailureReason(result: StartResult): (reason: int)
    ensures reason == SAP_START_FAILURE_NO_CHANNEL <==> result == ErrorNoChannel
    ensures reason == SAP_START_FAILURE_GENERAL || reason == SAP_START_FAILURE_NO_CHANNEL
  {
    if result == ErrorNoChannel then SAP_START_FAILURE_NO_CHANNEL else SAP_START_FAILURE_GENERAL
  }

  /**
   * The user's band preference is violated when a 2GHz request runs on a 5GHz frequency or
   * a 5GHz request on a 2.4GHz frequency; the classification of the frequency is an input.
   */
  function BandPreferenceViolated(band: ApBand, is5GHz: bool, is24GHz: bool): (r: bool)
    ensures band == BandAny ==> !r
    ensures !is5GHz && !is24GHz ==> !r
    ensures r ==> (band == Band2GHz && is5GHz) || (band == Band5GHz && is24GHz)
    ensures (band == Band2GHz && is5GHz) || (band == Band5GHz && is24GHz) ==> r
  {
    match band
    case Band2GHz => is5GHz
    case Band5GHz => is24GHz
    case BandAny => false
  }
}

=== FILE: soft_ap_properties.dfy ===
/**
 * Properties of the SoftApManager state machine: the session invariant every message
 * keeps, the start outcomes, the station list and count, the timer rules, the common end
 * of every path out of Started, and that a quit machine stays quit.
 */
module SoftApProperties {
  import opened Wrappers
  import opened JavaString
  import opened SoftApPolicy
  import opened Roster
  import opened SoftApMachine
  import CS = ClientStats

  /**
   * The session invariant: valid client statistics, a well-formed station list whose
   * length is the count, and, while Started, a named live interface, a delay of at least
   * the minimum and a pending timer exactly when timeout is enabled and no station is
   * connected. Outside Started there are no stations and no timer.
   */
  predicate Valid(s: Session) {
    && CS.Valid(s.clients)
    && RosterOk(s.stations)
    && s.numStations == Count(s.stations)
    && (s.phase != Started ==> s.stations == "" && !s.timerPending)
    && (s.phase == Idle ==> !s.ifaceUp)
    && (s.phase == Started ==>
          && (s.timerPending <==> s.timeoutEnabled && s.numStations == 0)
          && s.iface.Some? && s.iface.value != ""
          && !s.ifaceDestroyed
          && s.timeoutDelay >= MIN_SOFT_AP_TIMEOUT_DELAY_MS)
  }

  /** The driver reports stations by 17-character MAC strings. */
  predicate EventOk(e: Event) {
    e.StationConnected? ==> StationMac(e.mac)
  }

  /** A new manager over valid client statistics satisfies the invariant. */
  lemma InitValid(config: Option<ApConfig>, countryCode: Option<string>, clients: CS.Stats)
    requires CS.Valid(clients)
    ensures Valid(Init(config, countryCode, clients))
  {
  }

  /** Leaving Started, whatever the reason, ends in a valid quit session. */
  lemma ExitValid(s: Session)
    requires CS.Valid(s.clients)
    ensures Valid(ExitStarted(s).0)
  {
  }

  lemma StopValid(s: Session)
    requires Valid(s)
    ensures Valid(StopSession(s).0)
  {
    if s.phase == Started {
      ExitValid(s);
    }
  }

  lemma IdleStepValid(s: Session, e: Event)
    requires Valid(s) && s.phase == Idle
    ensures Valid(Step(s, e).0)
  {
    if e.Stop? {
      StopValid(s);
    }
  }

  lemma StationStepValid(s: Session, e: Event)
    requires Valid(s) && s.phase == Started && EventOk(e)
    requires e.StationConnected? || e.StationDisconnected?
    ensures Valid(Step(s, e).0)
  {
    if e.StationConnected? {
      ConnectAppendsOnce(s.stations, e.mac);
    } else {
      DisconnectRemoves(s.stations, e.mac);
    }
  }

  lemma StartedStepValid(s: Session, e: Event)
    requires Valid(s) && s.phase == Started && EventOk(e)
    ensures Valid(Step(s, e).0)
  {
    match e
    case StationConnected(_) => StationStepValid(s, e);
    case StationDisconnected(_) => StationStepValid(s, e);
    case Stop => StopValid(s);
    case NoAssociatedStationsTimeout =>
      if s.timeoutEnabled && s.numStations == 0 {
        ExitValid(s.(timerPending := false));
      }
    case InterfaceDestroyed => ExitValid(s.(ifaceDestroyed := true));
    case Failure => ExitValid(s);
    case InterfaceDown => ExitValid(s);
    case _ =>
  }

  /** Every message keeps the session invariant. */
  lemma StepKeepsValid(s: Session, e: Event)
    requires Valid(s) && EventOk(e)
    ensures Valid(Step(s, e).0)
  {
    match s.phase
    case Quit => if e.Stop? { StopValid(s); }
    case Idle => IdleStepValid(s, e);
    case Started => StartedStepValid(s, e);
  }

  /** So does every sequence of messages. */
  lemma {:induction false} RunKeepsValid(s: Session, events: seq<Event>)
    requires Valid(s) && forall i :: 0 <= i < |events| ==> EventOk(events[i])
    ensures Valid(Run(s, events).0)
    decreases |events|
  {
    if |events| > 0 {
      StepKeepsValid(s, events[0]);
      var s1 := Step(s, events[0]).0;
      assert forall i :: 0 <= i < |events[1..]| ==> events[1..][i] == events[i + 1];
      RunKeepsValid(s1, events[1..]);
    }
  }

  /** A quit machine ignores every message but stop(), which can only report. */
  lemma QuitIsTerminal(s: Session, e: Event)
    requires s.phase == Quit
    ensures Step(s, e).0 == s
    ensures !e.Stop? ==> Step(s, e).1 == []
    ensures e.Stop? ==> (Step(s, e).1 ==
      if s.iface.Some? then [StateChanged(Disabling, if s.ifaceUp then Enabled else Enabling, 0)] else [])
  {
  }

  /** Once quit, a machine stays quit whatever follows. */
  lemma {:induction false} RunStaysQuit(s: Session, events: seq<Event>)
    requires s.phase == Quit
    ensures Run(s, events).0 == s
    decreases |events|
  {
    if |events| > 0 {
      QuitIsTerminal(s, events[0]);
      RunStaysQuit(s, events[1..]);
    }
  }

  /**
   * The three outcomes of CMD_START in Idle: an empty interface name reports FAILED with
   * the general reason and stays Idle; a failed start reports FAILED with NO_CHANNEL
   * exactly for ERROR_NO_CHANNEL, tears the interface down and stays Idle; a successful
   * start enters Started.
   */
  lemma IdleStartOutcomes(s: Session, a: NativeAnswers)
    requires s.phase == Idle
    ensures var (s1, outs) := Step(s, Start(a));
      var result := StartSoftAp(s.config, s.countryCode, CS.IsWhiteListEnabled(s.clients), a.start).result;
      && (IsEmpty(a.iface) ==>
            s1.phase == Idle && outs == [StateChanged(Failed, Disabled, SAP_START_FAILURE_GENERAL)])
      && (!IsEmpty(a.iface) && result != Success ==>
            && s1.phase == Idle
            && (StateChanged(Failed, Enabling, SAP_START_FAILURE_NO_CHANNEL) in outs <==> result == ErrorNoChannel)
            && (StateChanged(Failed, Enabling, SAP_START_FAILURE_GENERAL) in outs <==> result == ErrorGeneric)
            && outs[|outs| - 1] == Teardown(a.iface))
      && (!IsEmpty(a.iface) && result == Success ==> s1.phase == Started)
  {
  }

  /**
   * What entering Started does, seen from a successful start: flags and count reset, the
   * delay at least the minimum, the timer armed exactly when timeout is enabled, and
   * ENABLED reported at once when the interface is already up.
   */
  lemma EnterOnSuccessfulStart(s: Session, a: NativeAnswers)
    requires s.phase == Idle && !IsEmpty(a.iface)
    requires StartSoftAp(s.config, s.countryCode, CS.IsWhiteListEnabled(s.clients), a.start).result == Success
    ensures var (s1, outs) := Step(s, Start(a));
      && s1.phase == Started && !s1.ifaceDestroyed && s1.numStations == 0
      && s1.ifaceUp == a.ifaceUp
      && s1.timeoutDelay == TimeoutDelay(a.configuredDelay)
      && (s1.timerPending <==> a.timeoutSetting == 1)
      && (a.ifaceUp <==> StateChanged(Enabled, Enabling, 0) in outs)
  {
  }

  /**
   * A connect in Started appends the MAC only when it is not listed yet, and the count is
   * the number of listed stations afterwards.
   */
  lemma ConnectStep(s: Session, mac: string)
    requires Valid(s) && s.phase == Started && StationMac(mac)
    ensures var s1 := Step(s, StationConnected(mac)).0;
      && (mac in Tokens(s.stations) ==> Tokens(s1.stations) == Tokens(s.stations))
      && (mac !in Tokens(s.stations) ==> Tokens(s1.stations) == Tokens(s.stations) + [mac])
      && Distinct(Tokens(s1.stations))
      && s1.numStations == |Tokens(s1.stations)|
  {
    assert RosterOk(s.stations);
    ConnectStepStations(s, mac);
    ConnectAppendsOnce(s.stations, mac);
  }

  /** In Started a connect hands the roster with the MAC added to the station update. */
  lemma ConnectStepStations(s: Session, mac: string)
    requires s.phase == Started
    ensures var s1 := Step(s, StationConnected(mac)).0;
      s1.stations == AfterConnect(s.stations, mac) && s1.numStations == Count(s1.stations)
  {
    assert Step(s, StationConnected(mac)) == StationsChanged(s, AfterConnect(s.stations, mac));
  }

  /**
   * A disconnect in Started removes exactly the MAC's token, keeps the order of the rest,
   * changes nothing for a MAC that is not listed, and the count follows.
   */
  lemma DisconnectStep(s: Session, mac: string)
    requires Valid(s) && s.phase == Started
    ensures var s1 := Step(s, StationDisconnected(mac)).0;
      && Tokens(s1.stations) == Without(Tokens(s.stations), mac)
      && (mac !in Tokens(s.stations) ==> s1.stations == s.stations && s1.numStations == s.numStations)
      && s1.numStations == |Tokens(s1.stations)|
  {
    DisconnectRemoves(s.stations, mac);
  }

  /**
   * After a station change the timer is pending exactly when no station is left and
   * timeout is enabled; when the count did not change nothing but the broadcast happens.
   */
  lemma StationChangeTimer(s: Session, e: Event)
    requires Valid(s) && s.phase == Started
    requires e.StationConnected? || e.StationDisconnected?
    ensures var (s1, outs) := Step(s, e);
      && (s1.timerPending <==> s1.numStations == 0 && s1.timeoutEnabled)
      && (s1.numStations == s.numStations ==> outs == [ConnectionChanged])
      && (s1.numStations != s.numStations ==> outs == [NumClientsChanged(s1.numStations), ConnectionChanged])
  {
    var stations := if e.StationConnected? then AfterConnect(s.stations, e.mac)
      else AfterDisconnect(s.stations, e.mac);
    assert Step(s, e) == StationsChanged(s, stations);
    StationsChangedOutputs(s, stations);
  }

  /** A station update reports the new count only when it changed, then the connection. */
  lemma StationsChangedOutputs(s: Session, stations: string)
    ensures var (s1, outs) := StationsChanged(s, stations);
      && (s1.numStations == s.numStations ==> outs == [ConnectionChanged])
      && (s1.numStations != s.numStations ==> outs == [NumClientsChanged(s1.numStations), ConnectionChanged])
  {
    var clients := CS.AddOrUpdateClientInfoList(s.clients, stations);
    var n := |CS.GetStaClientInfoList(clients)|;
    var (s2, outs) := SetNumAssociatedStations(s.(stations := stations, clients := clients), n);
    assert StationsChanged(s, stations) == (s2, outs + [ConnectionChanged]);
  }

  /**
   * The timeout toggle: off cancels the timer, on with no station schedules it, the same
   * value changes nothing; the invariant's timer rule holds afterwards.
   */
  lemma ToggleTimer(s: Session, setting: int)
    requires Valid(s) && s.phase == Started
    ensures var s1 := Step(s, TimeoutToggleChanged(setting)).0;
      && (s1.timeoutEnabled <==> setting == 1)
      && (setting != 1 ==> !s1.timerPending)
      && (setting == 1 && s.numStations == 0 ==> s1.timerPending)
      && ((setting == 1) == s.timeoutEnabled ==> s1 == s)
      && (s1.timerPending <==> s1.timeoutEnabled && s1.numStations == 0)
  {
    assert Step(s, TimeoutToggleChanged(setting)) == (ToggleTimeout(s, setting == 1), []);
  }

  /** A timeout leaves Started exactly when timeout is enabled and no station is connected. */
  lemma TimeoutRule(s: Session)
    requires s.phase == Started
    ensures var (s1, outs) := Step(s, NoAssociatedStationsTimeout);
      && (s1.phase == Quit <==> s.timeoutEnabled && s.numStations == 0)
      && (s1.phase != Quit ==> outs == [] && s1 == s.(timerPending := false))
  {
  }

  /** A channel switch, a native station count and a repeated start leave state and count. */
  lemma QuietMessages(s: Session, e: Event)
    requires s.phase == Started
    requires e.ChannelSwitched? || e.NumAssociatedStationsChanged? || e.Start?
    ensures var (s1, outs) := Step(s, e);
      && s1.phase == Started && s1.numStations == s.numStations && s1.stations == s.stations
      && s1.timerPending == s.timerPending
      && forall i :: 0 <= i < |outs| ==> !outs[i].StateChanged? && !outs[i].NumClientsChanged?
  {
  }

  /** The band-preference metric is counted exactly for a 2GHz request on 5GHz or 5GHz on 2.4GHz. */
  lemma BandViolationRule(s: Session, freq: int, bw: int, is5: bool, is24: bool)
    requires s.phase == Started && s.config.Some?
    ensures var (s1, outs) := Step(s, ChannelSwitched(freq, bw, is5, is24));
      && s1.reportedFrequency == freq && s1.reportedBandwidth == bw
      && (BandPreferenceViolation(freq) in outs <==>
            (s.config.value.apBand == Band2GHz && is5) || (s.config.value.apBand == Band5GHz && is24))
  {
  }

  /** The messages that leave Started. */
  predicate Leaves(s: Session, e: Event) {
    || e.Stop? || e.InterfaceDestroyed? || e.Failure? || e.InterfaceDown?
    || (e.NoAssociatedStationsTimeout? && s.timeoutEnabled && s.numStations == 0)
  }

  /**
   * Every path out of Started ends alike: the interface is torn down unless it was
   * destroyed, the list is empty and the count 0, no timer is pending, DISABLED is the
   * last report and the machine has quit.
   */
  lemma ExitsEndAlike(s: Session, e: Event)
    requires Valid(s) && s.phase == Started && Leaves(s, e)
    ensures var (s1, outs) := Step(s, e);
      && s1.phase == Quit && s1.stations == "" && s1.numStations == 0 && !s1.timerPending
      && s1.iface.None?
      && |outs| > 0 && outs[|outs| - 1] == StateChanged(Disabled, Disabling, 0)
      && (Teardown(s.iface) in outs <==> !e.InterfaceDestroyed?)
      && (e.Stop? ==> outs[0] == StateChanged(Disabling, if s.ifaceUp then Enabled else Enabling, 0))
      && (e.NoAssociatedStationsTimeout? || e.InterfaceDestroyed? ==>
            outs[0] == StateChanged(Disabling, Enabled, 0))
      && (e.Failure? || e.InterfaceDown? ==> outs[1] == StateChanged(Disabling, Failed, 0))
  {
    assert s.iface.Some?;
    assert Step(s, e) == StartedStep(s, e);
    if e.Stop? {
      var (s2, o2) := ExitStarted(s);
      assert StartedStep(s, e) == (s2, [StateChanged(Disabling, if s.ifaceUp then Enabled else Enabling, 0)] + o2);
    } else if e.InterfaceDestroyed? {
      var (s2, o2) := ExitStarted(s.(ifaceDestroyed := true));
      assert StartedStep(s, e) == (s2, [StateChanged(Disabling, Enabled, 0)] + o2);
    } else if e.Failure? || e.InterfaceDown? {
      var (s2, o2) := ExitStarted(s);
      assert StartedStep(s, e) == FailAndExit(s);
      assert FailAndExit(s) == (s2, [StateChanged(Failed, Enabled, SAP_START_FAILURE_GENERAL),
        StateChanged(Disabling, Failed, 0), RestartRequested] + o2);
    } else {
      var (s2, o2) := ExitStarted(s.(timerPending := false));
      assert StartedStep(s, e) == (s2, [StateChanged(Disabling, Enabled, 0)] + o2);
    }
  }

  /**
   * stop() in Idle after a start that failed past interface setup still reports DISABLING
   * (from ENABLING), because the interface name is kept; no DISABLED follows.
   */
  lemma StopAfterFailedStart(s: Session, a: NativeAnswers)
    requires Valid(s) && s.phase == Idle && !IsEmpty(a.iface)
    requires StartSoftAp(s.config, s.countryCode, CS.IsWhiteListEnabled(s.clients), a.start).result != Success
    ensures var s1 := Step(s, Start(a)).0;
      s1.phase == Idle && Step(s1, Stop) == (s1.(phase := Quit), [StateChanged(Disabling, Enabling, 0)])
  {
  }
}

=== FILE: wrappers.dfy ===
/** Option, the model's stand-in for a Java reference that may be null. */
module Wrappers {

  datatype Option<+T> = None | Some(value: T) {

    /** Returns the value inside Some, or a default value if None. */
    function GetOr(default: T): T {
      match this
      case Some(v) => v
      case None => default
    }
  }
}
